=== FILE: README.md ===
# Hacker News scraper and repository-star tracker, modelled in Dafny

This project models the core of a small tool set that collects Hacker News
posts and relates them to the GitHub stars of the repositories they link
to:

- two ways of collecting posts. The first is the Algolia search API
  (`HNAPIClient`): a paged loop with a post budget, which converts each
  search hit into an `HNPost`. The second is front-page scraping, done by
  two scrapers (`HNWebScraper` and `HackerNewsScraper`) that parse story
  rows, qualify relative URLs, parse relative ages ("2 hours ago") and
  estimate how many pages a time span needs;
- the post record `HNPost`: its 23 fields in declared order, its
  defaults, and its six substring classification flags;
- the GitHub star tracker. It resolves a URL to `(owner, repo)`, handles
  status codes page by page (403 rate limit, 404, 422, transport errors),
  runs the pagination loop with a page cap, and tallies stars per day;
- the star enrichment of posts (`_enrich_with_github_stars`). It memoises
  per repository and splits the stars into those given before and those
  given at-or-after the post time. The split is modelled as the corrected
  comparison of instants; as written, the comparison of an aware star time
  with a naive post time raises (see Findings);
- the analyser (`HNGitHubAnalyzer`). It filters repository posts, fetches
  each repository's stars once, joins stars to posts (the last post for a
  repository wins), builds the per-star rows and the summary, and reloads
  posts from the CSV that `save_to_csv` writes.

Modelling conventions:

- Times are integer epoch seconds (`Models.Timestamp`).
- The network is modelled as follows:
  - a star-page script: one response per request;
  - a search-response script;
  - a page oracle keyed by URL;
  - a star-fetch oracle, indexed by call number and repository.
- `urlparse` is an oracle `UrlParser` that yields the netloc and path, or
  `None` when it raises.
- Python's `str.lower`, `str.strip`, `str.split` and `int(...)` are
  modelled in `Text`: `lower` on ASCII letters only, and whitespace as the
  ASCII and Latin-1 whitespace characters (see Left out).
- Instants are modelled as naive datetimes read in UTC: a time is a datetime
  iff it lies between the first second of year 1 and the last of year 9999
  (`Models.InDatetimeRange`).
- ISO date text in the CSV is modelled by decimal text of the timestamp,
  read back with the integer parser.

Modules follow the program:

| module | file |
|---|---|
| `Optional`, `Text` | shared helpers |
| `Models` | models.py |
| `Classification`, `Age` | rules shared by the converters and scrapers |
| `GitHubStars` | github_stars.py |
| `SearchApi` | api_scraper.py and `HNAPIClient` in hackernews.py (the two are identical) |
| `FrontPage` | both front-page scrapers |
| `Enrichment` | the enrichment fold |
| `Integration` | hn_github_integration.py |
| `PostCsv` | `save_to_csv` and `load_posts_from_csv` |
| `HackerNews` | the `fetch_posts` entry point |

## Model

| member | source | states |
|---|---|---|
| Models.NewPost | models.py:23-82 | A post built from its required fields has no url, domain or posted time, has all six flags false, and has all five enrichment fields absent. |
| Models.FieldNamesWellFormed | models.py:23-82 | There are 23 distinct column names in declared order, and every required field is one of them. |
| Models.WithSummary | hackernews.py:185-190 | Setting a summary fills exactly the five enrichment fields from it, leaves every other field unchanged, and yields a consistently enriched post. |
| Models.SummaryOfWithSummary | hackernews.py:152-160 | The summary read back from an enriched post is the one written into it. |
| Classification.Classify | hackernews.py:371-379 | Each flag holds iff its lower-cased substring test holds: "show hn", "ask hn" and "yc" in the title; "github.com", "twitter.com" or "x.com" in the url. An empty url sets no link flag. |
| Classification.ClassifyIgnoresCase | api_scraper.py:155-166 | The flags do not depend on the letter case of the title or url. |
| Classification.XComFlagsOtherHosts | api_scraper.py:164-166 | The "x.com" test also flags urls of hosts such as dropbox.com as Twitter links. |
| Age.UnitSeconds | hackernews.py:482-493 | A unit word is accepted iff it contains minute, hour, day, month or year. The first match in that order decides its length: 60, 3600 and 86400 seconds, a month of 30 days, a year of 365 days. |
| Age.ParseAge | hackernews.py:462-495 | There is no time iff the lower-cased text has fewer than two tokens, or its first token is not an integer, or its second names no unit. Otherwise the result is now minus count × unit when that instant is inside the datetime range, and an overflow (an escaping `OverflowError`) when it is not. |
| Age.AgeAt | hackernews.py:482-491 | A computed instant is a time iff a datetime can hold it (years 1 to 9999); otherwise it is an overflow. |
| Age.ParseAgeOfWords | scraper.py:78-100 | Text whose first two lower-cased words are an integer v and a unit of u seconds parses to now − v·u, or overflows outside the datetime range. |
| Age.ParseAgeOfText | scraper.py:69-102 | "<n> <unit> ago" parses to now minus n units, or overflows outside the datetime range. |
| Age.ParseAgeExamples | scraper.py:88-98 | With a clock more than a year past year 1, "5 minutes ago", "2 days ago", "3 months ago" and "1 year ago" give now minus 300, 172800, 7776000 and 31536000 seconds. |
| Age.ParseAgeOverflows | hackernews.py:491 | "2100 years ago" read before 2099 reaches before year 1, so the subtraction overflows instead of giving a time. |
| Age.AgeTextRoundTrip | hackernews.py:357-369 | For a clock and a creation time that are both datetimes, the age text written for a post created delta ≥ 0 seconds ago parses back to a time, at most delta seconds before now and less than one unit after now − delta. |
| Age.AgeWordNamesUnit | api_scraper.py:140-152 | The unit word written (days, hours or minutes) is one the parser accepts, with the same unit length used for the count. |
| Age.AgeCountBracketsDelta | api_scraper.py:140-152 | The count written is the floor of the age in its unit: count·unit ≤ delta < (count+1)·unit. |
| GitHubStars.RepoFullName | github_stars.py:33-36 | The full name is the owner, one slash, then the repository name. |
| GitHubStars.StripGitSuffix | github_stars.py:101-102 | A name ending in ".git" loses exactly that suffix; any other name is kept. |
| GitHubStars.RepoFromSplit | github_stars.py:88-104 | A repository is resolved iff the netloc is github.com or www.github.com and the path has at least two non-empty segments; it is the first segment and the second without ".git". |
| GitHubStars.ExtractRepoInfo | github_stars.py:64-108 | An empty url or a url the parser rejects gives none; otherwise the result is the split rule's, and a resolved owner is non-empty and slash-free. |
| GitHubStars.ResolvesOwnerAndName | github_stars.py:92-104 | Any GitHub path "/owner/name[.git][/rest]" resolves to (owner, name), whatever the later segments are. |
| GitHubStars.ResolverExample | github_stars.py:74-79 | github.com with path /inkeep/agents resolves to ("inkeep", "agents"). |
| GitHubStars.RejectsOtherHostsAndShortPaths | github_stars.py:88-96 | Another host, or fewer than two path segments, resolves to nothing. |
| GitHubStars.ParseStars | github_stars.py:161-175 | A page's items are read iff none has a null time or user (those raise `TypeError`, which the item loop does not catch). There are then as many stars as well-formed items, each carrying the requested owner and repository. Every star comes from a well-formed item with its time and user, and every well-formed item yields its star. |
| GitHubStars.ParseStarsAppend | github_stars.py:161-175 | Reading two readable runs of items one after the other gives the stars of the first followed by those of the second, so stars keep the order of their items. |
| GitHubStars.FetchStarsPage | github_stars.py:110-184 | A 403 with zero quota is a retry of the same page; 404 and 422 give an empty final page; a transport error or other failing status fails the request. The page crashes iff the rate-limit reset is not an integer or a successful page has an unreadable item. Otherwise the stars number at most the raw items, each of the repository, and there are more pages iff the raw page held 100 items. |
| GitHubStars.PagesWithinCap | github_stars.py:200-208 | With a truthy page cap, no page index above the cap is ever requested. |
| GitHubStars.PagesAdvance | github_stars.py:136-145 | The page index stays put after a rate-limited response and advances by one after every other response. |
| GitHubStars.PagesConcat | github_stars.py:210-222 | The stars returned are the in-order concatenation of the page results received. A transport error keeps the stars accumulated so far. |
| GitHubStars.PagesOwnRepository | github_stars.py:210-216 | Every star returned belongs to the requested repository. |
| GitHubStars.FetchAllStarsContract | github_stars.py:186-234 | From page 1: the requests stay within the cap, advance as above, and return the concatenated stars, all of the repository. |
| GitHubStars.StopsAtFirstShortPage | github_stars.py:213-222 | The loop stops right after the first empty page or the first page that reports no more. |
| GitHubStars.CrashLosesAllStars | github_stars.py:213-231 | A page whose reading raises something other than a request error is the last request, and the exception escapes the loop with no star at all. |
| GitHubStars.UnreadableItemLosesAll | github_stars.py:161-175 | A successful page holding an item with a null time or user makes `fetch_all_stars` lose every star of the repository. |
| GitHubStars.FetchStarsFromUrl | github_stars.py:236-256 | An unresolvable url fetches nothing; a resolvable one runs the page loop for its owner and name. |
| GitHubStars.StarCountsByDate | github_stars.py:297-313 | The days are distinct, each day's count is the number of stars on that day (positive), every star's day is present, and the counts sum to the number of stars. |
| SearchApi.DomainOf | hackernews.py:338-346 | A domain is present iff the url is non-empty and parses; it is the parsed netloc. |
| SearchApi.ConvertHit | hackernews.py:317-403 | A hit with an empty or missing title gives no post. A titled hit is a validation error iff its author is null or its creation time is outside the datetime range (`fromtimestamp` raises). Every other hit converts, with rank 0, the given page index, the scrape time, a posted time inside the datetime range and no enrichment. |
| SearchApi.ConvertHitFields | hackernews.py:328-380 | A converted post carries the hit's title and url, the parsed domain, the object id, author, points and comment count with their defaults, the five substring flags of the lower-cased title and url, and is a job exactly when the tags list holds "job". |
| SearchApi.ConvertHitTime | hackernews.py:353-369 | A converted post is posted at the hit's creation time when there is one, with the age text written from the elapsed time; without one the age text is empty. |
| SearchApi.ConvertedAgeParsesBack | api_scraper.py:140-152 | With a clock inside the datetime range and not before the creation time, a converted post's age text parses back to a time, at or after its creation time and less than one unit after it. |
| SearchApi.ConvertAll | api_scraper.py:80-87 | A page converts to at most one post per hit, each with rank 0 and the page index. |
| SearchApi.HitPosts | api_scraper.py:80-85 | One hit gives at most one post, with rank 0 and the page index. |
| SearchApi.ConvertAllAppend | api_scraper.py:80-87 | Converting hits is done hit by hit: a page's posts are the posts of its parts, concatenated. |
| SearchApi.FailedHitDropsAlone | api_scraper.py:80-87 | A hit that gives no post is skipped without affecting the hits around it. |
| SearchApi.PageSize | api_scraper.py:53-60 | Without a truthy budget the page size is 1000. With one, there is no request once the budget is spent; otherwise the size is min(1000, budget − collected). |
| SearchApi.SearchFrom | api_scraper.py:32-97 | Posts collected earlier are kept as a prefix, and there is at most one request per response. |
| SearchApi.FetchPostsInTimeframe | api_scraper.py:45-97 | The run raises before any request iff the cutoff `days` days before now lies outside the datetime range. Otherwise it requests pages 0, 1, ... in order, each with that cutoff, and goes past a response only when it was a non-empty page. |
| SearchApi.SearchFromOrder | api_scraper.py:74-89 | The k-th request asks for page k with the common cutoff, and every request but the last got a non-empty page of hits. |
| SearchApi.SearchFromPageSizes | api_scraper.py:53-60 | The k-th request asks for the page size the budget allows given the posts collected before it: the posts held at the start plus the conversions of the k earlier responses. |
| SearchApi.SearchFromPosts | api_scraper.py:80-96 | The posts are those already collected followed by the conversions of the pages received, in order; the loop stops on a request error or an empty page. |
| SearchApi.SearchFromBudget | api_scraper.py:53-60 | With a truthy budget, and pages no larger than requested, every request is for 1 to 1000 hits and no more than the budget, and the result never exceeds the budget (or the posts it started with, if more). |
| SearchApi.FetchPostsBudget | hackernews.py:271-277 | `fetch_posts_in_timeframe`, when it gets past the cutoff, returns at most `max_posts` posts when every page holds at most the hits requested. |
| SearchApi.UnbudgetedPagesAreFull | hackernews.py:271-277 | With no truthy budget, every request asks for 1000 hits. |
| SearchApi.StopsOnErrorOrEmptyPage | hackernews.py:291-294 | A request error or an empty page ends the loop after that one request, keeping the posts collected so far. |
| FrontPage.PageUrl | scraper.py:52-55 | Page 1 is the bare site; page n ≠ 1 is "/?p=n". |
| FrontPage.PageUrlInjective | hackernews.py:445-448 | Different page numbers are fetched from different URLs. |
| FrontPage.EstimatePages | hackernews.py:217-228 | The estimate is one of 10, 50, 200 or 500: 10 up to one day, 500 beyond 30 days. |
| FrontPage.EstimatePagesMonotone | scraper.py:337-348 | Looking further back never estimates fewer pages. |
| FrontPage.FirstMention | scraper.py:203-217 | The index of the first link whose text mentions "comment", or −1 when none does. |
| FrontPage.CommentCount | hackernews.py:574-586 | The comment count comes from the first link mentioning comments, and is 0 when there is none. |
| FrontPage.DiscussBranchUnreachable | hackernews.py:574-586 | The "discuss" case is never reached: a link that mentions "comment" is never "discuss". |
| FrontPage.NoAgeNoTime | scraper.py:69-102 | A missing age gives no posted time and no overflow. |
| FrontPage.WebPoints | hackernews.py:549-555 | The points are the score's first token as an integer. They are 0 when the score is missing, empty or unparsable. |
| FrontPage.ParseWebRow | hackernews.py:497-628 | A row is skipped iff it lacks a title line, a link, a next row or a subtext cell, has an unparsable rank, or has an age whose time overflows. Otherwise the post carries the row's fields, the time its age parses to, the five flags the title and link give, the page, never the job flag, and no enrichment. Its domain is the first site text anywhere in the title cell. |
| FrontPage.DomainLookupsAgree | scraper.py:148-153 | When the first site text of a title cell is the one inside its site annotation, both scrapers read the same domain. |
| FrontPage.DomainLookupsDiffer | hackernews.py:533-536 | A site text outside any site annotation is the web scraper's domain but not the standalone scraper's. |
| FrontPage.ScraperPoints | scraper.py:183-187 | A missing or blank score is 0 points; otherwise an unparsable first token drops the row. |
| FrontPage.Qualify | scraper.py:144-146 | An href not starting with "http" becomes the site, a slash, then the href; an absolute href is kept. |
| FrontPage.QualifyIdempotent | scraper.py:144-146 | Qualifying twice is the same as qualifying once. |
| FrontPage.ParseScraperRow | scraper.py:104-259 | A row is skipped iff it lacks a title line or link, has no next row, has an unparsable rank or score, or has an age whose time overflows. A row without subtext is a job with zero counts, empty author and age, no time and no other flags. Other rows carry the subtext fields, the time their age parses to, and the five flags of the title and qualified link. Its domain is the site text inside the site annotation only. |
| FrontPage.DisplayedRankParses | scraper.py:128-129 | The displayed rank "n." reads as n under both scrapers' rank rules. |
| FrontPage.ParseRow | hackernews.py:616 | A parsed post carries its page number, and the web scraper never marks a job. |
| FrontPage.CollectAppend | scraper.py:255-257 | Rows are parsed independently: the posts of concatenated rows are the concatenated posts. |
| FrontPage.CollectFromRows | scraper.py:118-259 | Every post parsed from a page comes from one of its rows. |
| FrontPage.ParsePagePosts | hackernews.py:497-628 | Every post of a page carries that page's number, and none from the web scraper is a job. |
| FrontPage.ScrapeFromOrdered | scraper.py:261-282 | The scraped posts come from pages first..last that were fetched, in page order. |
| FrontPage.ScrapePagesOrdered | hackernews.py:630-651 | `scrape_pages(n)` returns posts from fetched pages 1..n, in page order. |
| FrontPage.WebScrapeHasNoJobs | hackernews.py:616 | No post scraped by the web scraper is a job. |
| Enrichment.BeforeAfterPartition | hackernews.py:177-183 | Every star is either before or at-or-after the post time: the two counts add up to the total. |
| Enrichment.CountBeforeIsCardinality | hackernews.py:178-180 | The before count is the number of star positions with a time strictly earlier than the post's. |
| Enrichment.SplitStars | hackernews.py:172-183 | With a post time, before + after = total and before counts the strictly earlier stars; without one, both are 0. |
| Enrichment.SplitExample | hackernews.py:177-183 | Stars at T−2, T−1 and T+1 split into 2 before and 1 after. |
| Enrichment.CountBeforeAsWritten | hackernews.py:178-180 | The comparisons as written count at most all the stars, or raise. |
| Enrichment.SplitAsWritten | hackernews.py:172-183 | As written: with no post time the split is (0, 0); with one, it raises iff a comparison does, and otherwise the sides add up to the total. |
| Enrichment.NaivePostTimeRaises | hackernews.py:177-183 | As written, a non-empty star list (timezone-aware) compared with any post time (naive) raises. |
| Enrichment.AsWrittenAgreesWhenComparable | hackernews.py:177-180 | When the times are comparable, the comparison as written counts the same as the corrected split. |
| Enrichment.Summarize | hackernews.py:172-203 | A cached summary names its repository, counts all its stars and carries the fetch time. With a post time, before counts the stars strictly earlier and after the rest; without one both are 0. |
| Enrichment.EnrichFrom | hackernews.py:137-212 | The fold returns as many posts as it was given, never drops or changes a memo entry, and only appends to the fetch record. |
| Enrichment.EnrichStep | hackernews.py:137-210 | One step of the fold: an unresolvable post is unchanged; a known repository gives the memo's summary; an interrupted fetch returns every post as it stands; a raised or empty fetch leaves the post alone and is recorded uncached; a fetch with stars gives the post the summary of those stars, memoised and recorded cached. |
| Enrichment.EnrichFromPosts | hackernews.py:125-212 | Each post is either returned unchanged or given its repository's memoised summary, and no field outside the five enrichment fields changes. A non-candidate or unresolvable post is unchanged. |
| Enrichment.EnrichFromMemo | hackernews.py:152-203 | The memo holds only consistent summaries of cached fetches, and a repository whose fetch was cached is never fetched again. |
| Enrichment.EnrichContract | hackernews.py:106-215 | From an empty memo: the same posts in order, each unchanged or carrying the memo's summary; a consistent memo; no refetch after caching. |
| Enrichment.SameRepoSameSummary | hackernews.py:152-160 | Two enriched posts of the same repository carry identical summaries, including the first fetch's time. |
| Enrichment.LoopFetcher | github_stars.py:229-231 | A fetch realised by the page loop is never an interrupt. An exception escaping the loop counts as a raised fetch. |
| Integration.FilterGithubPosts | hn_github_integration.py:92 | At most the given posts, each a repository link with a url. |
| Integration.FilterGithubPostsMembership | hn_github_integration.py:92 | A post is kept iff it is among the given posts and is a repository link with a url. |
| Integration.FilterGithubPostsAppend | hn_github_integration.py:92 | The filter keeps the original order: filtering concatenated lists concatenates the results. |
| Integration.FilterGithubPostsIdempotent | hn_github_integration.py:92 | Filtering twice is the same as filtering once. |
| Integration.UrlKey | hn_github_integration.py:117-128 | On a repository-link post, the key used by the analyser is the enrichment's repository key. |
| Integration.FetchStarsFrom | hn_github_integration.py:113-148 | The stars found earlier and the fetch record are kept as prefixes. |
| Integration.FetchStarsInvariant | hn_github_integration.py:130-143 | Recorded repositories are distinct and have non-empty star lists. Every cached fetch is recorded, and a recorded repository is never fetched again. |
| Integration.FetchStarsSourced | hn_github_integration.py:117-143 | Every newly recorded repository is the key of one of the posts. |
| Integration.FetchStarsContract | hn_github_integration.py:96-148 | From nothing: distinct repositories with non-empty star lists, each the key of a post, none fetched twice after it was recorded. |
| Integration.AgreesWithEnrichment | hn_github_integration.py:117-143 | On repository-link posts the analyser's fetch loop makes the same fetches as the enrichment fold. It is interrupted alike, and it records exactly the memoised repositories with their totals. |
| Integration.RepoToPost | hn_github_integration.py:165-172 | Every mapped post is one of the posts, and its url resolves to the key it is mapped under. |
| Integration.RepoToPostLastWins | hn_github_integration.py:165-172 | A repository maps to the last post that resolves to it. |
| Integration.RepoToPostKeys | hn_github_integration.py:165-172 | The keys of the join are exactly the keys of the posts. |
| Integration.RowFor | hn_github_integration.py:180-206 | A row carries the star's owner, name, time and user, and the repository name. With a post, it also carries the post's id, title, posted time, points, comment count, rank and Show HN flag. |
| Integration.RowDefaults | hn_github_integration.py:199-206 | A star with no matching post gets empty texts, zero counts and rank, and no Show HN flag. |
| Integration.RepoRows | hn_github_integration.py:179-208 | One row per star of the repository, in order, each joined with the repository's post. |
| Integration.AllRowsPerStar | hn_github_integration.py:176-208 | There is one row per star across all repositories, and every star's row is present. |
| Integration.AllRowsFromStars | hn_github_integration.py:176-208 | Every row is the row of some star, joined with its repository's post. |
| Integration.NothingSavedIffNoStars | hn_github_integration.py:210-212 | Nothing is written iff there are no stars at all. |
| Integration.Earliest | hn_github_integration.py:257-259 | The first star time is a star's time, and no star is earlier. |
| Integration.Latest | hn_github_integration.py:260-262 | The last star time is a star's time, and no star is later. |
| Integration.ReportFor | hn_github_integration.py:254-281 | A repository report has the name and total. Its first and last star times are present exactly when there are stars, and are then the earliest and latest star times (each attained by a star). It has post figures iff the joined post has a time; they copy the post's time, points and comments, and before + after = total with before counting the strictly earlier stars. |
| Integration.Reports | hn_github_integration.py:254-283 | One report per repository, in order, each joined with its post. |
| Integration.GenerateAnalysisSummary | hn_github_integration.py:224-285 | The summary counts the posts and repositories, with one report per repository. |
| Integration.ReportedStarsAddUp | hn_github_integration.py:237-242 | The reported per-repository totals add up to the summary's total stars. |
| Integration.SummaryContract | hn_github_integration.py:224-285 | total_repos is the number of repositories, total_stars is the sum of their star counts, and each report is as above. |
| PostCsv.Cells | hackernews.py:90-101 | One cell per field, in declared order. |
| PostCsv.SaveToCsv | hackernews.py:78-104 | No posts means no file. Otherwise there is one row per post, in order. |
| PostCsv.IntCell | hn_github_integration.py:53-66 | An integer cell decodes only when the row is long enough. |
| PostCsv.OptCell | hn_github_integration.py:56-57 | An optional text decodes as present iff its cell is non-empty. |
| PostCsv.BoolCell | hn_github_integration.py:69-74 | A flag cell decodes whenever the row has it. |
| PostCsv.BoolRoundTrip | hn_github_integration.py:69-74 | A written flag reads back as itself under `lower() == "true"`. |
| PostCsv.OptTextRoundTrip | hn_github_integration.py:56-57 | A written optional text reads back as itself, except that an empty text reads back as absent. |
| PostCsv.IntCellsRoundTrip | hn_github_integration.py:53-68 | Rank, points, comments, page and scrape time read back as written. |
| PostCsv.BoolCellsRoundTrip | hn_github_integration.py:69-74 | All six flags read back as written. |
| PostCsv.OptionalCellsRoundTrip | hn_github_integration.py:56-66 | The posted time reads back as written; url and domain do too, except that an empty one reads back as absent. |
| PostCsv.ReadColumns | hn_github_integration.py:52-75 | The typed columns are read only from a row with at least the 18 non-enrichment columns. |
| PostCsv.ReadColumnsOfCells | hn_github_integration.py:52-75 | The typed columns of a written post read back as the post's own values. |
| PostCsv.DecodeRow | hn_github_integration.py:52-75 | A row decodes iff its typed columns do. The post decoded has no enrichment, and its url and domain are the non-empty cells. |
| PostCsv.TextCellsOfCells | hn_github_integration.py:54-61 | Id, title, author and age text are written verbatim. |
| PostCsv.DecodeCells | hn_github_integration.py:52-75 | Loading a written row gives the post without its enrichment, with an empty url or domain read as absent. |
| PostCsv.RoundTrip | hn_github_integration.py:52-75 | An unenriched post with no empty url or domain survives save then load unchanged. |
| PostCsv.EmptyUrlReadsAsAbsent | hn_github_integration.py:56 | A post saved with an empty url loads with no url. |
| PostCsv.LoadPosts | hn_github_integration.py:50-80 | Loading succeeds with one post per row, each the decoding of its row. |
| PostCsv.LoadSaved | hn_github_integration.py:35-80 | Loading a saved table gives back every post in order, reloaded as above. |
| HackerNews.BasePosts | hackernews.py:63-70 | A method other than "api" or "web" is an error; "api" with a lookback whose cutoff lies outside the datetime range raises `OverflowError` (hackernews.py:262). |
| HackerNews.FetchPosts | hackernews.py:42-76 | `fetch_posts` fails with `ValueError` iff the method is unknown, and with `OverflowError` iff the method is "api" and the cutoff lies outside the datetime range; otherwise it returns posts. |
| HackerNews.LookbackOverflows | hackernews.py:262 | A lookback of 800000 days with "api", for a clock before 2100, raises instead of returning posts. |
| HackerNews.FetchPostsEnrichesInPlace | hackernews.py:72-76 | `fetch_posts` returns posts iff the base fetch does. Without star fetching the posts are the base posts. With it, they are the same posts in the same order, changed at most in their enrichment fields. |
| HackerNews.WebPostsWithinEstimate | hackernews.py:65-68 | The "web" method returns posts from pages 1 up to the estimate for the span, in page order, none a job. |

## Left out

- HTTP (`requests`), headers, tokens and `time.sleep`. Responses are
  scripts or oracles, and delays do not affect results.
- The wall-clock wait computed for a 403 (`reset_time - time.time()`).
  Only the decision to retry the same page is kept.
- BeautifulSoup. A story row is modelled as a record of the elements the
  parsers look up.
- `urlparse`. It is the `UrlParser` oracle.
- `datetime`. Times are epoch seconds. ISO text in the CSV is modelled by
  decimal text. Timezone awareness appears only in the as-written model of
  the star comparison, `Enrichment.Instant`.
- `print` diagnostics, CSV file I/O, `DictReader` header mapping. Rows are
  modelled positionally in declared column order.
- The CLI drivers: `main` in github_stars.py and hn_github_integration.py,
  main.py, main_with_stars.py, and the module-level `fetch_posts` and
  `save_posts` wrappers in hackernews.py.
- `save_stars_to_csv` in github_stars.py, and the CSV writing of
  `save_stars_with_metadata` and `save_to_csv`. Only the rows are modelled.
- `KeyboardInterrupt`. It is the fetch outcome `Interrupted`. Where the
  source catches it, the fold stops and returns the posts mutated so far;
  in `fetch_stars_for_posts` it propagates, and the run gives `None`.
- Search hits whose fields have unexpected JSON types, other than a null
  author. Their other exceptions (caught per hit) are not distinguished;
  `SearchApi.FailedHitDropsAlone` covers any hit that gives no post.
- Pydantic coercion of field values.
- GitHubStars.PagesFrom: a script that runs out stops the loop (`ScriptEnded`).
  This is the fuel bound of the model; the source loop ends only through the
  responses it receives.
- SearchApi.SearchFrom: the same bound applies (`ScriptEnded`).
- Enrichment.Enrich: `max_star_pages` is not a parameter. It is absorbed
  into the star-fetch oracle; `Enrichment.LoopFetcher` shows the oracle
  realised by the page loop with a cap.
- FrontPage.ParseWebRow: the rank is parsed after stripping whitespace and
  trailing dots. The standalone scraper strips dots only, from both ends
  (`FrontPage.ScraperRank`). Both read a displayed "n." as n.
- Age.ParseAge: integers are read by `Text.ParseInt`, with its limits below.
- Age.ParseAge: `lower()` is modelled on ASCII letters only; non-ASCII
  capitals, which Python lower-cases, are left as they are.
- Text.ParseInt: Python's limit of 4300 digits on `int()` of a string is not
  modelled; a longer digit string parses here but raises `ValueError` there.
- Text.ParseInt: signs and surrounding whitespace are read as `int()` reads
  them, but underscore separators ("1_000") and non-ASCII digits, which
  `int()` accepts, are rejected here. This affects every `int()` site that
  goes through it: `FrontPage.WebRank`, `FrontPage.ScraperRank`,
  `FrontPage.WebPoints`, `FrontPage.ScraperPoints`, `FrontPage.LinkCount`,
  the amount in `Age.ParseAge` and `PostCsv.IntCell`.
- Text.Strip: the whitespace set is Python's within ASCII and Latin-1
  (adding \x1c-\x1f, \x85 and \xa0). U+1680, U+2000-U+200A, U+2028,
  U+2029, U+202F, U+205F and U+3000 are not stripped here.
- Text.Words: splits on the same set, so the same characters are not
  separators here.
- Models.InDatetimeRange: the local timezone of `datetime.now()` and
  `fromtimestamp` is taken as UTC, so the range ends are exact only there.
- Classification.Classify: `lower()` is modelled on ASCII letters only.
- PostCsv.BoolCell: `lower()` is modelled on ASCII letters only.
- Enrichment.EnrichFrom: the before/after split is the corrected comparison.
  As written, a post with a time and a repository with stars raises
  `TypeError`, caught per post (Findings, first row).
- Enrichment.EnrichContract: promises the corrected split for the same
  reason; the as-written comparison is `Enrichment.SplitAsWritten`.
- HackerNews.FetchPosts: its enrichment uses the corrected split, as above.
- Integration.GenerateAnalysisSummary: the before/after figures use the
  corrected split; as written, they raise (Findings, second row).

Observations (not defects in the sense of the findings below):

- `max_posts = 0` means "no budget", because the test is truthiness.
- The "x.com" test flags hosts such as dropbox.com.
- The comment rule's "discuss" branch is dead code.
- An empty url or domain does not survive a save/load round trip.

## Findings

| source | as written | input that shows it | evidently intended | confidence | as-written member | corrected member |
|---|---|---|---|---|---|---|
| hackernews.py:177-183 | `s.starred_at < post.posted_at` compares a timezone-aware star time (parsed with "+00:00") with a naive post time (`fromtimestamp` / `now() - timedelta`). This raises `TypeError`; line 210 catches it, so the post is never enriched and nothing is cached. | any post with `posted_at` set whose repository has at least one star | compare the two instants: before = stars strictly earlier, after = the rest | not executed | Enrichment.NaivePostTimeRaises | Enrichment.SplitStars |
| hn_github_integration.py:268-271 | The same mixed comparison in `generate_analysis_summary` is not caught, so the summary raises. | a joined post with `posted_at` (naive, from the CSV) and a repository with at least one star | before/after figures for every repository whose post has a time | not executed | Enrichment.SplitAsWritten | Integration.ReportFor |

=== FILE: age.dfy ===
/** Relative ages: the parser that turns front-page text such as
    "2 hours ago" into a posted time, and the rule the search-API conversion
    uses to write such text from an epoch timestamp. */
module Age {
  import opened Optional
  import opened Text
  import opened Models

  const MinuteSeconds := 60
  const HourSeconds := 3600
  const DaySeconds := 86400

  /** The length of one unit, chosen by the first substring test that
      matches, in the order minute, hour, day, month (30 days), year
      (365 days). */
  function UnitSeconds(unit: string): (r: Option<int>)
    ensures r.Some? <==> (Contains(unit, "minute") || Contains(unit, "hour")
      || Contains(unit, "day") || Contains(unit, "month") || Contains(unit, "year"))
    ensures Contains(unit, "minute") ==> r == Some(MinuteSeconds)
    ensures !Contains(unit, "minute") && Contains(unit, "hour") ==> r == Some(HourSeconds)
    ensures !Contains(unit, "minute") && !Contains(unit, "hour") && Contains(unit, "day") ==> r == Some(DaySeconds)
    ensures (!Contains(unit, "minute") && !Contains(unit, "hour") && !Contains(unit, "day")
             && Contains(unit, "month")) ==> r == Some(30 * DaySeconds)
    ensures (!Contains(unit, "minute") && !Contains(unit, "hour") && !Contains(unit, "day")
             && !Contains(unit, "month") && Contains(unit, "year")) ==> r == Some(365 * DaySeconds)
    ensures r.Some? ==> r.value in {MinuteSeconds, HourSeconds, DaySeconds, 30 * DaySeconds, 365 * DaySeconds}
  {
    if Contains(unit, "minute") then Some(MinuteSeconds)
    else if Contains(unit, "hour") then Some(HourSeconds)
    else if Contains(unit, "day") then Some(DaySeconds)
    else if Contains(unit, "month") then Some(30 * DaySeconds)
    else if Contains(unit, "year") then Some(365 * DaySeconds)
    else None
  }

  /** What the age parser gives: a posted time or none, or an overflow,
      when the time computed lies outside the datetime range: Python raises
      `OverflowError` there, which the parser does not catch, so it reaches
      the caller. */
  datatype AgeParse = Parsed(time: Option<Timestamp>) | Overflow

  /** The result for a computed time: the time, when a datetime can hold it. */
  function AgeAt(t: Timestamp): (r: AgeParse)
    ensures r.Parsed? <==> InDatetimeRange(t)
    ensures r.Parsed? ==> r.time == Some(t)
  {
    if InDatetimeRange(t) then Parsed(Some(t)) else Overflow
  }

  /** Words an age can be read from: an integer, then a unit word. */
  predicate Readable(parts: seq<string>) {
    |parts| >= 2 && ParseInt(parts[0]).Some? && UnitSeconds(parts[1]).Some?
  }

  /** The age the words state, in seconds: the count times the unit. */
  function Offset(parts: seq<string>): int
    requires Readable(parts)
  {
    ParseInt(parts[0]).value * UnitSeconds(parts[1]).value
  }

  /** `parse_age_to_datetime`: the text is lower-cased and split on
      whitespace; the first token must be an integer and the second must name
      a unit; the result is `now` minus that many units, or an overflow when
      that instant is outside the datetime range. Fewer than two tokens, a
      non-integer first token or an unknown unit give no time. */
  function ParseAge(text: string, now: Timestamp): (r: AgeParse)
    ensures |Words(Lower(text))| < 2 ==> r == Parsed(None)
    ensures !Readable(Words(Lower(text))) <==> r == Parsed(None)
    ensures Readable(Words(Lower(text))) && InDatetimeRange(now - Offset(Words(Lower(text)))) ==>
      r == Parsed(Some(now - Offset(Words(Lower(text)))))
    ensures Readable(Words(Lower(text))) && !InDatetimeRange(now - Offset(Words(Lower(text)))) ==>
      r == Overflow
    ensures r.Parsed? && r.time.Some? ==> InDatetimeRange(r.time.value)
  {
    ParseWords(Words(Lower(text)), now)
  }

  /** The parser on the lower-cased words of the text. */
  function ParseWords(parts: seq<string>, now: Timestamp): AgeParse {
    if |parts| < 2 then Parsed(None)
    else
      match ParseInt(parts[0])
      case None => Parsed(None)
      case Some(value) =>
        match UnitSeconds(parts[1])
        case None => Parsed(None)
        case Some(u) => AgeAt(now - value * u)
  }

  /** The age text the search-API conversion writes for a post created
      `delta` seconds before now: "<count> <unit> ago". */
  function AgeText(delta: int): string {
    UnitText(AgeCount(delta), AgeWord(delta))
  }

  /** "<n> <unit> ago". */
  function UnitText(n: nat, unit: string): string {
    NatToString(n) + " " + unit + " ago"
  }

  /** Like Python's `timedelta`, the delta splits into whole days (rounded
      down) and a remainder in [0, 86400); exactly one unit is written: days
      when positive, else hours of the remainder when positive, else minutes
      of the remainder. */
  function AgeWord(delta: int): string {
    if delta / DaySeconds > 0 then "days"
    else if (delta % DaySeconds) / HourSeconds > 0 then "hours"
    else "minutes"
  }

  /** The count written before the unit, each by floor division. */
  function AgeCount(delta: int): nat {
    if delta / DaySeconds > 0 then delta / DaySeconds
    else if (delta % DaySeconds) / HourSeconds > 0 then (delta % DaySeconds) / HourSeconds
    else (delta % DaySeconds) / MinuteSeconds
  }

  /** The length of the unit the age text uses for a given delta. */
  function AgeUnit(delta: int): int {
    if delta / DaySeconds > 0 then DaySeconds
    else if (delta % DaySeconds) / HourSeconds > 0 then HourSeconds
    else MinuteSeconds
  }

  /** The text for a count followed by a unit word and "ago" is already
      lower-case and splits into exactly those three tokens. */
  lemma WordsOfAgeText(n: nat, unit: string)
    requires |unit| > 0 && FreeOf(unit, Whitespace) && NoUpper(unit)
    ensures Lower(NatToString(n) + " " + unit + " ago") == NatToString(n) + " " + unit + " ago"
    ensures Words(NatToString(n) + " " + unit + " ago") == [NatToString(n), unit, "ago"]
  {
    LowerOfAgeText(n, unit);
    SplitOfAgeText(n, unit);
  }

  lemma LowerOfAgeText(n: nat, unit: string)
    requires NoUpper(unit)
    ensures Lower(NatToString(n) + " " + unit + " ago") == NatToString(n) + " " + unit + " ago"
  {
    var digits := NatToString(n);
    DigitsAreLowercaseFree(digits);
    NoUpperConcat(digits, " ");
    NoUpperConcat(digits + " ", unit);
    NoUpperConcat(digits + " " + unit, " ago");
    LowerOfLowercase(digits + " " + unit + " ago");
  }

  lemma SplitOfAgeText(n: nat, unit: string)
    requires |unit| > 0 && FreeOf(unit, Whitespace)
    ensures Words(NatToString(n) + " " + unit + " ago") == [NatToString(n), unit, "ago"]
  {
    var digits := NatToString(n);
    DigitsAreLowercaseFree(digits);
    assert digits + " " + unit + " ago" == digits + [' '] + (unit + [' '] + "ago");
    TokensOfWordThenSep(digits, ' ', unit + [' '] + "ago", Whitespace);
    SplitOfUnitAgo(unit);
  }

  lemma SplitOfUnitAgo(unit: string)
    requires |unit| > 0 && FreeOf(unit, Whitespace)
    ensures Tokens(unit + [' '] + "ago", Whitespace) == [unit, "ago"]
  {
    TokensOfWordThenSep(unit, ' ', "ago", Whitespace);
    AgoIsOneWord();
  }

  lemma AgoIsOneWord()
    ensures Tokens("ago", Whitespace) == ["ago"]
  {
    assert FreeOf("ago", Whitespace);
    TokensOfWord("ago", Whitespace);
  }

  lemma NoUpperConcat(a: string, b: string)
    requires NoUpper(a) && NoUpper(b)
    ensures NoUpper(a + b)
  {
    forall i | 0 <= i < |a + b| ensures !IsUpper((a + b)[i]) {
      if i < |a| { assert (a + b)[i] == a[i]; } else { assert (a + b)[i] == b[i - |a|]; }
    }
  }

  /** Decimal digits are neither upper-case letters nor whitespace. */
  lemma DigitsAreLowercaseFree(digits: string)
    requires AllDigits(digits)
    ensures NoUpper(digits) && FreeOf(digits, Whitespace)
  {
    forall i | 0 <= i < |digits| ensures !IsUpper(digits[i]) && digits[i] !in Whitespace {
      assert IsDigit(digits[i]);
    }
  }

  /** The unit words the age text uses name the units they say. */
  lemma UnitWords()
    ensures UnitSeconds("minutes") == Some(MinuteSeconds)
    ensures UnitSeconds("hours") == Some(HourSeconds)
    ensures UnitSeconds("days") == Some(DaySeconds)
    ensures UnitSeconds("year") == Some(365 * DaySeconds)
  {
    UnitOfMinutes();
    ContainsAt("hours", "hour", 0);
    NotContainsLonger("hours", "minute");
    UnitOfDays();
    UnitOfYear();
  }

  lemma UnitOfMinutes()
    ensures UnitSeconds("minutes") == Some(MinuteSeconds)
  {
    ContainsAt("minutes", "minute", 0);
  }

  /** The plural words of the front page's longer ages name 30-day months
      and 365-day years. */
  lemma UnitOfMonths()
    ensures UnitSeconds("months") == Some(30 * DaySeconds)
  {
    ContainsAt("months", "month", 0);
    NotContainsSameLength("months", "minute");
    NotContainsFirstChar("months", "hour");
    NotContainsFirstChar("months", "day");
  }

  lemma UnitOfYears()
    ensures UnitSeconds("years") == Some(365 * DaySeconds)
  {
    ContainsAt("years", "year", 0);
    NotContainsLonger("years", "minute");
    NotContainsFirstChar("years", "hour");
    NotContainsFirstChar("years", "day");
    NotContainsSameLength("years", "month");
  }

  lemma UnitOfDays()
    ensures UnitSeconds("days") == Some(DaySeconds)
  {
    ContainsAt("days", "day", 0);
    NotContainsLonger("days", "minute");
    assert "days"[0] != "hour"[0];
    NotContainsSameLength("days", "hour");
  }

  lemma UnitOfYear()
    ensures UnitSeconds("year") == Some(365 * DaySeconds)
  {
    ContainsAt("year", "year", 0);
    NotContainsLonger("year", "minute");
    NotContainsLonger("year", "month");
    assert "year"[0] != "hour"[0];
    NotContainsSameLength("year", "hour");
    assert !StartsWith("year", "day") by { assert "year"[0] != "day"[0]; }
    assert "year"[1..] == "ear";
    assert "ear"[0] != "day"[0];
    NotContainsSameLength("ear", "day");
  }

  /** The unit words are single lower-case words. */
  lemma UnitWordShape(w: string)
    requires w in {"minutes", "hours", "days", "year", "months", "years"}
    ensures |w| > 0 && FreeOf(w, Whitespace) && NoUpper(w)
  {
  }

  /** "<n> <unit> ago" parses to `now` minus `n` units (an overflow when
      that is outside the datetime range). */
  lemma ParseAgeOfText(n: nat, unit: string, u: int, now: Timestamp)
    requires |unit| > 0 && FreeOf(unit, Whitespace) && NoUpper(unit)
    requires UnitSeconds(unit) == Some(u)
    ensures ParseAge(UnitText(n, unit), now) == AgeAt(now - n * u)
  {
    var text := UnitText(n, unit);
    WordsOfAgeText(n, unit);
    ParseIntOfNat(n);
    ParseAgeOfWords(text, [NatToString(n), unit, "ago"], n, u, now);
  }

  lemma ParseIntOfNat(n: nat)
    ensures ParseInt(NatToString(n)) == Some(n)
  {
    ParseIntOfIntToString(n);
  }

  /** Text whose words start with an integer and a unit parses to `now`
      minus that many units (an overflow outside the datetime range). */
  lemma ParseAgeOfWords(text: string, parts: seq<string>, v: int, u: int, now: Timestamp)
    requires Words(Lower(text)) == parts
    requires |parts| >= 2 && ParseInt(parts[0]) == Some(v) && UnitSeconds(parts[1]) == Some(u)
    ensures ParseAge(text, now) == AgeAt(now - v * u)
  {
    ParseWordsOf(parts, v, u, now);
  }

  lemma ParseWordsOf(parts: seq<string>, v: int, u: int, now: Timestamp)
    requires |parts| >= 2 && ParseInt(parts[0]) == Some(v) && UnitSeconds(parts[1]) == Some(u)
    ensures ParseWords(parts, now) == AgeAt(now - v * u)
  {
  }

  /** Parsing the age text the search-API conversion writes recovers the
      creation time to within one unit, never later than the true time:
      for a post created `delta >= 0` seconds before `now`, the parsed time
      `t'` satisfies `now - delta <= t' < now - delta + unit`. Both the clock
      and the creation time are datetimes, so the parsed time is one too. */
  lemma AgeTextRoundTrip(delta: int, now: Timestamp)
    requires delta >= 0
    requires InDatetimeRange(now) && InDatetimeRange(now - delta)
    ensures ParseAge(AgeText(delta), now).Parsed? && ParseAge(AgeText(delta), now).time.Some?
    ensures var t' := ParseAge(AgeText(delta), now).time.value;
      now - delta <= t' < now - delta + AgeUnit(delta)
  {
    var word, n, u := AgeWord(delta), AgeCount(delta), AgeUnit(delta);
    AgeWordNamesUnit(delta);
    AgeCountBracketsDelta(delta);
    ParseAgeOfText(n, word, u, now);
    assert InDatetimeRange(now - n * u);
  }

  /** The unit word written is a single lower-case word naming the unit. */
  lemma AgeWordNamesUnit(delta: int)
    ensures UnitSeconds(AgeWord(delta)) == Some(AgeUnit(delta))
    ensures |AgeWord(delta)| > 0 && FreeOf(AgeWord(delta), Whitespace) && NoUpper(AgeWord(delta))
  {
    UnitWords();
    UnitWordShape(AgeWord(delta));
  }

  /** The count written is the delta rounded down to whole units. */
  lemma AgeCountBracketsDelta(delta: int)
    requires delta >= 0
    ensures AgeCount(delta) * AgeUnit(delta) <= delta < AgeCount(delta) * AgeUnit(delta) + AgeUnit(delta)
  {
    if delta / DaySeconds <= 0 {
      assert delta % DaySeconds == delta;
    }
  }

  /** The examples of the documented contract: "5 minutes ago", "2 days ago",
      "3 months ago" and "1 year ago" parse to now minus 5 minutes, 2 days,
      90 days and 365 days, for a clock more than a year into the datetime
      range. */
  lemma ParseAgeExamples(now: Timestamp)
    requires InDatetimeRange(now) && InDatetimeRange(now - 365 * 86400)
    ensures ParseAge(UnitText(5, "minutes"), now) == Parsed(Some(now - 5 * 60))
    ensures ParseAge(UnitText(2, "days"), now) == Parsed(Some(now - 2 * 86400))
    ensures ParseAge(UnitText(3, "months"), now) == Parsed(Some(now - 90 * 86400))
    ensures ParseAge(UnitText(1, "year"), now) == Parsed(Some(now - 365 * 86400))
  {
    MinutesExample(now);
    DaysExample(now);
    MonthsExample(now);
    YearExample(now);
  }

  lemma MinutesExample(now: Timestamp)
    requires InDatetimeRange(now - 5 * 60)
    ensures ParseAge(UnitText(5, "minutes"), now) == Parsed(Some(now - 5 * 60))
  {
    UnitOfMinutes();
    ParsedExample(5, "minutes", MinuteSeconds, now);
  }

  lemma DaysExample(now: Timestamp)
    requires InDatetimeRange(now - 2 * 86400)
    ensures ParseAge(UnitText(2, "days"), now) == Parsed(Some(now - 2 * 86400))
  {
    UnitOfDays();
    ParsedExample(2, "days", DaySeconds, now);
  }

  lemma MonthsExample(now: Timestamp)
    requires InDatetimeRange(now - 90 * 86400)
    ensures ParseAge(UnitText(3, "months"), now) == Parsed(Some(now - 90 * 86400))
  {
    UnitOfMonths();
    ParsedExample(3, "months", 30 * DaySeconds, now);
  }

  lemma YearExample(now: Timestamp)
    requires InDatetimeRange(now - 365 * 86400)
    ensures ParseAge(UnitText(1, "year"), now) == Parsed(Some(now - 365 * 86400))
  {
    UnitOfYear();
    ParsedExample(1, "year", 365 * DaySeconds, now);
  }

  lemma ParsedExample(n: nat, unit: string, u: int, now: Timestamp)
    requires unit in {"minutes", "hours", "days", "year", "months", "years"}
    requires UnitSeconds(unit) == Some(u) && InDatetimeRange(now - n * u)
    ensures ParseAge(UnitText(n, unit), now) == Parsed(Some(now - n * u))
  {
    UnitWordShape(unit);
    ParseAgeOfText(n, unit, u, now);
  }

  /** An age reaching before year 1 overflows: "2100 years ago" read by a
      clock earlier than 2099-08-08 (epoch second 4089926400) raises instead
      of giving a time. */
  lemma ParseAgeOverflows(now: Timestamp)
    requires InDatetimeRange(now) && now < 4089926400
    ensures ParseAge(UnitText(2100, "years"), now) == Overflow
  {
    UnitOfYears();
    UnitWordShape("years");
    ParseAgeOfText(2100, "years", 365 * DaySeconds, now);
  }

  /** The texts of the examples above. */
  lemma ExampleTexts()
    ensures UnitText(5, "minutes") == "5 minutes ago"
    ensures UnitText(2, "days") == "2 days ago"
    ensures UnitText(1, "year") == "1 year ago"
  {
  }

  lemma MoreExampleTexts()
    ensures UnitText(3, "months") == "3 months ago"
  {
  }

  lemma OverflowText()
    ensures UnitText(2100, "years") == "2100 years ago"
  {
  }
}

=== FILE: classify.dfy ===
/** The research flags every fetcher derives from a post's title and url:
    case-insensitive substring tests. */
module Classification {
  import opened Text

  /** The five flags computed from title and url (the job flag has a
      source-specific rule and is decided by each fetcher). */
  datatype Flags = Flags(
    isShowHn: bool, isAskHn: bool, isYcCompany: bool,
    isGithubLink: bool, isTwitterLink: bool)

  /** Title and url flags; `urlText` is the url, or `""` when there is none. */
  function Classify(title: string, urlText: string): (f: Flags)
    ensures f.isShowHn <==> Contains(Lower(title), "show hn")
    ensures f.isAskHn <==> Contains(Lower(title), "ask hn")
    ensures f.isYcCompany <==> Contains(Lower(title), "yc")
    ensures f.isGithubLink <==> Contains(Lower(urlText), "github.com")
    ensures f.isTwitterLink <==> Contains(Lower(urlText), "twitter.com") || Contains(Lower(urlText), "x.com")
    ensures urlText == "" ==> !f.isGithubLink && !f.isTwitterLink
  {
    var titleLower := Lower(title);
    var urlLower := Lower(urlText);
    ParenYcImpliesYc(title);
    Flags(
      Contains(titleLower, "show hn"),
      Contains(titleLower, "ask hn"),
      Contains(titleLower, "yc") || Contains(titleLower, "(yc"),
      Contains(urlLower, "github.com"),
      Contains(urlLower, "twitter.com") || Contains(urlLower, "x.com"))
  }

  /** The `"(yc"` test adds nothing to the `"yc"` test: every title containing
      `"(yc"` contains `"yc"`. */
  lemma ParenYcImpliesYc(title: string)
    ensures Contains(Lower(title), "(yc") ==> Contains(Lower(title), "yc")
  {
    if Contains(Lower(title), "(yc") {
      assert "(yc"[1..3] == "yc";
      ContainsAt("(yc", "yc", 1);
      ContainsTransitive(Lower(title), "(yc", "yc");
    }
  }

  /** The "x.com" test is a plain substring test, so it also flags urls of
      unrelated hosts whose name ends in "x", such as dropbox.com. */
  lemma XComFlagsOtherHosts()
    ensures Classify("", "https://dropbox.com/s/a").isTwitterLink
  {
    var u := Lower("https://dropbox.com/s/a");
    LowerOfLowercase("https://dropbox.com/s/a");
    assert u[14..19] == "x.com";
    ContainsAt(u, "x.com", 14);
  }

  /** Flags are case-insensitive: upper-casing letters of the title or url
      does not change them. */
  lemma ClassifyIgnoresCase(title: string, urlText: string)
    ensures Classify(Lower(title), Lower(urlText)) == Classify(title, urlText)
  {
    LowerIdempotent(title);
    LowerIdempotent(urlText);
  }

  lemma LowerIdempotent(s: string)
    ensures Lower(Lower(s)) == Lower(s)
  {
    LowerOfLowercase(Lower(s));
  }
}

=== FILE: enrichment.dfy ===
/** Star enrichment of posts (`_enrich_with_github_stars`): each post that
    links to a repository gets the repository's star total and the numbers
    of stars given before and at-or-after the post's time, fetched once per
    repository and reused from a memo for later posts. The star fetch is an
    oracle answering the i-th fetch of a repository. */
module Enrichment {
  import opened Optional
  import opened Models
  import opened GitHubStars

  // ---------------------------------------------------------------------
  // Before / after split

  /** The number of stars given strictly before `t`. */
  function CountBefore(stars: seq<Star>, t: Timestamp): nat {
    if stars == [] then 0
    else (if stars[0].starredAt < t then 1 else 0) + CountBefore(stars[1..], t)
  }

  /** The number of stars given at or after `t`. */
  function CountAtOrAfter(stars: seq<Star>, t: Timestamp): nat {
    if stars == [] then 0
    else (if stars[0].starredAt >= t then 1 else 0) + CountAtOrAfter(stars[1..], t)
  }

  /** Every star is on exactly one side of the post time. */
  lemma {:induction false} BeforeAfterPartition(stars: seq<Star>, t: Timestamp)
    ensures CountBefore(stars, t) + CountAtOrAfter(stars, t) == |stars|
  {
    if stars != [] {
      BeforeAfterPartition(stars[1..], t);
    }
  }

  /** The positions of the stars given strictly before `t`. */
  function Earlier(stars: seq<Star>, t: Timestamp): set<nat> {
    set i: nat | i < |stars| && stars[i].starredAt < t
  }

  /** The before count is the number of stars earlier than `t`, counted as
      a set of positions rather than by recursion. */
  lemma {:induction false} CountBeforeIsCardinality(stars: seq<Star>, t: Timestamp)
    ensures CountBefore(stars, t) == |Earlier(stars, t)|
  {
    if stars != [] {
      CountBeforeIsCardinality(stars[1..], t);
      var rest := Earlier(stars[1..], t);
      ShiftCardinality(rest);
      assert forall i: nat :: i in Earlier(stars, t) && i > 0 ==> i - 1 in rest;
      assert forall i: nat :: i in rest ==> stars[1..][i] == stars[i + 1];
      if stars[0].starredAt < t {
        assert Earlier(stars, t) == {0} + Shift(rest);
      } else {
        assert Earlier(stars, t) == Shift(rest);
      }
    }
  }

  function Shift(s: set<nat>): set<nat> {
    set i | i in s :: i + 1
  }

  lemma {:induction false} ShiftCardinality(s: set<nat>)
    ensures |Shift(s)| == |s|
    decreases |s|
  {
    if s != {} {
      var x: nat :| x in s;
      var s' := s - {x};
      ShiftCardinality(s');
      forall y | y in Shift(s) ensures y in Shift(s') + {x + 1} {
        var i :| i in s && y == i + 1;
        if i != x { assert i in s'; }
      }
      forall y | y in Shift(s') + {x + 1} ensures y in Shift(s) {
        if y != x + 1 { var i :| i in s' && y == i + 1; assert i in s; }
      }
      assert Shift(s) == Shift(s') + {x + 1};
    }
  }

  /** The split an enrichment records: (before, at-or-after) when the post
      has a time, (0, 0) when it has none. */
  function SplitStars(stars: seq<Star>, postedAt: Option<Timestamp>): (r: (nat, nat))
    ensures postedAt.None? ==> r == (0, 0)
    ensures postedAt.Some? ==> r.0 + r.1 == |stars|
    ensures postedAt.Some? ==> r.0 == CountBefore(stars, postedAt.value)
  {
    if postedAt.None? then (0, 0)
    else
      BeforeAfterPartition(stars, postedAt.value);
      (CountBefore(stars, postedAt.value), CountAtOrAfter(stars, postedAt.value))
  }

  /** The documented example: stars at T-2, T-1 and T+1 split into 2 before
      and 1 after, 3 in total. */
  lemma SplitExample(t: Timestamp, owner: string, name: string)
    ensures var stars := [Star(owner, name, t - 2, "a"), Star(owner, name, t - 1, "b"), Star(owner, name, t + 1, "c")];
      SplitStars(stars, Some(t)) == (2, 1)
  {
    var stars := [Star(owner, name, t - 2, "a"), Star(owner, name, t - 1, "b"), Star(owner, name, t + 1, "c")];
    assert stars[1..] == [Star(owner, name, t - 1, "b"), Star(owner, name, t + 1, "c")];
    assert stars[1..][1..] == [Star(owner, name, t + 1, "c")];
    assert stars[1..][1..][1..] == [];
    assert CountBefore(stars[1..][1..], t) == 0;
    assert CountBefore(stars[1..], t) == 1;
  }

  // ---------------------------------------------------------------------
  // The split as the source writes it

  /** A datetime as the source holds it: an instant and whether it carries
      a timezone. Star times are parsed with an explicit offset; post times
      come from local-clock arithmetic and carry none. */
  datatype Instant = Instant(seconds: Timestamp, aware: bool)

  /** `a < b` on datetimes: comparing a timezone-aware with a naive value
      raises (`None`). */
  function LessThan(a: Instant, b: Instant): Option<bool> {
    if a.aware != b.aware then None else Some(a.seconds < b.seconds)
  }

  /** The before count computed by comparing each star time with the post
      time, as the list comprehension does; `None` when a comparison
      raises. */
  function CountBeforeAsWritten(times: seq<Instant>, posted: Instant): (r: Option<nat>)
    ensures r.Some? ==> r.value <= |times|
  {
    if times == [] then Some(0)
    else match LessThan(times[0], posted)
      case None => None
      case Some(b) =>
        match CountBeforeAsWritten(times[1..], posted)
        case None => None
        case Some(n) => Some((if b then 1 else 0) + n)
  }

  /** The enrichment split as written: with a post time, the comparisons
      run; their exception abandons the enrichment of the post. */
  function SplitAsWritten(times: seq<Instant>, posted: Option<Instant>): (r: Option<(nat, nat)>)
    ensures posted.None? ==> r == Some((0, 0))
    ensures posted.Some? ==> (r.None? <==> CountBeforeAsWritten(times, posted.value).None?)
    ensures posted.Some? && r.Some? ==> r.value.0 + r.value.1 == |times|
  {
    if posted.None? then Some((0, 0))
    else match CountBeforeAsWritten(times, posted.value)
      case None => None
      case Some(before) => Some((before, |times| - before))
  }

  /** The star times of fetched stars: all carry a timezone. */
  function AwareTimes(stars: seq<Star>): (times: seq<Instant>)
    ensures |times| == |stars|
    ensures forall k :: 0 <= k < |stars| ==> times[k] == Instant(stars[k].starredAt, true)
  {
    seq(|stars|, k requires 0 <= k < |stars| => Instant(stars[k].starredAt, true))
  }

  /** The discrepancy: for any non-empty star list and any post that has a
      (naive) time, the split as written raises, so the post is never
      enriched and nothing is cached. */
  lemma NaivePostTimeRaises(stars: seq<Star>, t: Timestamp)
    requires stars != []
    ensures SplitAsWritten(AwareTimes(stars), Some(Instant(t, false))) == None
  {
  }

  /** Where the comparison is well defined (all times carry the same
      awareness) the split as written agrees with `SplitStars`. */
  lemma {:induction false} AsWrittenAgreesWhenComparable(stars: seq<Star>, t: Timestamp)
    ensures CountBeforeAsWritten(AwareTimes(stars), Instant(t, true)) == Some(CountBefore(stars, t))
  {
    if stars != [] {
      AsWrittenAgreesWhenComparable(stars[1..], t);
      assert AwareTimes(stars)[1..] == AwareTimes(stars[1..]);
    }
  }

  // ---------------------------------------------------------------------
  // The enrichment fold

  /** One fetch of a repository's stars: the stars and the clock reading
      taken after them, an exception (caught, the post is skipped), or a
      user interrupt (the fold stops). */
  datatype FetchOutcome = Fetched(stars: seq<Star>, at: Timestamp) | Raised | Interrupted

  /** The star fetch, given the index of the call and the repository. */
  type StarFetcher = (nat, RepoId) -> FetchOutcome

  /** One fetch made by the fold and whether its result was cached. */
  datatype FetchRecord = FetchRecord(repo: string, cached: bool)

  /** The posts (all of them, enriched where possible), the memo at the end,
      the fetches in order, and whether an interrupt stopped the fold. */
  datatype EnrichRun = EnrichRun(posts: seq<Post>, memo: map<string, StarSummary>, fetches: seq<FetchRecord>, interrupted: bool)

  /** Posts the fold looks at: repository links with a non-empty url. */
  predicate Candidate(p: Post) {
    p.isGithubLink && Present(p.url)
  }

  /** The repository full name a post resolves to, if it is a candidate. */
  function RepoKey(p: Post, parse: UrlParser): Option<string> {
    if !Candidate(p) then None
    else match ExtractRepoInfo(p.url.value, parse)
      case None => None
      case Some(id) => Some(FullName(id))
  }

  /** A cached summary: non-empty, and split consistently (the two sides sum
      to the total, or both are 0 for a post without a time). */
  predicate SummaryConsistent(name: string, s: StarSummary) {
    s.fullName == name && s.total > 0
    && s.before >= 0 && s.after >= 0
    && (s.before + s.after == s.total || (s.before == 0 && s.after == 0))
  }

  predicate MemoConsistent(memo: map<string, StarSummary>) {
    forall name :: name in memo ==> SummaryConsistent(name, memo[name])
  }

  /** Once a fetch of a repository was cached, that repository is never
      fetched again. */
  predicate NoRefetchAfterCache(fetches: seq<FetchRecord>) {
    forall i, j :: 0 <= i < j < |fetches| && fetches[i].cached ==> fetches[j].repo != fetches[i].repo
  }

  /** Every cached fetch is in the memo. */
  predicate CachedInMemo(fetches: seq<FetchRecord>, memo: map<string, StarSummary>) {
    forall i :: 0 <= i < |fetches| && fetches[i].cached ==> fetches[i].repo in memo
  }

  /** The summary a successful fetch gives a post: the repository's name,
      every star counted in the total, the stars given before the post's time
      on one side and the rest on the other (both 0 for a post without a
      time), and the clock reading taken after the fetch. */
  function Summarize(name: string, stars: seq<Star>, at: Timestamp, postedAt: Option<Timestamp>): (s: StarSummary)
    requires stars != []
    ensures SummaryConsistent(name, s)
    ensures s.fullName == name && s.total == |stars| && s.fetchedAt == at
    ensures postedAt.Some? ==> s.before == CountBefore(stars, postedAt.value) && s.after == |stars| - s.before
    ensures postedAt.None? ==> s.before == 0 && s.after == 0
  {
    var split := SplitStars(stars, postedAt);
    StarSummary(name, |stars|, split.0, split.1, at)
  }

  /** A post whose repository the memo does not know yet: the fold fetches
      its stars. */
  predicate NeedsFetch(p: Post, parse: UrlParser, memo: map<string, StarSummary>) {
    RepoKey(p, parse).Some? && RepoKey(p, parse).value !in memo
  }

  /** The outcome of the fetch the fold makes for a post that resolves to a
      repository, as the next fetch after `fetches`. */
  function FetchFor(p: Post, parse: UrlParser, fetch: StarFetcher, fetches: seq<FetchRecord>): FetchOutcome
    requires RepoKey(p, parse).Some?
  {
    fetch(|fetches|, ExtractRepoInfo(p.url.value, parse).value)
  }

  /** A fetch that gives the post nothing: it raised, or found no stars. */
  predicate FetchFailed(outcome: FetchOutcome) {
    outcome.Raised? || (outcome.Fetched? && outcome.stars == [])
  }

  /** `_enrich_with_github_stars` over all posts, from an empty memo. */
  function Enrich(posts: seq<Post>, parse: UrlParser, fetch: StarFetcher): EnrichRun {
    EnrichFrom(posts, parse, fetch, map[], [])
  }

  /** The fold from a memo and a record of earlier fetches. */
  function EnrichFrom(posts: seq<Post>, parse: UrlParser, fetch: StarFetcher,
                      memo: map<string, StarSummary>, fetches: seq<FetchRecord>): (r: EnrichRun)
    ensures |r.posts| == |posts|
    ensures forall name :: name in memo ==> name in r.memo && r.memo[name] == memo[name]
    ensures |fetches| <= |r.fetches| && r.fetches[..|fetches|] == fetches
    decreases |posts|
  {
    if posts == [] then EnrichRun([], memo, fetches, false)
    else
      var p := posts[0];
      match RepoKey(p, parse)
      case None =>
        var rest := EnrichFrom(posts[1..], parse, fetch, memo, fetches);
        EnrichRun([p] + rest.posts, rest.memo, rest.fetches, rest.interrupted)
      case Some(name) =>
        if name in memo then
          var rest := EnrichFrom(posts[1..], parse, fetch, memo, fetches);
          EnrichRun([WithSummary(p, memo[name])] + rest.posts, rest.memo, rest.fetches, rest.interrupted)
        else
          match FetchFor(p, parse, fetch, fetches)
          case Interrupted => EnrichRun(posts, memo, fetches, true)
          case Raised =>
            var rest := EnrichFrom(posts[1..], parse, fetch, memo, fetches + [FetchRecord(name, false)]);
            EnrichRun([p] + rest.posts, rest.memo, rest.fetches, rest.interrupted)
          case Fetched(stars, at) =>
            if stars == [] then
              var rest := EnrichFrom(posts[1..], parse, fetch, memo, fetches + [FetchRecord(name, false)]);
              EnrichRun([p] + rest.posts, rest.memo, rest.fetches, rest.interrupted)
            else
              var s := Summarize(name, stars, at, p.postedAt);
              var rest := EnrichFrom(posts[1..], parse, fetch, memo[name := s], fetches + [FetchRecord(name, true)]);
              EnrichRun([WithSummary(p, s)] + rest.posts, rest.memo, rest.fetches, rest.interrupted)
  }

  /** The fold at its first post, case by case: a post that does not resolve
      is left alone; a post whose repository is memoised takes the memoised
      summary without a fetch; otherwise the fetch decides. An interrupt
      returns every remaining post untouched; a fetch that raised or found no
      stars leaves the post alone and is recorded uncached; a fetch with stars
      gives the post the summary of exactly those stars, memoised and recorded
      cached. */
  lemma EnrichStep(posts: seq<Post>, parse: UrlParser, fetch: StarFetcher,
                   memo: map<string, StarSummary>, fetches: seq<FetchRecord>, r: EnrichRun)
    requires posts != [] && r == EnrichFrom(posts, parse, fetch, memo, fetches)
    ensures RepoKey(posts[0], parse).None? ==> r.posts[0] == posts[0]
    ensures RepoKey(posts[0], parse).Some? && !NeedsFetch(posts[0], parse, memo) ==>
      r.posts[0] == WithSummary(posts[0], memo[RepoKey(posts[0], parse).value])
    ensures NeedsFetch(posts[0], parse, memo) && FetchFor(posts[0], parse, fetch, fetches).Interrupted? ==>
      r == EnrichRun(posts, memo, fetches, true)
    ensures NeedsFetch(posts[0], parse, memo) && FetchFailed(FetchFor(posts[0], parse, fetch, fetches)) ==>
      && r.posts[0] == posts[0]
      && |r.fetches| > |fetches| && r.fetches[|fetches|] == FetchRecord(RepoKey(posts[0], parse).value, false)
    ensures NeedsFetch(posts[0], parse, memo) && FetchFor(posts[0], parse, fetch, fetches).Fetched?
            && FetchFor(posts[0], parse, fetch, fetches).stars != [] ==>
      && RepoKey(posts[0], parse).value in r.memo
      && r.posts[0] == WithSummary(posts[0], r.memo[RepoKey(posts[0], parse).value])
      && r.memo[RepoKey(posts[0], parse).value]
           == Summarize(RepoKey(posts[0], parse).value, FetchFor(posts[0], parse, fetch, fetches).stars,
                        FetchFor(posts[0], parse, fetch, fetches).at, posts[0].postedAt)
      && |r.fetches| > |fetches| && r.fetches[|fetches|] == FetchRecord(RepoKey(posts[0], parse).value, true)
  {
    var p := posts[0];
    if NeedsFetch(p, parse, memo) {
      var name := RepoKey(p, parse).value;
      var outcome := FetchFor(p, parse, fetch, fetches);
      if !outcome.Interrupted? {
        var cached := outcome.Fetched? && outcome.stars != [];
        var memo' := if cached then memo[name := Summarize(name, outcome.stars, outcome.at, p.postedAt)] else memo;
        var fetches' := fetches + [FetchRecord(name, cached)];
        var rest := EnrichFrom(posts[1..], parse, fetch, memo', fetches');
        assert r.fetches == rest.fetches && r.memo == rest.memo;
        assert r.fetches[|fetches|] == rest.fetches[..|fetches'|][|fetches|] == fetches'[|fetches|];
      }
    }
  }

  /** What the fold does to each post: a post that is not a candidate (or
      does not resolve) is returned unchanged; every other post is either
      unchanged or carries exactly the memo's summary for its repository;
      no field outside the five enrichment fields ever changes. */
  predicate EnrichedFromMemo(before: Post, after: Post, parse: UrlParser, memo: map<string, StarSummary>) {
    && SameExceptEnrichment(before, after)
    && (RepoKey(before, parse).None? ==> after == before)
    && (after == before
        || (RepoKey(before, parse).Some? && RepoKey(before, parse).value in memo
            && after == WithSummary(before, memo[RepoKey(before, parse).value])))
  }

  lemma {:induction false} EnrichFromPosts(posts: seq<Post>, parse: UrlParser, fetch: StarFetcher,
                                           memo: map<string, StarSummary>, fetches: seq<FetchRecord>)
    ensures var r := EnrichFrom(posts, parse, fetch, memo, fetches);
      forall k :: 0 <= k < |posts| ==> EnrichedFromMemo(posts[k], r.posts[k], parse, r.memo)
    decreases |posts|
  {
    var r := EnrichFrom(posts, parse, fetch, memo, fetches);
    if posts != [] {
      var p := posts[0];
      var key := RepoKey(p, parse);
      if key.Some? && key.value !in memo && FetchFor(p, parse, fetch, fetches).Interrupted? {
        assert r.posts == posts;
      } else {
        var next := NextState(p, parse, fetch, memo, fetches);
        var memo', fetches' := next.0, next.1;
        var rest := EnrichFrom(posts[1..], parse, fetch, memo', fetches');
        EnrichFromPosts(posts[1..], parse, fetch, memo', fetches');
        assert r.posts[1..] == rest.posts && r.memo == rest.memo;
        assert EnrichedFromMemo(p, r.posts[0], parse, r.memo);
        forall k | 1 <= k < |posts| ensures EnrichedFromMemo(posts[k], r.posts[k], parse, r.memo) {
          assert posts[k] == posts[1..][k - 1] && r.posts[k] == rest.posts[k - 1];
        }
      }
    }
  }

  /** The memo and fetch record after the first post, when no interrupt
      stops the fold there. */
  function NextState(p: Post, parse: UrlParser, fetch: StarFetcher,
                     memo: map<string, StarSummary>, fetches: seq<FetchRecord>): (map<string, StarSummary>, seq<FetchRecord>)
  {
    match RepoKey(p, parse)
    case None => (memo, fetches)
    case Some(name) =>
      if name in memo then (memo, fetches)
      else match FetchFor(p, parse, fetch, fetches)
        case Fetched(stars, at) =>
          if stars == [] then (memo, fetches + [FetchRecord(name, false)])
          else (memo[name := Summarize(name, stars, at, p.postedAt)], fetches + [FetchRecord(name, true)])
        case _ => (memo, fetches + [FetchRecord(name, false)])
  }

  /** The memo only ever holds consistent summaries of fetched, non-empty
      star lists, and a repository whose fetch was cached is never fetched
      again. */
  lemma {:induction false} EnrichFromMemo(posts: seq<Post>, parse: UrlParser, fetch: StarFetcher,
                                          memo: map<string, StarSummary>, fetches: seq<FetchRecord>)
    requires MemoConsistent(memo) && CachedInMemo(fetches, memo) && NoRefetchAfterCache(fetches)
    ensures MemoConsistent(EnrichFrom(posts, parse, fetch, memo, fetches).memo)
    ensures CachedInMemo(EnrichFrom(posts, parse, fetch, memo, fetches).fetches, EnrichFrom(posts, parse, fetch, memo, fetches).memo)
    ensures NoRefetchAfterCache(EnrichFrom(posts, parse, fetch, memo, fetches).fetches)
    decreases |posts|
  {
    if posts != [] {
      var p := posts[0];
      var key := RepoKey(p, parse);
      if key.Some? && key.value !in memo {
        var name := key.value;
        var outcome := FetchFor(p, parse, fetch, fetches);
        if !outcome.Interrupted? {
          var next := NextState(p, parse, fetch, memo, fetches);
          var memo', fetches' := next.0, next.1;
          var cached := outcome.Fetched? && outcome.stars != [];
          assert fetches' == fetches + [FetchRecord(name, cached)];
          assert CachedInMemo(fetches', memo') by {
            forall i | 0 <= i < |fetches'| && fetches'[i].cached ensures fetches'[i].repo in memo' {
              if i < |fetches| { assert fetches'[i] == fetches[i]; }
            }
          }
          assert NoRefetchAfterCache(fetches') by {
            forall i, j | 0 <= i < j < |fetches'| && fetches'[i].cached ensures fetches'[j].repo != fetches'[i].repo {
              assert fetches'[i] == fetches[i];
              if j == |fetches| {
                assert fetches[i].repo in memo;
              } else {
                assert fetches'[j] == fetches[j];
              }
            }
          }
          EnrichFromMemo(posts[1..], parse, fetch, memo', fetches');
        }
      } else {
        EnrichFromMemo(posts[1..], parse, fetch, memo, fetches);
      }
    }
  }

  /** The fold's promises from an empty start: the same posts in the same
      order, each unchanged or carrying its repository's memoised summary;
      every memoised summary is consistent; a cached repository is fetched
      once; and a first post that resolves, whose fetch finds stars, carries
      the summary of exactly those stars. */
  lemma EnrichContract(posts: seq<Post>, parse: UrlParser, fetch: StarFetcher)
    ensures var r := Enrich(posts, parse, fetch);
      && |r.posts| == |posts|
      && (forall k :: 0 <= k < |posts| ==> EnrichedFromMemo(posts[k], r.posts[k], parse, r.memo))
      && MemoConsistent(r.memo)
      && NoRefetchAfterCache(r.fetches)
    ensures posts != [] && RepoKey(posts[0], parse).Some?
            && FetchFor(posts[0], parse, fetch, []).Fetched? && FetchFor(posts[0], parse, fetch, []).stars != [] ==>
      Enrich(posts, parse, fetch).posts[0]
        == WithSummary(posts[0], Summarize(RepoKey(posts[0], parse).value, FetchFor(posts[0], parse, fetch, []).stars,
                                           FetchFor(posts[0], parse, fetch, []).at, posts[0].postedAt))
  {
    EnrichFromPosts(posts, parse, fetch, map[], []);
    EnrichFromMemo(posts, parse, fetch, map[], []);
    if posts != [] {
      EnrichStep(posts, parse, fetch, map[], [], Enrich(posts, parse, fetch));
    }
  }

  /** Two posts of the same repository, both enriched, carry identical
      summaries (including the fetch time of the first fetch). */
  lemma SameRepoSameSummary(posts: seq<Post>, parse: UrlParser, fetch: StarFetcher, i: nat, j: nat)
    requires i < |posts| && j < |posts|
    requires RepoKey(posts[i], parse).Some? && RepoKey(posts[i], parse) == RepoKey(posts[j], parse)
    requires !Enriched(posts[i]) && !Enriched(posts[j])
    requires Enriched(Enrich(posts, parse, fetch).posts[i]) && Enriched(Enrich(posts, parse, fetch).posts[j])
    ensures SummaryOf(Enrich(posts, parse, fetch).posts[i]) == SummaryOf(Enrich(posts, parse, fetch).posts[j])
  {
    EnrichContract(posts, parse, fetch);
    var r := Enrich(posts, parse, fetch);
    assert r.posts[i] != posts[i] && r.posts[j] != posts[j];
    var name := RepoKey(posts[i], parse).value;
    SummaryOfWithSummary(posts[i], r.memo[name]);
    SummaryOfWithSummary(posts[j], r.memo[name]);
  }

  /** The fetch oracle realised by the page loop: the i-th fetch of a
      repository runs `fetch_all_stars` over the responses `scripts` gives
      for it, with the page cap; an exception escaping the loop is a
      raised fetch. */
  function LoopFetcher(scripts: (nat, RepoId) -> seq<StarResponse>, maxPages: Option<int>,
                       clock: nat -> Timestamp): (f: StarFetcher)
    ensures forall i, id :: !f(i, id).Interrupted?
  {
    (i: nat, id: RepoId) =>
      var run := FetchAllStars(id.owner, id.name, maxPages, scripts(i, id));
      if run.stop.Escaped? then Raised else Fetched(run.stars, clock(i))
  }
}

=== FILE: front_page.dfy ===
/** The two front-page scrapers, `HNWebScraper` (the unified module) and
    `HackerNewsScraper` (the standalone scraper), over an abstract view of
    the listing: each story row is a record of the elements the parsers look
    up, not HTML. Pages are fetched through an oracle keyed by URL. */
module FrontPage {
  import opened Optional
  import opened Text
  import opened Models
  import opened Classification
  import opened Age

  /** The site the scrapers read. */
  const BaseUrl: string := "https://news.ycombinator.com"

  /** The title link: its text and its href attribute, if any. */
  datatype TitleLink = TitleLink(text: string, href: Option<string>)

  /** The site annotation after the title, holding the domain text. */
  datatype Sitebit = Sitebit(sitestr: Option<string>)

  /** The title cell: its first link, its site annotation, and the text of
      the first site-text element anywhere in the cell, inside the
      annotation or not. */
  datatype TitleLine = TitleLine(link: Option<TitleLink>, sitebit: Option<Sitebit>, sitestr: Option<string>)

  /** The age element and the text of the link inside it. */
  datatype AgeSpan = AgeSpan(link: Option<string>)

  /** The subtext cell: score text, author link text, age element, and the
      texts of the links inside the cell. */
  datatype Subtext = Subtext(score: Option<string>, author: Option<string>, age: Option<AgeSpan>, links: seq<string>)

  /** The row after a story row: its subtext cell, if any, and the texts of
      all links in the row. */
  datatype MetaRow = MetaRow(subtext: Option<Subtext>, links: seq<string>)

  /** A story row: id attribute, rank text, title cell and the next row. */
  datatype PostRow = PostRow(id: Option<string>, rank: Option<string>, titleLine: Option<TitleLine>, next: Option<MetaRow>)

  /** Which of the two scrapers. */
  datatype Scraper = HNWebScraper | HackerNewsScraper

  // ---------------------------------------------------------------------
  // Page URLs and the page estimate

  /** `fetch_page`'s URL: the bare site for page 1, "?p=<n>" otherwise. */
  function PageUrl(n: int): (u: string)
    ensures n == 1 ==> u == BaseUrl
    ensures n != 1 ==> u == BaseUrl + "/?p=" + IntToString(n)
  {
    if n == 1 then BaseUrl else BaseUrl + "/?p=" + IntToString(n)
  }

  /** Different page numbers are fetched from different URLs. */
  lemma PageUrlInjective(m: int, n: int)
    requires PageUrl(m) == PageUrl(n)
    ensures m == n
  {
    if m != 1 && n != 1 {
      var prefix := BaseUrl + "/?p=";
      assert PageUrl(m)[|prefix|..] == IntToString(m);
      assert PageUrl(n)[|prefix|..] == IntToString(n);
      ParseIntOfIntToString(m);
      ParseIntOfIntToString(n);
    }
  }

  /** `_estimate_pages` / `estimate_pages_for_timeframe`. */
  function EstimatePages(days: int): (pages: int)
    ensures pages in {10, 50, 200, 500}
    ensures days <= 1 ==> pages == 10
    ensures days > 30 ==> pages == 500
  {
    if days <= 1 then 10
    else if days <= 7 then 50
    else if days <= 30 then 200
    else 500
  }

  /** Looking further back never asks for fewer pages. */
  lemma EstimatePagesMonotone(d1: int, d2: int)
    requires d1 <= d2
    ensures EstimatePages(d1) <= EstimatePages(d2)
  {
  }

  // ---------------------------------------------------------------------
  // Field rules shared by both scrapers

  /** Whether a link's stripped, lower-cased text mentions comments. */
  predicate MentionsComment(text: string) {
    Contains(Lower(Strip(text)), "comment")
  }

  /** The count a comment link gives: "discuss" gives 0; otherwise the
      first token as an integer, 0 when it is not one. */
  function LinkCount(text: string): int {
    var t := Strip(text);
    if Lower(t) == "discuss" then 0
    else
      var words := Words(t);
      if |words| == 0 then 0 else ParseInt(words[0]).GetOr(0)
  }

  /** The index of the first link that mentions comments, or -1. */
  function FirstMention(links: seq<string>): (k: int)
    ensures -1 <= k < |links|
    ensures k >= 0 ==> MentionsComment(links[k])
    ensures forall j :: 0 <= j < |links| && (k < 0 || j < k) ==> !MentionsComment(links[j])
  {
    if links == [] then -1
    else if MentionsComment(links[0]) then 0
    else
      var k := FirstMention(links[1..]);
      assert forall j :: 1 <= j < |links| ==> links[j] == links[1..][j - 1];
      if k < 0 then -1 else k + 1
  }

  /** The comment count: from the first link that mentions comments, 0 when
      none does. */
  function CommentCount(links: seq<string>): (n: int)
    ensures (forall k :: 0 <= k < |links| ==> !MentionsComment(links[k])) ==> n == 0
    ensures forall k :: (0 <= k < |links| && MentionsComment(links[k]) &&
      (forall j :: 0 <= j < k ==> !MentionsComment(links[j]))) ==> n == LinkCount(links[k])
  {
    var k := FirstMention(links);
    FirstMentionUnique(links);
    if k < 0 then 0 else LinkCount(links[k])
  }

  /** Only one index can be the first that mentions comments. */
  lemma FirstMentionUnique(links: seq<string>)
    ensures forall k :: (0 <= k < |links| && MentionsComment(links[k]) &&
      (forall j :: 0 <= j < k ==> !MentionsComment(links[j]))) ==> FirstMention(links) == k
  {
  }

  /** The "discuss" case of the comment rule can never be taken: a link
      reaches it only when its text mentions "comment", and "discuss" does
      not. */
  lemma DiscussBranchUnreachable(text: string)
    requires MentionsComment(text)
    ensures Lower(Strip(text)) != "discuss"
  {
    if Lower(Strip(text)) == "discuss" {
      assert "discuss"[0] != "comment"[0];
      NotContainsSameLength("discuss", "comment");
    }
  }

  /** The stripped text of an optional element, "" when absent. */
  function TextOf(e: Option<string>): string {
    if e.Some? then Strip(e.value) else ""
  }

  /** `HNWebScraper`'s domain: the stripped text of the first site-text
      element anywhere in the title cell. */
  function SitestrDomain(line: TitleLine): Option<string> {
    if line.sitestr.Some? then Some(Strip(line.sitestr.value)) else None
  }

  /** `HackerNewsScraper`'s domain: the stripped site text, looked up only
      inside the site annotation. */
  function SitebitDomain(line: TitleLine): Option<string> {
    if line.sitebit.Some? && line.sitebit.value.sitestr.Some? then Some(Strip(line.sitebit.value.sitestr.value)) else None
  }

  /** The two lookups agree on a cell whose first site text is the one in
      its annotation, as on the listing's own layout. */
  lemma DomainLookupsAgree(line: TitleLine)
    requires line.sitestr == (if line.sitebit.Some? then line.sitebit.value.sitestr else None)
    ensures SitestrDomain(line) == SitebitDomain(line)
  {
  }

  /** A site text outside any annotation is a domain for `HNWebScraper`
      but not for `HackerNewsScraper`. */
  lemma DomainLookupsDiffer(link: Option<TitleLink>, text: string)
    ensures SitestrDomain(TitleLine(link, None, Some(text))) == Some(Strip(text))
    ensures SitebitDomain(TitleLine(link, None, Some(text))).None?
  {
  }

  /** The age text: the stripped text of the link in the age element. */
  function AgeTextOf(sub: Subtext): string {
    if sub.age.Some? && sub.age.value.link.Some? then Strip(sub.age.value.link.value) else ""
  }

  /** An empty age text gives no posted time, so a post's posted time is
      always the parse of its age text. */
  lemma NoAgeNoTime(now: Timestamp)
    ensures ParseAge("", now) == Parsed(None)
  {
    assert Lower("") == "";
  }

  // ---------------------------------------------------------------------
  // HNWebScraper

  /** The rank: surrounding whitespace, then trailing dots, removed, then
      an integer; a missing rank is 0, an unparsable one `None` (the row is
      dropped). */
  function WebRank(rank: Option<string>): Option<int> {
    if rank.None? then Some(0) else ParseInt(StripRight(Strip(rank.value), {'.'}))
  }

  /** The points: the first token of the score text as an integer; 0 when
      the score is missing, has no token or is not an integer. */
  function WebPoints(score: Option<string>): (n: int)
    ensures score.None? ==> n == 0
    ensures score.Some? && |Words(Strip(score.value))| > 0 && ParseInt(Words(Strip(score.value))[0]).Some? ==>
      n == ParseInt(Words(Strip(score.value))[0]).value
    ensures score.Some? && (|Words(Strip(score.value))| == 0 || ParseInt(Words(Strip(score.value))[0]).None?) ==> n == 0
  {
    if score.None? then 0
    else
      var words := Words(Strip(score.value));
      if |words| == 0 then 0 else ParseInt(words[0]).GetOr(0)
  }

  /** The five substring flags a post carries. */
  function FlagsOf(p: Post): Flags {
    Flags(p.isShowHn, p.isAskHn, p.isYcCompany, p.isGithubLink, p.isTwitterLink)
  }

  /** One row under `HNWebScraper.parse_page`: a row without a title link,
      a metadata row or a subtext cell is skipped, and so is one whose rank
      does not parse or whose age overflows the datetime range (the
      exception is caught for the row). */
  function ParseWebRow(row: PostRow, page: int, now: Timestamp): (r: Option<Post>)
    ensures r.None? <==>
      (row.titleLine.None? || row.titleLine.value.link.None? || row.next.None?
       || row.next.value.subtext.None? || WebRank(row.rank).None?
       || ParseAge(AgeTextOf(row.next.value.subtext.value), now).Overflow?)
    ensures r.Some? ==>
      var p := r.value;
      var link := row.titleLine.value.link.value;
      var sub := row.next.value.subtext.value;
      && p.rank == WebRank(row.rank).value && p.postId == row.id.GetOr("")
      && p.title == Strip(link.text)
      && p.url == (if link.href.GetOr("") == "" then None else link.href)
      && p.domain == SitestrDomain(row.titleLine.value)
      && p.points == WebPoints(sub.score) && p.author == TextOf(sub.author)
      && p.commentsCount == CommentCount(row.next.value.links)
      && p.ageText == AgeTextOf(sub) && ParseAge(p.ageText, now) == Parsed(p.postedAt)
      && p.pageNumber == page && p.scrapedAt == now
      && !p.isJob && !Enriched(p)
      && FlagsOf(p) == Classify(p.title, link.href.GetOr(""))
  {
    if row.titleLine.None? || row.titleLine.value.link.None? || row.next.None? then None
    else if row.next.value.subtext.None? then None
    else match WebRank(row.rank)
      case None => None
      case Some(rank) =>
        var line := row.titleLine.value;
        var link := line.link.value;
        var sub := row.next.value.subtext.value;
        var title := Strip(link.text);
        var url := link.href.GetOr("");
        var age := AgeTextOf(sub);
        match ParseAge(age, now)
        case Overflow => None
        case Parsed(posted) =>
          var flags := Classify(title, url);
          Some(Post(
            rank, row.id.GetOr(""), title, if url == "" then None else Some(url), SitestrDomain(line),
            WebPoints(sub.score), TextOf(sub.author), CommentCount(row.next.value.links),
            age, posted, page, now,
            flags.isShowHn, flags.isAskHn, false, flags.isGithubLink,
            flags.isTwitterLink, flags.isYcCompany,
            None, None, None, None, None))
  }

  // ---------------------------------------------------------------------
  // HackerNewsScraper

  /** The rank: dots (only) removed from both ends, then an integer. */
  function ScraperRank(rank: Option<string>): Option<int> {
    if rank.None? then Some(0) else ParseInt(StripChars(rank.value, {'.'}))
  }

  /** The points: 0 for a missing or blank score; otherwise the first token
      must be an integer, else the row is dropped (`None`). */
  function ScraperPoints(score: Option<string>): (r: Option<int>)
    ensures score.None? || Strip(score.value) == "" ==> r == Some(0)
    ensures score.Some? && Strip(score.value) != "" ==>
      (r.Some? <==> |Words(Strip(score.value))| > 0 && ParseInt(Words(Strip(score.value))[0]).Some?)
  {
    if score.None? then Some(0)
    else
      var text := Strip(score.value);
      if text == "" then Some(0)
      else
        var words := Words(text);
        if |words| == 0 then None else ParseInt(words[0])
  }

  /** A non-empty href not starting with "http" is made absolute. */
  function Qualify(url: string): (r: string)
    ensures url == "" ==> r == ""
    ensures url != "" ==> StartsWith(r, "http")
    ensures StartsWith(url, "http") ==> r == url
    ensures url != "" && !StartsWith(url, "http") ==> r == BaseUrl + "/" + url
  {
    if url != "" && !StartsWith(url, "http") then
      assert (BaseUrl + "/" + url)[..4] == BaseUrl[..4];
      BaseUrl + "/" + url
    else url
  }

  /** Qualifying twice is qualifying once. */
  lemma QualifyIdempotent(url: string)
    ensures Qualify(Qualify(url)) == Qualify(url)
  {
  }

  /** One row under `HackerNewsScraper.parse_page`: a row without a title
      link or a metadata row is skipped, and so is one whose rank or points
      do not parse or whose age overflows the datetime range; a row without
      a subtext cell is a job posting. */
  function ParseScraperRow(row: PostRow, page: int, now: Timestamp): (r: Option<Post>)
    ensures r.None? <==>
      (row.titleLine.None? || row.titleLine.value.link.None? || row.next.None?
       || ScraperRank(row.rank).None?
       || (row.next.value.subtext.Some? && ScraperPoints(row.next.value.subtext.value.score).None?)
       || (row.next.value.subtext.Some? && ParseAge(AgeTextOf(row.next.value.subtext.value), now).Overflow?))
    ensures r.Some? ==>
      var p := r.value;
      var link := row.titleLine.value.link.value;
      var url := Qualify(link.href.GetOr(""));
      && p.rank == ScraperRank(row.rank).value && p.postId == row.id.GetOr("")
      && p.title == Strip(link.text)
      && p.url == (if url == "" then None else Some(url))
      && p.domain == SitebitDomain(row.titleLine.value)
      && p.pageNumber == page && p.scrapedAt == now && !Enriched(p)
      && (p.isJob <==> row.next.value.subtext.None?)
      && ParseAge(p.ageText, now) == Parsed(p.postedAt)
    ensures r.Some? && r.value.isJob ==>
      var p := r.value;
      && p.points == 0 && p.author == "" && p.commentsCount == 0 && p.ageText == ""
      && p.postedAt == None && !p.isShowHn && !p.isAskHn && !p.isGithubLink
      && !p.isTwitterLink && !p.isYcCompany
    ensures r.Some? && !r.value.isJob ==>
      var p := r.value;
      var sub := row.next.value.subtext.value;
      && p.points == ScraperPoints(sub.score).value && p.author == TextOf(sub.author)
      && p.commentsCount == CommentCount(sub.links) && p.ageText == AgeTextOf(sub)
      && FlagsOf(p) == Classify(p.title, Qualify(row.titleLine.value.link.value.href.GetOr("")))
  {
    if row.titleLine.None? || row.titleLine.value.link.None? then None
    else if ScraperRank(row.rank).None? then None
    else if row.next.None? then None
    else
      var rank := ScraperRank(row.rank).value;
      var line := row.titleLine.value;
      var link := line.link.value;
      var title := Strip(link.text);
      var url := Qualify(link.href.GetOr(""));
      var urlField := if url == "" then None else Some(url);
      NoAgeNoTime(now);
      match row.next.value.subtext
      case None =>
        var job := NewPost(rank, row.id.GetOr(""), title, 0, "", 0, "", page, now);
        Some(job.(url := urlField, domain := SitebitDomain(line), isJob := true))
      case Some(sub) =>
        match ScraperPoints(sub.score)
        case None => None
        case Some(points) =>
          var age := AgeTextOf(sub);
          match ParseAge(age, now)
          case Overflow => None
          case Parsed(posted) =>
            var flags := Classify(title, url);
            Some(Post(
              rank, row.id.GetOr(""), title, urlField, SitebitDomain(line),
              points, TextOf(sub.author), CommentCount(sub.links),
              age, posted, page, now,
              flags.isShowHn, flags.isAskHn, false, flags.isGithubLink,
              flags.isTwitterLink, flags.isYcCompany,
              None, None, None, None, None))
  }

  /** The rank as the listing shows it, "<n>.", gives n under both rank
      rules. */
  lemma DisplayedRankParses(n: nat)
    ensures WebRank(Some(NatToString(n) + ".")) == Some(n)
    ensures ScraperRank(Some(NatToString(n) + ".")) == Some(n)
  {
    var digits := NatToString(n);
    var shown := digits + ".";
    assert shown[0] == digits[0] && IsDigit(digits[0]);
    assert shown[|shown| - 1] == '.';
    StripCharsKeepsTrimmed(shown, Whitespace);
    assert StripRight(shown, {'.'}) == digits by {
      assert shown[..|shown| - 1] == digits;
      assert IsDigit(digits[|digits| - 1]);
    }
    assert StripLeft(shown, {'.'}) == shown;
    ParseIntOfIntToString(n);
  }

  // ---------------------------------------------------------------------
  // Pages

  /** One row under the chosen scraper. */
  function ParseRow(scraper: Scraper, row: PostRow, page: int, now: Timestamp): (r: Option<Post>)
    ensures r.Some? ==> r.value.pageNumber == page
    ensures r.Some? && scraper.HNWebScraper? ==> !r.value.isJob
  {
    match scraper
    case HNWebScraper => ParseWebRow(row, page, now)
    case HackerNewsScraper => ParseScraperRow(row, page, now)
  }

  /** The results of a row parser that are posts, in row order. */
  function Collect(rows: seq<PostRow>, parse: PostRow -> Option<Post>): (posts: seq<Post>)
    ensures |posts| <= |rows|
  {
    if rows == [] then []
    else (if parse(rows[0]).Some? then [parse(rows[0]).value] else []) + Collect(rows[1..], parse)
  }

  /** Rows parse independently: a sequence of rows split in two collects as
      its parts. */
  lemma {:induction false} CollectAppend(a: seq<PostRow>, b: seq<PostRow>, parse: PostRow -> Option<Post>)
    ensures Collect(a + b, parse) == Collect(a, parse) + Collect(b, parse)
    decreases |a|
  {
    if a == [] {
      assert a + b == b;
    } else {
      var head := if parse(a[0]).Some? then [parse(a[0]).value] else [];
      assert (a + b)[0] == a[0] && (a + b)[1..] == a[1..] + b;
      assert Collect(a + b, parse) == head + Collect(a[1..] + b, parse);
      CollectAppend(a[1..], b, parse);
      assert head + (Collect(a[1..], parse) + Collect(b, parse)) == (head + Collect(a[1..], parse)) + Collect(b, parse);
    }
  }

  /** Every collected post is the result of some row. */
  lemma {:induction false} CollectFromRows(rows: seq<PostRow>, parse: PostRow -> Option<Post>, k: nat)
    requires k < |Collect(rows, parse)|
    ensures exists i :: 0 <= i < |rows| && parse(rows[i]) == Some(Collect(rows, parse)[k])
    decreases |rows|
  {
    var head := if parse(rows[0]).Some? then [parse(rows[0]).value] else [];
    var rest := Collect(rows[1..], parse);
    assert Collect(rows, parse) == head + rest;
    if k >= |head| {
      CollectFromRows(rows[1..], parse, k - |head|);
      var i :| 0 <= i < |rows[1..]| && parse(rows[1..][i]) == Some(rest[k - |head|]);
      assert rows[1..][i] == rows[i + 1];
    }
  }

  /** `parse_page`: the posts of the rows that parse, in order; a row that
      does not parse is dropped alone. */
  function ParsePage(scraper: Scraper, rows: seq<PostRow>, page: int, now: Timestamp): (posts: seq<Post>)
    ensures |posts| <= |rows|
  {
    Collect(rows, row => ParseRow(scraper, row, page, now))
  }

  /** Every post of a page carries its page number, and the web scraper
      never marks a post as a job. */
  lemma ParsePagePosts(scraper: Scraper, rows: seq<PostRow>, page: int, now: Timestamp)
    ensures forall k :: 0 <= k < |ParsePage(scraper, rows, page, now)| ==>
      ParsePage(scraper, rows, page, now)[k].pageNumber == page
      && (scraper.HNWebScraper? ==> !ParsePage(scraper, rows, page, now)[k].isJob)
  {
    var parse := row => ParseRow(scraper, row, page, now);
    forall k | 0 <= k < |ParsePage(scraper, rows, page, now)|
      ensures ParsePage(scraper, rows, page, now)[k].pageNumber == page
      ensures scraper.HNWebScraper? ==> !ParsePage(scraper, rows, page, now)[k].isJob
    {
      CollectFromRows(rows, parse, k);
    }
  }

  /** `scrape_pages`: pages 1..numPages are fetched, from `PageUrl`, in
      order; a page that failed to fetch contributes nothing. */
  function ScrapePages(scraper: Scraper, numPages: int, fetch: string -> Option<seq<PostRow>>, now: Timestamp): seq<Post> {
    ScrapeFrom(scraper, 1, numPages, fetch, now)
  }

  /** The posts of pages `first..last`. */
  function ScrapeFrom(scraper: Scraper, first: int, last: int, fetch: string -> Option<seq<PostRow>>, now: Timestamp): (posts: seq<Post>)
    ensures first > last ==> posts == []
    decreases last - first + 1
  {
    if first > last then []
    else
      var here := fetch(PageUrl(first));
      (if here.Some? then ParsePage(scraper, here.value, first, now) else [])
      + ScrapeFrom(scraper, first + 1, last, fetch, now)
  }

  /** The scraped posts are in page order, each from a page in range whose
      fetch succeeded. */
  predicate PageOrdered(posts: seq<Post>, first: int, last: int, fetch: string -> Option<seq<PostRow>>) {
    FromFetchedPages(posts, first, last, fetch) && PageSorted(posts)
  }

  /** Each post comes from a page in `first..last` whose fetch succeeded. */
  predicate FromFetchedPages(posts: seq<Post>, first: int, last: int, fetch: string -> Option<seq<PostRow>>) {
    forall k :: 0 <= k < |posts| ==> first <= posts[k].pageNumber <= last && fetch(PageUrl(posts[k].pageNumber)).Some?
  }

  /** Page numbers never decrease along the posts. */
  predicate PageSorted(posts: seq<Post>) {
    forall i, j :: 0 <= i < j < |posts| ==> posts[i].pageNumber <= posts[j].pageNumber
  }

  lemma {:induction false} ScrapeFromOrdered(scraper: Scraper, first: int, last: int,
                                             fetch: string -> Option<seq<PostRow>>, now: Timestamp)
    ensures PageOrdered(ScrapeFrom(scraper, first, last, fetch, now), first, last, fetch)
    decreases last - first + 1
  {
    if first <= last {
      ScrapeFromOrdered(scraper, first + 1, last, fetch, now);
      var here := fetch(PageUrl(first));
      var head := if here.Some? then ParsePage(scraper, here.value, first, now) else [];
      if here.Some? { ParsePagePosts(scraper, here.value, first, now); }
      var rest := ScrapeFrom(scraper, first + 1, last, fetch, now);
      assert ScrapeFrom(scraper, first, last, fetch, now) == head + rest;
      FetchedStep(head, rest, first, last, fetch);
      SortedStep(head, rest, first);
    }
  }

  /** One fetched page in front of posts from later fetched pages. */
  lemma FetchedStep(head: seq<Post>, rest: seq<Post>, first: int, last: int, fetch: string -> Option<seq<PostRow>>)
    requires first <= last
    requires forall k :: 0 <= k < |head| ==> head[k].pageNumber == first
    requires head != [] ==> fetch(PageUrl(first)).Some?
    requires FromFetchedPages(rest, first + 1, last, fetch)
    ensures FromFetchedPages(head + rest, first, last, fetch)
  {
    var posts := head + rest;
    forall k | 0 <= k < |posts|
      ensures first <= posts[k].pageNumber <= last && fetch(PageUrl(posts[k].pageNumber)).Some?
    {
      if k < |head| { assert posts[k] == head[k]; } else { assert posts[k] == rest[k - |head|]; }
    }
  }

  /** Posts of one page in front of sorted posts of later pages stay sorted. */
  lemma SortedStep(head: seq<Post>, rest: seq<Post>, first: int)
    requires forall k :: 0 <= k < |head| ==> head[k].pageNumber == first
    requires forall k :: 0 <= k < |rest| ==> rest[k].pageNumber > first
    requires PageSorted(rest)
    ensures PageSorted(head + rest)
  {
    var posts := head + rest;
    forall i, j | 0 <= i < j < |posts| ensures posts[i].pageNumber <= posts[j].pageNumber {
      if j < |head| {
        assert posts[i] == head[i] && posts[j] == head[j];
      } else if i < |head| {
        assert posts[i] == head[i] && posts[j] == rest[j - |head|];
      } else {
        assert posts[i] == rest[i - |head|] && posts[j] == rest[j - |head|];
      }
    }
  }

  /** The documented order: `scrape_pages(n)` gives posts of pages 1..n in
      page order, only from pages whose fetch succeeded. */
  lemma ScrapePagesOrdered(scraper: Scraper, numPages: int, fetch: string -> Option<seq<PostRow>>, now: Timestamp)
    ensures PageOrdered(ScrapePages(scraper, numPages, fetch, now), 1, numPages, fetch)
  {
    ScrapeFromOrdered(scraper, 1, numPages, fetch, now);
  }

  /** The web scraper never marks a post of any page as a job. */
  lemma {:induction false} WebScrapeHasNoJobs(first: int, last: int, fetch: string -> Option<seq<PostRow>>, now: Timestamp)
    ensures forall k :: 0 <= k < |ScrapeFrom(HNWebScraper, first, last, fetch, now)| ==>
      !ScrapeFrom(HNWebScraper, first, last, fetch, now)[k].isJob
    decreases last - first + 1
  {
    if first <= last {
      WebScrapeHasNoJobs(first + 1, last, fetch, now);
      var here := fetch(PageUrl(first));
      var head := if here.Some? then ParsePage(HNWebScraper, here.value, first, now) else [];
      if here.Some? { ParsePagePosts(HNWebScraper, here.value, first, now); }
      var rest := ScrapeFrom(HNWebScraper, first + 1, last, fetch, now);
      assert ScrapeFrom(HNWebScraper, first, last, fetch, now) == head + rest;
      NoJobsStep(head, rest);
    }
  }

  /** Two job-free runs of posts joined are job-free. */
  lemma NoJobsStep(head: seq<Post>, rest: seq<Post>)
    requires forall k :: 0 <= k < |head| ==> !head[k].isJob
    requires forall k :: 0 <= k < |rest| ==> !rest[k].isJob
    ensures forall k :: 0 <= k < |head + rest| ==> !(head + rest)[k].isJob
  {
    forall k | 0 <= k < |head + rest| ensures !(head + rest)[k].isJob {
      if k < |head| { assert (head + rest)[k] == head[k]; } else { assert (head + rest)[k] == rest[k - |head|]; }
    }
  }
}

=== FILE: github_stars.dfy ===
/** Star history for one repository: the star record, the repository-URL
    resolver, the single-page fetch with its status handling, the page loop
    and the per-date aggregation. The hosting API is an abstract response per
    request; the URL library is an abstract parser. */
module GitHubStars {
  import opened Optional
  import opened Text
  import opened Models

  /** One star event. */
  datatype Star = Star(repoOwner: string, repoName: string, starredAt: Timestamp, userLogin: string)

  /** An (owner, name) pair identifying a repository. */
  datatype RepoId = RepoId(owner: string, name: string)

  /** "owner/name". */
  function FullName(id: RepoId): string {
    id.owner + "/" + id.name
  }

  /** The star's repository as "owner/name". */
  function RepoFullName(s: Star): (r: string)
    ensures r == FullName(RepoId(s.repoOwner, s.repoName))
    ensures |r| == |s.repoOwner| + 1 + |s.repoName| && r[|s.repoOwner|] == '/'
    ensures r[..|s.repoOwner|] == s.repoOwner && r[|s.repoOwner| + 1..] == s.repoName
  {
    s.repoOwner + "/" + s.repoName
  }

  /** The two components of a parsed URL the resolver reads. */
  datatype UrlSplit = UrlSplit(netloc: string, path: string)

  /** The URL library's parse: `None` when it raises. */
  type UrlParser = string -> Option<UrlSplit>

  /** The hosts whose URLs name repositories, exactly as written (no case
      folding, no port). */
  const GitHubHosts: set<string> := {"github.com", "www.github.com"}

  /** The non-empty '/'-separated segments of a path. */
  function Segments(path: string): seq<string> {
    Tokens(path, {'/'})
  }

  /** The name with one trailing ".git" removed. */
  function StripGitSuffix(name: string): (r: string)
    ensures EndsWith(name, ".git") ==> r + ".git" == name
    ensures !EndsWith(name, ".git") ==> r == name
  {
    if EndsWith(name, ".git") then name[..|name| - 4] else name
  }

  /** The resolver on an already-parsed URL: the host must be one of
      `GitHubHosts`, the path must have at least two non-empty segments, and
      the result is the first segment with the second stripped of ".git";
      later segments are ignored. */
  function RepoFromSplit(u: UrlSplit): (r: Option<RepoId>)
    ensures r.Some? <==> u.netloc in GitHubHosts && |Segments(u.path)| >= 2
    ensures r.Some? ==> (r.value.owner == Segments(u.path)[0]
      && StripGitSuffix(Segments(u.path)[1]) == r.value.name)
  {
    if u.netloc !in GitHubHosts then None
    else
      var parts := Segments(u.path);
      if |parts| < 2 then None
      else Some(RepoId(parts[0], StripGitSuffix(parts[1])))
  }

  /** `extract_repo_info`: an empty URL or one the parser rejects gives
      `None`, never an error; otherwise the resolver above decides. */
  function ExtractRepoInfo(url: string, parse: UrlParser): (r: Option<RepoId>)
    ensures url == "" ==> r == None
    ensures r.Some? ==> parse(url).Some? && parse(url).value.netloc in GitHubHosts
    ensures url != "" && parse(url).Some? ==> r == RepoFromSplit(parse(url).value)
    ensures r.Some? ==> |r.value.owner| > 0 && FreeOf(r.value.owner, {'/'})
  {
    if url == "" then None
    else match parse(url)
      case None => None
      case Some(u) => RepoFromSplit(u)
  }

  /** The path "/<owner>/<segment>" followed by `rest`. */
  function RepoPath(owner: string, segment: string, rest: string): string {
    "/" + owner + "/" + segment + rest
  }

  /** The repository segment as written in a URL, with or without ".git". */
  function GitSegment(name: string, git: bool): string {
    if git then name + ".git" else name
  }

  /** A path "/owner/segment", optionally followed by further segments, has
      `owner` and `segment` as its first two segments. */
  lemma {:induction false} SegmentsOfRepoPath(owner: string, segment: string, rest: string)
    requires |owner| > 0 && FreeOf(owner, {'/'})
    requires |segment| > 0 && FreeOf(segment, {'/'})
    requires rest == [] || rest[0] == '/'
    ensures |Segments(RepoPath(owner, segment, rest))| >= 2
    ensures Segments(RepoPath(owner, segment, rest))[0] == owner
    ensures Segments(RepoPath(owner, segment, rest))[1] == segment
  {
    var path := RepoPath(owner, segment, rest);
    var tail := segment + rest;
    assert path == ['/'] + (owner + ['/'] + tail);
    LeadingSlash(owner + ['/'] + tail);
    TokensOfWordThenSep(owner, '/', tail, {'/'});
    FirstSegment(segment, rest);
  }

  /** A leading '/' adds no segment. */
  lemma LeadingSlash(path: string)
    ensures Segments(['/'] + path) == Segments(path)
  {
    assert (['/'] + path)[1..] == path;
  }

  /** A '/'-free segment followed by nothing or by a '/'-led rest is the
      first segment. */
  lemma FirstSegment(segment: string, rest: string)
    requires |segment| > 0 && FreeOf(segment, {'/'})
    requires rest == [] || rest[0] == '/'
    ensures |Segments(segment + rest)| >= 1 && Segments(segment + rest)[0] == segment
  {
    if rest == [] {
      assert segment + rest == segment;
      TokensOfWord(segment, {'/'});
    } else {
      assert segment + rest == segment + ['/'] + rest[1..];
      TokensOfWordThenSep(segment, '/', rest[1..], {'/'});
    }
  }

  /** Stripping ".git" recovers a name that does not itself end in ".git",
      whether or not the suffix was written. */
  lemma StripGitSegment(name: string, git: bool)
    requires !EndsWith(name, ".git")
    ensures StripGitSuffix(GitSegment(name, git)) == name
    ensures FreeOf(name, {'/'}) ==> FreeOf(GitSegment(name, git), {'/'})
  {
    var seg := GitSegment(name, git);
    if git {
      assert seg[|seg| - 4..] == ".git";
      assert seg[..|seg| - 4] == name;
      if FreeOf(name, {'/'}) {
        forall i | 0 <= i < |seg| ensures seg[i] !in {'/'} {
          if i >= |name| { assert seg[i] == ".git"[i - |name|]; }
        }
      }
    }
  }

  /** The path "/owner/name" of a repository host, optionally with ".git"
      after the name and further segments after that, resolves to exactly
      (owner, name). */
  lemma ResolvesOwnerAndName(host: string, owner: string, name: string, git: bool, rest: string)
    requires host in GitHubHosts
    requires |owner| > 0 && FreeOf(owner, {'/'})
    requires |name| > 0 && FreeOf(name, {'/'}) && !EndsWith(name, ".git")
    requires rest == [] || rest[0] == '/'
    ensures RepoFromSplit(UrlSplit(host, RepoPath(owner, GitSegment(name, git), rest))) == Some(RepoId(owner, name))
  {
    StripGitSegment(name, git);
    SegmentsOfRepoPath(owner, GitSegment(name, git), rest);
  }

  /** The documented example: https://github.com/inkeep/agents resolves to
      ('inkeep', 'agents'). */
  lemma ResolverExample(u: UrlSplit)
    requires u == UrlSplit("github.com", "/inkeep/agents")
    ensures RepoFromSplit(u) == Some(RepoId("inkeep", "agents"))
  {
    var owner, name := "inkeep", "agents";
    assert !EndsWith(name, ".git") by { assert name[2..] != ".git"; }
    assert u.path == RepoPath(owner, GitSegment(name, false), "");
    ResolvesOwnerAndName(u.netloc, owner, name, false, "");
  }

  /** A URL on any other host, or whose path has fewer than two non-empty
      segments, does not resolve. */
  lemma RejectsOtherHostsAndShortPaths(u: UrlSplit)
    requires u.netloc !in GitHubHosts || |Segments(u.path)| < 2
    ensures RepoFromSplit(u) == None
  {
  }

  // ---------------------------------------------------------------------
  // One page of stars

  /** The page size requested, the API's maximum. */
  const StarsPerPage := 100

  /** One item of the JSON array, classified by the first read that fails:
      the timestamp is read before the user, and the star is built last.
      `Valid` is a star. `Malformed` is an item whose first failing read
      raises `KeyError` or `ValueError` (a missing key, an unparsable
      timestamp, a null login), which is caught and the item skipped.
      `Unreadable` is an item whose first failing read raises anything else
      (a null timestamp, a null user, an item that is not an object), which
      the page fetch does not catch. So an unparsable timestamp with a null
      user is `Malformed`. */
  datatype RawStar = Valid(starredAt: Timestamp, login: string) | Malformed | Unreadable

  /** No item of the page raises when read. */
  predicate AllReadable(items: seq<RawStar>) {
    forall k :: 0 <= k < |items| ==> !items[k].Unreadable?
  }

  /** The response to one page request: the status, the remaining-quota and
      quota-reset headers when present, and the items of the body; or a
      transport failure. */
  datatype StarResponse =
    | Response(status: int, remaining: Option<string>, reset: Option<string>, items: seq<RawStar>)
    | TransportError

  /** What one call of the page fetch does. */
  datatype PageResult =
    | Page(stars: seq<Star>, hasMore: bool)   // a page of stars (possibly empty)
    | RateLimited                             // wait, then request the same page again
    | RequestFailed                           // a request exception, re-raised
    | Crashed                                 // another exception (an unparsable reset header, an unreadable item)

  /** The well-formed items as stars of the given repository, in order;
      malformed items are skipped; an unreadable item anywhere raises
      (`None`), losing the whole page. */
  function ParseStars(owner: string, repo: string, items: seq<RawStar>): (r: Option<seq<Star>>)
    ensures r.Some? <==> AllReadable(items)
    ensures r.Some? ==> |r.value| <= |items|
    ensures r.Some? ==> |r.value| == CountValid(items)
    ensures r.Some? ==> forall k :: 0 <= k < |r.value| ==> r.value[k].repoOwner == owner && r.value[k].repoName == repo
    ensures r.Some? ==> forall k :: 0 <= k < |r.value| ==> Valid(r.value[k].starredAt, r.value[k].userLogin) in items
    ensures r.Some? ==> forall k :: 0 <= k < |items| && items[k].Valid? ==>
      Star(owner, repo, items[k].starredAt, items[k].login) in r.value
  {
    if items == [] then Some([])
    else
      match items[0]
      case Unreadable => None
      case Valid(at, login) =>
        var rest := ParseStars(owner, repo, items[1..]);
        if rest.None? then None
        else
          assert forall k :: 1 <= k < |items| ==> items[k] == items[1..][k - 1];
          Some([Star(owner, repo, at, login)] + rest.value)
      case Malformed =>
        var rest := ParseStars(owner, repo, items[1..]);
        assert forall k :: 1 <= k < |items| ==> items[k] == items[1..][k - 1];
        rest
  }

  /** Parsing splits over concatenation of readable pages, so the stars keep
      the order of their items. */
  lemma {:induction false} ParseStarsAppend(owner: string, repo: string, a: seq<RawStar>, b: seq<RawStar>)
    requires AllReadable(a) && AllReadable(b)
    ensures ParseStars(owner, repo, a + b) == Some(ParseStars(owner, repo, a).value + ParseStars(owner, repo, b).value)
  {
    if a == [] {
      assert a + b == b;
      assert ParseStars(owner, repo, a).value + ParseStars(owner, repo, b).value == ParseStars(owner, repo, b).value;
    } else {
      assert (a + b)[0] == a[0];
      assert (a + b)[1..] == a[1..] + b;
      assert AllReadable(a[1..]) by {
        forall k | 0 <= k < |a[1..]| ensures !a[1..][k].Unreadable? {
          assert a[1..][k] == a[k + 1];
        }
      }
      ParseStarsAppend(owner, repo, a[1..], b);
      if a[0].Valid? {
        var s := Star(owner, repo, a[0].starredAt, a[0].login);
        assert [s] + (ParseStars(owner, repo, a[1..]).value + ParseStars(owner, repo, b).value)
            == ([s] + ParseStars(owner, repo, a[1..]).value) + ParseStars(owner, repo, b).value;
      }
    }
  }

  function CountValid(items: seq<RawStar>): nat {
    if items == [] then 0 else (if items[0].Valid? then 1 else 0) + CountValid(items[1..])
  }

  /** Whether the response is the rate-limit signal: status 403 with the
      remaining-quota header reading "0" (an absent header counts as "0"). */
  predicate IsRateLimit(resp: StarResponse) {
    resp.Response? && resp.status == 403 && resp.remaining.GetOr("0") == "0"
  }

  /** `fetch_stars_page` for one response. A rate-limit response retries the
      same page (once its reset header parses); 422 (page out of range) and
      404 (no such repository) are an empty last page; any other 4xx or 5xx
      status, and a transport failure, is a request failure; otherwise the
      well-formed items become stars and more pages are expected exactly when
      the raw page was full. */
  function FetchStarsPage(owner: string, repo: string, resp: StarResponse): (r: PageResult)
    ensures r.RateLimited? ==> IsRateLimit(resp)
    ensures IsRateLimit(resp) ==> r.RateLimited? || r.Crashed?
    ensures r.Crashed? <==>
      (resp.Response? &&
       if IsRateLimit(resp) then ParseInt(resp.reset.GetOr("0")).None?
       else resp.status !in {404, 422} && !(400 <= resp.status < 600) && !AllReadable(resp.items))
    ensures resp.Response? && resp.status in {404, 422} ==> r == Page([], false)
    ensures resp.TransportError? ==> r.RequestFailed?
    ensures r.RequestFailed? <==> (resp.TransportError? ||
      (!IsRateLimit(resp) && resp.status !in {404, 422} && 400 <= resp.status < 600))
    ensures r.Page? && resp.status !in {404, 422} ==>
      (r.hasMore <==> |resp.items| == StarsPerPage)
    ensures r.Page? ==> |r.stars| <= (if resp.Response? then |resp.items| else 0)
    ensures r.Page? ==> forall k :: 0 <= k < |r.stars| ==>
      r.stars[k].repoOwner == owner && r.stars[k].repoName == repo
  {
    match resp
    case TransportError => RequestFailed
    case Response(status, remaining, reset, items) =>
      if IsRateLimit(resp) then
        (if ParseInt(reset.GetOr("0")).Some? then RateLimited else Crashed)
      else if status == 422 || status == 404 then Page([], false)
      else if 400 <= status < 600 then RequestFailed
      else match ParseStars(owner, repo, items)
        case None => Crashed
        case Some(stars) => Page(stars, |items| == StarsPerPage)
  }

  // ---------------------------------------------------------------------
  // All pages

  /** Why the page loop stopped. */
  datatype StopReason =
    | LastPage        // a page said there were no more
    | EmptyPage       // a page brought no stars
    | PageCap         // the next page index exceeds the cap
    | Failed          // a request failed; the stars so far are returned
    | Escaped         // an exception escaped the loop; the caller gets nothing
    | ScriptEnded     // the responses supplied to the model ran out
    | NotARepository  // the URL did not resolve (only from FetchStarsFromUrl)

  /** The outcome of the loop: the stars returned, the page index of every
      request in order (a retry repeats the index), and the stop reason. */
  datatype StarRun = StarRun(stars: seq<Star>, requests: seq<int>, stop: StopReason)

  /** The stars one response contributes to the loop's result. */
  function PageStars(owner: string, repo: string, resp: StarResponse): seq<Star> {
    var p := FetchStarsPage(owner, repo, resp);
    if p.Page? then p.stars else []
  }

  /** The concatenation of the stars of a sequence of responses. */
  function ConcatPageStars(owner: string, repo: string, script: seq<StarResponse>): seq<Star> {
    if script == [] then []
    else PageStars(owner, repo, script[0]) + ConcatPageStars(owner, repo, script[1..])
  }

  /** Whether the cap (`max_pages`, 0/None meaning no cap) forbids the page. */
  predicate BeyondCap(maxPages: Option<int>, page: int) {
    Truthy(maxPages) && page > maxPages.value
  }

  /** Every request is for a page index at least `page` and within the cap. */
  predicate RequestsWithin(requests: seq<int>, page: int, maxPages: Option<int>) {
    forall k :: 0 <= k < |requests| ==> page <= requests[k] && !BeyondCap(maxPages, requests[k])
  }

  /** Each request after the first repeats the previous page index when the
      previous response was a rate limit, and asks for the next one otherwise. */
  predicate AdvancesPerResponse(owner: string, repo: string, requests: seq<int>, script: seq<StarResponse>)
    requires |requests| <= |script|
  {
    forall k :: 0 < k < |requests| ==>
      requests[k] == requests[k - 1] + (if FetchStarsPage(owner, repo, script[k - 1]).RateLimited? then 0 else 1)
  }

  /** Every star belongs to the given repository. */
  predicate AllOfRepository(stars: seq<Star>, owner: string, repo: string) {
    forall k :: 0 <= k < |stars| ==> stars[k].repoOwner == owner && stars[k].repoName == repo
  }

  /** `fetch_all_stars`: pages 1, 2, ... are requested in turn, the i-th
      request receiving `script[i]`. */
  function FetchAllStars(owner: string, repo: string, maxPages: Option<int>, script: seq<StarResponse>): StarRun {
    PagesFrom(owner, repo, maxPages, 1, script)
  }

  /** The loop from page index `page` on. */
  function PagesFrom(owner: string, repo: string, maxPages: Option<int>, page: int,
                     script: seq<StarResponse>): (r: StarRun)
    ensures |r.requests| <= |script|
    ensures |r.requests| > 0 ==> r.requests[0] == page
    ensures r.stop.Escaped? ==> r.stars == []
    decreases |script|
  {
    if BeyondCap(maxPages, page) then StarRun([], [], PageCap)
    else if script == [] then StarRun([], [], ScriptEnded)
    else
      match FetchStarsPage(owner, repo, script[0])
      case Crashed => StarRun([], [page], Escaped)
      case RequestFailed => StarRun([], [page], Failed)
      case RateLimited =>
        var rest := PagesFrom(owner, repo, maxPages, page, script[1..]);
        StarRun(rest.stars, [page] + rest.requests, rest.stop)
      case Page(stars, more) =>
        if stars == [] then StarRun([], [page], EmptyPage)
        else if !more then StarRun(stars, [page], LastPage)
        else
          var rest := PagesFrom(owner, repo, maxPages, page + 1, script[1..]);
          if rest.stop.Escaped? then StarRun([], [page] + rest.requests, Escaped)
          else StarRun(stars + rest.stars, [page] + rest.requests, rest.stop)
  }

  /** No requested page index is below the starting one or beyond the cap. */
  lemma {:induction false} PagesWithinCap(owner: string, repo: string, maxPages: Option<int>, page: int,
                                          script: seq<StarResponse>)
    ensures RequestsWithin(PagesFrom(owner, repo, maxPages, page, script).requests, page, maxPages)
    decreases |script|
  {
    var r := PagesFrom(owner, repo, maxPages, page, script);
    if !BeyondCap(maxPages, page) && script != [] {
      var p0 := FetchStarsPage(owner, repo, script[0]);
      if p0.RateLimited? || (p0.Page? && p0.stars != [] && p0.hasMore) {
        var next := if p0.RateLimited? then page else page + 1;
        var rest := PagesFrom(owner, repo, maxPages, next, script[1..]);
        PagesWithinCap(owner, repo, maxPages, next, script[1..]);
        assert r.requests == [page] + rest.requests;
        forall k | 1 <= k < |r.requests| ensures page <= r.requests[k] && !BeyondCap(maxPages, r.requests[k]) {
          assert r.requests[k] == rest.requests[k - 1];
          assert next <= rest.requests[k - 1] && !BeyondCap(maxPages, rest.requests[k - 1]);
        }
      } else {
        assert r.requests == [page];
      }
    }
  }

  /** Each request after the first asks for the same page as the one before
      when that one was rate-limited, and for the next page otherwise. */
  lemma {:induction false} PagesAdvance(owner: string, repo: string, maxPages: Option<int>, page: int,
                                        script: seq<StarResponse>)
    ensures AdvancesPerResponse(owner, repo, PagesFrom(owner, repo, maxPages, page, script).requests, script)
    decreases |script|
  {
    if !BeyondCap(maxPages, page) && script != [] {
      var r := PagesFrom(owner, repo, maxPages, page, script);
      match FetchStarsPage(owner, repo, script[0])
      case Crashed =>
      case RequestFailed =>
      case RateLimited =>
        PagesAdvance(owner, repo, maxPages, page, script[1..]);
        AdvanceStep(owner, repo, page, PagesFrom(owner, repo, maxPages, page, script[1..]).requests, script);
      case Page(stars, more) =>
        if stars != [] && more {
          PagesAdvance(owner, repo, maxPages, page + 1, script[1..]);
          AdvanceStep(owner, repo, page, PagesFrom(owner, repo, maxPages, page + 1, script[1..]).requests, script);
        }
    }
  }

  /** A first request for `page` in front of requests that advance per the
      remaining responses, and that start where the first response leads. */
  lemma AdvanceStep(owner: string, repo: string, page: int, rest: seq<int>, script: seq<StarResponse>)
    requires |rest| < |script|
    requires |rest| > 0 ==> rest[0] == page + (if FetchStarsPage(owner, repo, script[0]).RateLimited? then 0 else 1)
    requires AdvancesPerResponse(owner, repo, rest, script[1..])
    ensures AdvancesPerResponse(owner, repo, [page] + rest, script)
  {
    var requests := [page] + rest;
    forall k | 0 < k < |requests|
      ensures requests[k] == requests[k - 1] + (if FetchStarsPage(owner, repo, script[k - 1]).RateLimited? then 0 else 1)
    {
      if k > 1 {
        assert requests[k] == rest[k - 1] && requests[k - 1] == rest[k - 2];
        assert script[k - 1] == script[1..][k - 2];
      }
    }
  }

  /** Unless an exception escapes, the stars returned are the in-order
      concatenation of the stars of the responses consumed, including the
      partial result when a request fails. */
  lemma {:induction false} PagesConcat(owner: string, repo: string, maxPages: Option<int>, page: int,
                                       script: seq<StarResponse>)
    ensures !PagesFrom(owner, repo, maxPages, page, script).stop.Escaped? ==>
      PagesFrom(owner, repo, maxPages, page, script).stars
        == ConcatPageStars(owner, repo, script[..|PagesFrom(owner, repo, maxPages, page, script).requests|])
    decreases |script|
  {
    var r := PagesFrom(owner, repo, maxPages, page, script);
    if BeyondCap(maxPages, page) || script == [] {
      assert script[..0] == [];
    } else if Continues(FetchStarsPage(owner, repo, script[0])) {
      var next := NextPage(page, FetchStarsPage(owner, repo, script[0]));
      PagesConcat(owner, repo, maxPages, next, script[1..]);
      PagesFromContinues(owner, repo, maxPages, page, script);
      ConcatTake(owner, repo, script, |r.requests| - 1);
    } else {
      PagesFromStops(owner, repo, maxPages, page, script);
      assert script[..1] == [script[0]];
    }
  }

  /** Whether the loop goes on after this page result. */
  predicate Continues(p: PageResult) {
    p.RateLimited? || (p.Page? && p.stars != [] && p.hasMore)
  }

  /** The page index requested after this page result. */
  function NextPage(page: int, p: PageResult): int {
    if p.RateLimited? then page else page + 1
  }

  /** One step of the loop that goes on: one request, then the rest of the
      loop from the next page index. */
  lemma PagesFromContinues(owner: string, repo: string, maxPages: Option<int>, page: int, script: seq<StarResponse>)
    requires !BeyondCap(maxPages, page) && script != []
    requires Continues(FetchStarsPage(owner, repo, script[0]))
    ensures PagesFrom(owner, repo, maxPages, page, script).requests
      == [page] + PagesFrom(owner, repo, maxPages, NextPage(page, FetchStarsPage(owner, repo, script[0])), script[1..]).requests
    ensures PagesFrom(owner, repo, maxPages, page, script).stop
      == PagesFrom(owner, repo, maxPages, NextPage(page, FetchStarsPage(owner, repo, script[0])), script[1..]).stop
    ensures !PagesFrom(owner, repo, maxPages, page, script).stop.Escaped? ==>
      PagesFrom(owner, repo, maxPages, page, script).stars
        == PageStars(owner, repo, script[0])
          + PagesFrom(owner, repo, maxPages, NextPage(page, FetchStarsPage(owner, repo, script[0])), script[1..]).stars
  {
  }

  /** A step after which the loop stops makes one request, and its stars,
      unless an exception escaped, are those of that response. */
  lemma PagesFromStops(owner: string, repo: string, maxPages: Option<int>, page: int, script: seq<StarResponse>)
    requires !BeyondCap(maxPages, page) && script != []
    requires !Continues(FetchStarsPage(owner, repo, script[0]))
    ensures PagesFrom(owner, repo, maxPages, page, script).requests == [page]
    ensures !PagesFrom(owner, repo, maxPages, page, script).stop.Escaped? ==>
      PagesFrom(owner, repo, maxPages, page, script).stars == PageStars(owner, repo, script[0])
  {
  }

  /** The stars of the first `n + 1` responses: those of the first, then
      those of the next `n`. */
  lemma ConcatTake(owner: string, repo: string, script: seq<StarResponse>, n: nat)
    requires n < |script|
    ensures ConcatPageStars(owner, repo, script[..n + 1])
      == PageStars(owner, repo, script[0]) + ConcatPageStars(owner, repo, script[1..][..n])
  {
    assert script[..n + 1][1..] == script[1..][..n];
    assert script[..n + 1][0] == script[0];
  }

  /** Every star the loop returns belongs to the requested repository. */
  lemma {:induction false} PagesOwnRepository(owner: string, repo: string, maxPages: Option<int>, page: int,
                                              script: seq<StarResponse>)
    ensures AllOfRepository(PagesFrom(owner, repo, maxPages, page, script).stars, owner, repo)
    decreases |script|
  {
    var r := PagesFrom(owner, repo, maxPages, page, script);
    if !BeyondCap(maxPages, page) && script != [] {
      var p0 := FetchStarsPage(owner, repo, script[0]);
      if p0.RateLimited? {
        PagesOwnRepository(owner, repo, maxPages, page, script[1..]);
      } else if p0.Page? && p0.stars != [] && p0.hasMore {
        var rest := PagesFrom(owner, repo, maxPages, page + 1, script[1..]);
        PagesOwnRepository(owner, repo, maxPages, page + 1, script[1..]);
        if !rest.stop.Escaped? {
          assert r.stars == p0.stars + rest.stars;
          forall k | 0 <= k < |r.stars| ensures r.stars[k].repoOwner == owner && r.stars[k].repoName == repo {
            if k >= |p0.stars| {
              assert r.stars[k] == rest.stars[k - |p0.stars|];
            } else {
              assert r.stars[k] == p0.stars[k];
              assert p0.stars[k].repoOwner == owner && p0.stars[k].repoName == repo;
            }
          }
        }
      }
    }
  }

  /** The loop's guarantees in the terms of the source: no page index beyond
      a truthy cap is ever requested; a rate-limited response makes the next
      request ask for the same page; unless an exception escapes, the result
      is the in-order concatenation of the stars of the pages received. */
  lemma FetchAllStarsContract(owner: string, repo: string, maxPages: Option<int>, script: seq<StarResponse>)
    ensures var r := FetchAllStars(owner, repo, maxPages, script);
      && (Truthy(maxPages) ==> forall k :: 0 <= k < |r.requests| ==> 1 <= r.requests[k] <= maxPages.value)
      && (forall k :: 0 < k < |r.requests| && FetchStarsPage(owner, repo, script[k - 1]).RateLimited? ==>
            r.requests[k] == r.requests[k - 1])
      && (!r.stop.Escaped? ==> r.stars == ConcatPageStars(owner, repo, script[..|r.requests|]))
  {
    PagesWithinCap(owner, repo, maxPages, 1, script);
    PagesAdvance(owner, repo, maxPages, 1, script);
    PagesConcat(owner, repo, maxPages, 1, script);
  }

  /** The loop ends on the first response that is not a full page: once a
      page brings no stars, or says there are no more, nothing further is
      requested. */
  lemma {:induction false} StopsAtFirstShortPage(owner: string, repo: string, maxPages: Option<int>,
                                                 page: int, script: seq<StarResponse>, k: nat)
    requires k < |PagesFrom(owner, repo, maxPages, page, script).requests|
    requires FetchStarsPage(owner, repo, script[k]).Page?
    requires var p := FetchStarsPage(owner, repo, script[k]); p.stars == [] || !p.hasMore
    ensures |PagesFrom(owner, repo, maxPages, page, script).requests| == k + 1
    ensures PagesFrom(owner, repo, maxPages, page, script).stop in {LastPage, EmptyPage}
    decreases |script|
  {
    if k > 0 {
      assert !BeyondCap(maxPages, page) && script != [];
      var p0 := FetchStarsPage(owner, repo, script[0]);
      if Continues(p0) {
        PagesFromContinues(owner, repo, maxPages, page, script);
        assert script[k] == script[1..][k - 1];
        StopsAtFirstShortPage(owner, repo, maxPages, NextPage(page, p0), script[1..], k - 1);
      } else {
        assert false;
      }
    }
  }

  /** An exception while reading a page ends the loop at once, and the
      caller gets no star of the repository, not even those of the pages
      already received. */
  lemma {:induction false} CrashLosesAllStars(owner: string, repo: string, maxPages: Option<int>,
                                              page: int, script: seq<StarResponse>, k: nat)
    requires k < |PagesFrom(owner, repo, maxPages, page, script).requests|
    requires FetchStarsPage(owner, repo, script[k]).Crashed?
    ensures |PagesFrom(owner, repo, maxPages, page, script).requests| == k + 1
    ensures PagesFrom(owner, repo, maxPages, page, script).stop == Escaped
    ensures PagesFrom(owner, repo, maxPages, page, script).stars == []
    decreases |script|
  {
    if k > 0 {
      assert !BeyondCap(maxPages, page) && script != [];
      var p0 := FetchStarsPage(owner, repo, script[0]);
      if Continues(p0) {
        PagesFromContinues(owner, repo, maxPages, page, script);
        assert script[k] == script[1..][k - 1];
        CrashLosesAllStars(owner, repo, maxPages, NextPage(page, p0), script[1..], k - 1);
      } else {
        assert false;
      }
    }
  }

  /** A successful page holding an item whose timestamp or user is null
      loses every star of the repository: the exception escapes
      `fetch_all_stars`, which only catches request failures. */
  lemma UnreadableItemLosesAll(owner: string, repo: string, maxPages: Option<int>,
                               script: seq<StarResponse>, k: nat)
    requires k < |FetchAllStars(owner, repo, maxPages, script).requests|
    requires script[k].Response? && !IsRateLimit(script[k])
    requires script[k].status !in {404, 422} && !(400 <= script[k].status < 600)
    requires !AllReadable(script[k].items)
    ensures FetchAllStars(owner, repo, maxPages, script).stop == Escaped
    ensures FetchAllStars(owner, repo, maxPages, script).stars == []
  {
    CrashLosesAllStars(owner, repo, maxPages, 1, script, k);
  }

  /** `fetch_stars_from_url`: an unresolvable URL gives no stars and no
      request; otherwise the page loop for the resolved repository. */
  function FetchStarsFromUrl(url: string, parse: UrlParser, maxPages: Option<int>,
                             script: seq<StarResponse>): (r: StarRun)
    ensures ExtractRepoInfo(url, parse).None? ==> r == StarRun([], [], NotARepository)
    ensures ExtractRepoInfo(url, parse).Some? ==>
      var id := ExtractRepoInfo(url, parse).value;
      forall k :: 0 <= k < |r.stars| ==> r.stars[k].repoOwner == id.owner && r.stars[k].repoName == id.name
  {
    match ExtractRepoInfo(url, parse)
    case None => StarRun([], [], NotARepository)
    case Some(id) =>
      PagesOwnRepository(id.owner, id.name, maxPages, 1, script);
      FetchAllStars(id.owner, id.name, maxPages, script)
  }

  // ---------------------------------------------------------------------
  // Stars per date

  /** The calendar day (UTC) of an instant, as a day number; the model's
      stand-in for the ISO date text used as the key. */
  function DayOf(t: Timestamp): int {
    t / 86400
  }

  /** One entry of the per-date counts. */
  datatype DateCount = DateCount(day: int, count: nat)

  /** The number of stars given on a day. */
  function StarsOnDay(stars: seq<Star>, day: int): nat
    decreases |stars|
  {
    if stars == [] then 0
    else StarsOnDay(stars[..|stars| - 1], day) + (if DayOf(stars[|stars| - 1].starredAt) == day then 1 else 0)
  }

  function SumCounts(counts: seq<DateCount>): nat
    decreases |counts|
  {
    if counts == [] then 0 else SumCounts(counts[..|counts| - 1]) + counts[|counts| - 1].count
  }

  predicate DistinctDays(counts: seq<DateCount>) {
    forall i, j :: 0 <= i < j < |counts| ==> counts[i].day != counts[j].day
  }

  /** Some entry is for `day`. */
  predicate HasDay(counts: seq<DateCount>, day: int) {
    exists j :: 0 <= j < |counts| && counts[j].day == day
  }

  /** `counts` is the per-day tally of `stars`: one entry per day, days
      distinct, each entry the exact number of that day's stars, every star's
      day present, and the counts summing to the number of stars. */
  predicate IsTally(stars: seq<Star>, counts: seq<DateCount>) {
    && DistinctDays(counts)
    && (forall k :: 0 <= k < |counts| ==> counts[k].count == StarsOnDay(stars, counts[k].day))
    && (forall k :: 0 <= k < |stars| ==> HasDay(counts, DayOf(stars[k].starredAt)))
    && SumCounts(counts) == |stars|
  }

  /** `get_star_counts_by_date`: one entry per day on which some star was
      given, in order of first appearance, each holding exactly the number of
      stars given that day; the counts sum to the number of stars. Stars are
      tallied one at a time, as the dictionary is filled. */
  function StarCountsByDate(stars: seq<Star>): (tally: seq<DateCount>)
    ensures DistinctDays(tally)
    ensures forall k :: 0 <= k < |tally| ==> tally[k].count == StarsOnDay(stars, tally[k].day)
    ensures forall k :: 0 <= k < |tally| ==> tally[k].count > 0
    ensures forall k :: 0 <= k < |stars| ==> HasDay(tally, DayOf(stars[k].starredAt))
    ensures SumCounts(tally) == |stars|
    decreases |stars|
  {
    if stars == [] then []
    else
      var prefix, star := stars[..|stars| - 1], stars[|stars| - 1];
      var counts := StarCountsByDate(prefix);
      var day := DayOf(star.starredAt);
      var j := FindDay(counts, day);
      assert prefix + [star] == stars;
      if j < 0 then
        TallyNewDay(prefix, counts, star);
        counts + [DateCount(day, 1)]
      else
        TallyKnownDay(prefix, counts, star, j);
        counts[j := DateCount(day, counts[j].count + 1)]
  }

  /** The index of the entry for `day`, or -1. */
  function FindDay(counts: seq<DateCount>, day: int): (j: int)
    ensures -1 <= j < |counts|
    ensures j >= 0 ==> counts[j].day == day
    ensures j < 0 ==> !HasDay(counts, day)
    decreases |counts|
  {
    if counts == [] then -1
    else if counts[|counts| - 1].day == day then |counts| - 1
    else
      var j := FindDay(counts[..|counts| - 1], day);
      assert j < 0 ==> forall k :: 0 <= k < |counts| - 1 ==> counts[..|counts| - 1][k] == counts[k];
      j
  }

  /** Appending a star adds one to its own day's count and nothing to others. */
  lemma StarsOnDayAppend(prefix: seq<Star>, s: Star, day: int)
    ensures StarsOnDay(prefix + [s], day) == StarsOnDay(prefix, day) + (if DayOf(s.starredAt) == day then 1 else 0)
  {
    assert (prefix + [s])[..|prefix|] == prefix;
  }

  /** A star on a day not yet tallied adds a new entry with count one. */
  lemma TallyNewDay(prefix: seq<Star>, counts: seq<DateCount>, s: Star)
    requires IsTally(prefix, counts)
    requires !HasDay(counts, DayOf(s.starredAt))
    ensures IsTally(prefix + [s], counts + [DateCount(DayOf(s.starredAt), 1)])
  {
    var day := DayOf(s.starredAt);
    var next := counts + [DateCount(day, 1)];
    AbsentDayHasNoStars(prefix, counts, day);
    StarsOnDayAppend(prefix, s, day);
    forall k | 0 <= k < |counts| ensures next[k].count == StarsOnDay(prefix + [s], next[k].day) {
      StarsOnDayAppend(prefix, s, counts[k].day);
    }
    forall k | 0 <= k < |prefix| + 1 ensures HasDay(next, DayOf((prefix + [s])[k].starredAt)) {
      if k == |prefix| {
        assert next[|counts|].day == day;
      } else {
        assert (prefix + [s])[k] == prefix[k];
        var j :| 0 <= j < |counts| && counts[j].day == DayOf(prefix[k].starredAt);
        assert next[j] == counts[j];
      }
    }
    assert next[..|next| - 1] == counts;
  }

  /** A star on an already tallied day adds one to that day's entry. */
  lemma TallyKnownDay(prefix: seq<Star>, counts: seq<DateCount>, s: Star, j: nat)
    requires IsTally(prefix, counts)
    requires j < |counts| && counts[j].day == DayOf(s.starredAt)
    ensures IsTally(prefix + [s], counts[j := DateCount(counts[j].day, counts[j].count + 1)])
  {
    var day := DayOf(s.starredAt);
    var next := counts[j := DateCount(day, counts[j].count + 1)];
    forall k | 0 <= k < |next| ensures next[k].count == StarsOnDay(prefix + [s], next[k].day) {
      StarsOnDayAppend(prefix, s, counts[k].day);
    }
    forall k | 0 <= k < |prefix| + 1 ensures HasDay(next, DayOf((prefix + [s])[k].starredAt)) {
      if k == |prefix| {
        assert next[j].day == day;
      } else {
        assert (prefix + [s])[k] == prefix[k];
        var i :| 0 <= i < |counts| && counts[i].day == DayOf(prefix[k].starredAt);
        assert next[i].day == counts[i].day;
      }
    }
    SumCountsIncrement(counts, j);
  }

  /** A day with no entry had no stars so far. */
  lemma {:induction false} AbsentDayHasNoStars(prefix: seq<Star>, counts: seq<DateCount>, day: int)
    requires forall k :: 0 <= k < |prefix| ==> HasDay(counts, DayOf(prefix[k].starredAt))
    requires !HasDay(counts, day)
    ensures StarsOnDay(prefix, day) == 0
    decreases |prefix|
  {
    if prefix != [] {
      var front := prefix[..|prefix| - 1];
      forall k | 0 <= k < |front| ensures HasDay(counts, DayOf(front[k].starredAt)) {
        assert front[k] == prefix[k];
      }
      AbsentDayHasNoStars(front, counts, day);
    }
  }

  lemma {:induction false} SumCountsIncrement(counts: seq<DateCount>, j: nat)
    requires j < |counts|
    ensures SumCounts(counts[j := DateCount(counts[j].day, counts[j].count + 1)]) == SumCounts(counts) + 1
    decreases |counts|
  {
    var updated := counts[j := DateCount(counts[j].day, counts[j].count + 1)];
    if j < |counts| - 1 {
      assert updated[..|updated| - 1] == counts[..|counts| - 1][j := DateCount(counts[j].day, counts[j].count + 1)];
      SumCountsIncrement(counts[..|counts| - 1], j);
    } else {
      assert updated[..|updated| - 1] == counts[..|counts| - 1];
    }
  }
}

=== FILE: hackernews.dfy ===
/** The client entry point (`HackerNews.fetch_posts`): posts come from the
    search service or from the front pages, and are enriched with
    repository stars only when asked for and when there are any. */
module HackerNews {
  import opened Optional
  import opened Models
  import GitHubStars
  import SearchApi
  import FrontPage
  import Enrichment

  /** The posts, or an error: a method that is neither "api" nor "web"
      (`ValueError`), or a lookback whose cutoff lies outside the datetime
      range (`OverflowError` in the search client). */
  datatype FetchResult = Posts(posts: seq<Post>) | UnknownMethod | LookbackOverflow

  /** The posts before enrichment: the search loop for "api", the web
      scraper over the estimated number of pages for "web". */
  function BasePosts(days: int, maxPosts: Option<int>, source: string, now: Timestamp,
                     parse: GitHubStars.UrlParser, search: seq<SearchApi.SearchResponse>,
                     pages: string -> Option<seq<FrontPage.PostRow>>): (r: FetchResult)
    ensures r.UnknownMethod? <==> source != "api" && source != "web"
    ensures r.LookbackOverflow? <==> source == "api" && !InDatetimeRange(SearchApi.Cutoff(now, days))
  {
    if source == "api" then
      match SearchApi.FetchPostsInTimeframe(days, maxPosts, now, parse, search)
      case None => LookbackOverflow
      case Some(run) => Posts(run.posts)
    else if source == "web" then Posts(FrontPage.ScrapePages(FrontPage.HNWebScraper, FrontPage.EstimatePages(days), pages, now))
    else UnknownMethod
  }

  /** `fetch_posts`: the base posts, passed through the star enrichment
      when `fetchGithubStars` is set and there is at least one post. The
      star fetcher stands for `fetch_all_stars` with the per-repository page
      cap. */
  function FetchPosts(days: int, maxPosts: Option<int>, source: string, fetchGithubStars: bool,
                      now: Timestamp, parse: GitHubStars.UrlParser, search: seq<SearchApi.SearchResponse>,
                      pages: string -> Option<seq<FrontPage.PostRow>>, stars: Enrichment.StarFetcher): (r: FetchResult)
    ensures r.UnknownMethod? <==> source != "api" && source != "web"
    ensures r.LookbackOverflow? <==> source == "api" && !InDatetimeRange(SearchApi.Cutoff(now, days))
  {
    match BasePosts(days, maxPosts, source, now, parse, search, pages)
    case UnknownMethod => UnknownMethod
    case LookbackOverflow => LookbackOverflow
    case Posts(base) =>
      if fetchGithubStars && base != [] then Posts(Enrichment.Enrich(base, parse, stars).posts)
      else Posts(base)
  }

  /** A lookback of 800000 days, asked of the search service by a clock
      before 2100, reaches before year 1: `fetch_posts` raises instead of
      returning posts. */
  lemma LookbackOverflows(maxPosts: Option<int>, fetchGithubStars: bool, now: Timestamp,
                          parse: GitHubStars.UrlParser, search: seq<SearchApi.SearchResponse>,
                          pages: string -> Option<seq<FrontPage.PostRow>>, stars: Enrichment.StarFetcher)
    requires InDatetimeRange(now) && now < 4102444800
    ensures FetchPosts(800000, maxPosts, "api", fetchGithubStars, now, parse, search, pages, stars) == LookbackOverflow
  {
    assert !InDatetimeRange(SearchApi.Cutoff(now, 800000));
  }

  /** Without enrichment the result is the base list; with it, the same
      posts in the same order, each changed at most in its five enrichment
      fields. */
  lemma FetchPostsEnrichesInPlace(days: int, maxPosts: Option<int>, source: string, fetchGithubStars: bool,
                                  now: Timestamp, parse: GitHubStars.UrlParser, search: seq<SearchApi.SearchResponse>,
                                  pages: string -> Option<seq<FrontPage.PostRow>>, stars: Enrichment.StarFetcher)
    requires source == "api" || source == "web"
    ensures FetchPosts(days, maxPosts, source, fetchGithubStars, now, parse, search, pages, stars).Posts?
      <==> BasePosts(days, maxPosts, source, now, parse, search, pages).Posts?
    ensures BasePosts(days, maxPosts, source, now, parse, search, pages).Posts? ==>
      var base := BasePosts(days, maxPosts, source, now, parse, search, pages).posts;
      var r := FetchPosts(days, maxPosts, source, fetchGithubStars, now, parse, search, pages, stars).posts;
      && (!fetchGithubStars ==> r == base)
      && |r| == |base|
      && (forall k :: 0 <= k < |base| ==> SameExceptEnrichment(base[k], r[k]))
  {
    if BasePosts(days, maxPosts, source, now, parse, search, pages).Posts? {
      var base := BasePosts(days, maxPosts, source, now, parse, search, pages).posts;
      Enrichment.EnrichContract(base, parse, stars);
    }
  }

  /** With the "web" method, every post comes from a page between 1 and the
      page estimate for `days`, in page order, and none is a job. */
  lemma WebPostsWithinEstimate(days: int, maxPosts: Option<int>, now: Timestamp, parse: GitHubStars.UrlParser,
                               search: seq<SearchApi.SearchResponse>, pages: string -> Option<seq<FrontPage.PostRow>>)
    ensures var r := BasePosts(days, maxPosts, "web", now, parse, search, pages).posts;
      && FrontPage.PageOrdered(r, 1, FrontPage.EstimatePages(days), pages)
      && (forall k :: 0 <= k < |r| ==> !r[k].isJob)
  {
    FrontPage.ScrapePagesOrdered(FrontPage.HNWebScraper, FrontPage.EstimatePages(days), pages, now);
    FrontPage.WebScrapeHasNoJobs(1, FrontPage.EstimatePages(days), pages, now);
  }
}

=== FILE: integration.dfy ===
/** The analysis pipeline of `HNGitHubAnalyzer`: filtering repository
    posts, fetching star lists once per repository, joining stars with the
    post that links to their repository, and summarising the join. The
    star-list dictionary is modelled as its item list in insertion order. */
module Integration {
  import opened Optional
  import opened Models
  import opened GitHubStars
  import opened Enrichment

  // ---------------------------------------------------------------------
  // Filter

  /** `filter_github_posts`: the posts that are repository links with a
      non-empty url, in their original order. */
  function FilterGithubPosts(posts: seq<Post>): (r: seq<Post>)
    ensures |r| <= |posts|
    ensures forall k :: 0 <= k < |r| ==> Candidate(r[k])
  {
    if posts == [] then []
    else (if Candidate(posts[0]) then [posts[0]] else []) + FilterGithubPosts(posts[1..])
  }

  /** A post survives the filter exactly when it is in the input and is a
      candidate. */
  lemma {:induction false} FilterGithubPostsMembership(posts: seq<Post>, p: Post)
    ensures p in FilterGithubPosts(posts) <==> p in posts && Candidate(p)
  {
    if posts != [] {
      FilterGithubPostsMembership(posts[1..], p);
      assert p in posts <==> p == posts[0] || p in posts[1..];
    }
  }

  /** The filter distributes over concatenation, so it keeps the relative
      order of the posts it keeps. */
  lemma {:induction false} FilterGithubPostsAppend(a: seq<Post>, b: seq<Post>)
    ensures FilterGithubPosts(a + b) == FilterGithubPosts(a) + FilterGithubPosts(b)
  {
    if a == [] {
      assert a + b == b;
    } else {
      assert (a + b)[1..] == a[1..] + b;
      FilterGithubPostsAppend(a[1..], b);
    }
  }

  /** Filtering twice is filtering once. */
  lemma {:induction false} FilterGithubPostsIdempotent(posts: seq<Post>)
    ensures FilterGithubPosts(FilterGithubPosts(posts)) == FilterGithubPosts(posts)
  {
    if posts != [] {
      FilterGithubPostsIdempotent(posts[1..]);
      var head := if Candidate(posts[0]) then [posts[0]] else [];
      FilterGithubPostsAppend(head, FilterGithubPosts(posts[1..]));
      if Candidate(posts[0]) {
        assert [posts[0]][1..] == [];
      }
    }
  }

  // ---------------------------------------------------------------------
  // Fetch once per repository

  /** The repository a post's url names, when it has a url and it resolves.
      Unlike the enrichment fold, the repository flag is not consulted. */
  function UrlKey(p: Post, parse: UrlParser): (r: Option<string>)
    ensures p.isGithubLink ==> r == RepoKey(p, parse)
  {
    if !Present(p.url) then None
    else match ExtractRepoInfo(p.url.value, parse)
      case None => None
      case Some(id) => Some(FullName(id))
  }

  /** One entry of the star dictionary. */
  datatype RepoStars = RepoStars(name: string, stars: seq<Star>)

  function Names(entries: seq<RepoStars>): (r: seq<string>)
    ensures |r| == |entries|
    ensures forall i :: 0 <= i < |entries| ==> r[i] == entries[i].name
  {
    seq(|entries|, i requires 0 <= i < |entries| => entries[i].name)
  }

  /** The fetched lists, the fetches in order, and whether an interrupt
      escaped (in which case the caller receives nothing). */
  datatype StarsRun = StarsRun(entries: seq<RepoStars>, fetches: seq<FetchRecord>, interrupted: bool)

  /** `fetch_stars_for_posts`: `None` when an interrupt escapes. */
  function FetchStarsForPosts(posts: seq<Post>, parse: UrlParser, fetch: StarFetcher): Option<seq<RepoStars>> {
    var run := FetchStarsFrom(posts, parse, fetch, [], []);
    if run.interrupted then None else Some(run.entries)
  }

  /** The loop over posts from a dictionary and a fetch record. A post
      without a url or a resolvable repository, or whose repository is
      already recorded, is skipped; an exception is caught; only non-empty
      star lists are recorded. */
  function FetchStarsFrom(posts: seq<Post>, parse: UrlParser, fetch: StarFetcher,
                          entries: seq<RepoStars>, fetches: seq<FetchRecord>): (r: StarsRun)
    ensures |entries| <= |r.entries| && r.entries[..|entries|] == entries
    ensures |fetches| <= |r.fetches| && r.fetches[..|fetches|] == fetches
    decreases |posts|
  {
    if posts == [] then StarsRun(entries, fetches, false)
    else
      var p := posts[0];
      match UrlKey(p, parse)
      case None => FetchStarsFrom(posts[1..], parse, fetch, entries, fetches)
      case Some(name) =>
        if name in Names(entries) then FetchStarsFrom(posts[1..], parse, fetch, entries, fetches)
        else
          match fetch(|fetches|, ExtractRepoInfo(p.url.value, parse).value)
          case Interrupted => StarsRun(entries, fetches, true)
          case Raised => FetchStarsFrom(posts[1..], parse, fetch, entries, fetches + [FetchRecord(name, false)])
          case Fetched(stars, _) =>
            if stars == [] then
              FetchStarsFrom(posts[1..], parse, fetch, entries, fetches + [FetchRecord(name, false)])
            else
              FetchStarsFrom(posts[1..], parse, fetch, entries + [RepoStars(name, stars)], fetches + [FetchRecord(name, true)])
  }

  /** Each repository appears at most once, with a non-empty list. */
  predicate WellFormedEntries(entries: seq<RepoStars>) {
    && (forall i, j :: 0 <= i < j < |entries| ==> entries[i].name != entries[j].name)
    && (forall i :: 0 <= i < |entries| ==> entries[i].stars != [])
  }

  /** The repositories some post names. */
  function KeysOf(posts: seq<Post>, parse: UrlParser): set<string> {
    set k | 0 <= k < |posts| && UrlKey(posts[k], parse).Some? :: UrlKey(posts[k], parse).value
  }

  /** Every cached fetch is in the dictionary. */
  predicate CachedRecorded(fetches: seq<FetchRecord>, entries: seq<RepoStars>) {
    forall i :: 0 <= i < |fetches| && fetches[i].cached ==> fetches[i].repo in Names(entries)
  }

  /** A later post names no repository the whole list does not. */
  lemma KeysOfTail(posts: seq<Post>, parse: UrlParser)
    requires posts != []
    ensures KeysOf(posts[1..], parse) <= KeysOf(posts, parse)
    ensures UrlKey(posts[0], parse).Some? ==> UrlKey(posts[0], parse).value in KeysOf(posts, parse)
  {
    forall name | name in KeysOf(posts[1..], parse) ensures name in KeysOf(posts, parse) {
      var k :| 0 <= k < |posts[1..]| && UrlKey(posts[1..][k], parse).Some? && UrlKey(posts[1..][k], parse).value == name;
      assert posts[1..][k] == posts[k + 1];
    }
    if UrlKey(posts[0], parse).Some? {
      assert UrlKey(posts[0], parse).value in KeysOf(posts, parse);
    }
  }

  /** The repositories of a list are those of all but its last post, plus
      the last post's. */
  lemma KeysOfInit(posts: seq<Post>, parse: UrlParser)
    requires posts != []
    ensures var last := UrlKey(posts[|posts| - 1], parse);
      KeysOf(posts, parse) == KeysOf(posts[..|posts| - 1], parse) + (if last.Some? then {last.value} else {})
  {
    var init := posts[..|posts| - 1];
    var last := UrlKey(posts[|posts| - 1], parse);
    forall name | name in KeysOf(posts, parse) ensures name in KeysOf(init, parse) || last == Some(name) {
      var k :| 0 <= k < |posts| && UrlKey(posts[k], parse).Some? && UrlKey(posts[k], parse).value == name;
      if k < |init| { assert init[k] == posts[k]; }
    }
    forall name | name in KeysOf(init, parse) ensures name in KeysOf(posts, parse) {
      var k :| 0 <= k < |init| && UrlKey(init[k], parse).Some? && UrlKey(init[k], parse).value == name;
      assert init[k] == posts[k];
    }
  }

  /** The bookkeeping after one fetch that did not raise an interrupt. */
  lemma FetchStep(entries: seq<RepoStars>, fetches: seq<FetchRecord>, name: string, stars: seq<Star>, cached: bool)
    requires WellFormedEntries(entries)
    requires CachedRecorded(fetches, entries)
    requires NoRefetchAfterCache(fetches)
    requires name !in Names(entries)
    requires cached ==> stars != []
    ensures var entries' := if cached then entries + [RepoStars(name, stars)] else entries;
      var fetches' := fetches + [FetchRecord(name, cached)];
      && WellFormedEntries(entries')
      && CachedRecorded(fetches', entries')
      && NoRefetchAfterCache(fetches')
  {
    var entries' := if cached then entries + [RepoStars(name, stars)] else entries;
    var fetches' := fetches + [FetchRecord(name, cached)];
    assert forall i :: 0 <= i < |entries| ==> Names(entries')[i] == Names(entries)[i];
    forall i | 0 <= i < |fetches'| && fetches'[i].cached ensures fetches'[i].repo in Names(entries') {
      if i < |fetches| {
        assert fetches'[i] == fetches[i];
        var j :| 0 <= j < |entries| && Names(entries)[j] == fetches[i].repo;
        assert Names(entries')[j] == fetches[i].repo;
      } else {
        assert Names(entries')[|entries|] == name;
      }
    }
    forall i, j | 0 <= i < j < |fetches'| && fetches'[i].cached ensures fetches'[j].repo != fetches'[i].repo {
      assert fetches'[i] == fetches[i];
      if j < |fetches| { assert fetches'[j] == fetches[j]; }
    }
  }

  /** The loop keeps the dictionary well formed, every cached fetch is
      recorded, and a recorded repository is never fetched again. */
  lemma {:induction false} FetchStarsInvariant(posts: seq<Post>, parse: UrlParser, fetch: StarFetcher,
                                               entries: seq<RepoStars>, fetches: seq<FetchRecord>)
    requires WellFormedEntries(entries)
    requires CachedRecorded(fetches, entries)
    requires NoRefetchAfterCache(fetches)
    ensures WellFormedEntries(FetchStarsFrom(posts, parse, fetch, entries, fetches).entries)
    ensures CachedRecorded(FetchStarsFrom(posts, parse, fetch, entries, fetches).fetches,
                           FetchStarsFrom(posts, parse, fetch, entries, fetches).entries)
    ensures NoRefetchAfterCache(FetchStarsFrom(posts, parse, fetch, entries, fetches).fetches)
    decreases |posts|
  {
    if posts != [] {
      var p := posts[0];
      var key := UrlKey(p, parse);
      if key.None? || key.value in Names(entries) {
        FetchStarsInvariant(posts[1..], parse, fetch, entries, fetches);
      } else {
        var name := key.value;
        var outcome := fetch(|fetches|, ExtractRepoInfo(p.url.value, parse).value);
        if !outcome.Interrupted? {
          var cached := outcome.Fetched? && outcome.stars != [];
          var stars := if outcome.Fetched? then outcome.stars else [];
          FetchStep(entries, fetches, name, stars, cached);
          var entries' := if cached then entries + [RepoStars(name, stars)] else entries;
          FetchStarsInvariant(posts[1..], parse, fetch, entries', fetches + [FetchRecord(name, cached)]);
        }
      }
    }
  }

  /** Every repository the loop records is one some post names. */
  lemma {:induction false} FetchStarsSourced(posts: seq<Post>, parse: UrlParser, fetch: StarFetcher,
                                             entries: seq<RepoStars>, fetches: seq<FetchRecord>)
    ensures forall i :: |entries| <= i < |FetchStarsFrom(posts, parse, fetch, entries, fetches).entries| ==>
      FetchStarsFrom(posts, parse, fetch, entries, fetches).entries[i].name in KeysOf(posts, parse)
    decreases |posts|
  {
    if posts != [] {
      var p := posts[0];
      var key := UrlKey(p, parse);
      var r := FetchStarsFrom(posts, parse, fetch, entries, fetches);
      KeysOfTail(posts, parse);
      if key.None? || key.value in Names(entries) {
        FetchStarsSourced(posts[1..], parse, fetch, entries, fetches);
      } else {
        var name := key.value;
        var outcome := fetch(|fetches|, ExtractRepoInfo(p.url.value, parse).value);
        if !outcome.Interrupted? {
          var cached := outcome.Fetched? && outcome.stars != [];
          var entries' := if cached then entries + [RepoStars(name, outcome.stars)] else entries;
          var fetches' := fetches + [FetchRecord(name, cached)];
          FetchStarsSourced(posts[1..], parse, fetch, entries', fetches');
          assert r == FetchStarsFrom(posts[1..], parse, fetch, entries', fetches');
          if cached {
            assert r.entries[|entries|] == RepoStars(name, outcome.stars) by {
              assert r.entries[..|entries'|] == entries';
            }
          }
        }
      }
    }
  }

  /** The dictionary `fetch_stars_for_posts` returns is well formed, names
      only repositories the posts link to, and no recorded repository was
      fetched twice. */
  lemma FetchStarsContract(posts: seq<Post>, parse: UrlParser, fetch: StarFetcher)
    ensures var r := FetchStarsFrom(posts, parse, fetch, [], []);
      && WellFormedEntries(r.entries)
      && (forall i :: 0 <= i < |r.entries| ==> r.entries[i].name in KeysOf(posts, parse))
      && NoRefetchAfterCache(r.fetches)
  {
    FetchStarsInvariant(posts, parse, fetch, [], []);
    FetchStarsSourced(posts, parse, fetch, [], []);
  }

  /** The dictionary and the enrichment memo describe the same repositories
      with the same totals. */
  ghost predicate MatchesMemo(entries: seq<RepoStars>, memo: map<string, StarSummary>) {
    && (forall name :: name in memo <==> name in Names(entries))
    && (forall i :: 0 <= i < |entries| ==> entries[i].name in memo && memo[entries[i].name].total == |entries[i].stars|)
  }

  /** On repository-link posts, and with the same star fetches, the analysis
      loop and the enrichment fold make the same fetches, stop on the same
      interrupt, and end with the same repositories and totals. */
  lemma {:induction false} AgreesWithEnrichment(posts: seq<Post>, parse: UrlParser, fetch: StarFetcher,
                                                entries: seq<RepoStars>, memo: map<string, StarSummary>,
                                                fetches: seq<FetchRecord>)
    requires forall k :: 0 <= k < |posts| ==> posts[k].isGithubLink
    requires MatchesMemo(entries, memo)
    ensures var r := FetchStarsFrom(posts, parse, fetch, entries, fetches);
      var e := EnrichFrom(posts, parse, fetch, memo, fetches);
      r.fetches == e.fetches && r.interrupted == e.interrupted && MatchesMemo(r.entries, e.memo)
    decreases |posts|
  {
    if posts != [] {
      var p := posts[0];
      assert UrlKey(p, parse) == RepoKey(p, parse);
      var key := UrlKey(p, parse);
      if key.None? || key.value in memo {
        AgreesWithEnrichment(posts[1..], parse, fetch, entries, memo, fetches);
      } else {
        var name := key.value;
        var outcome := fetch(|fetches|, ExtractRepoInfo(p.url.value, parse).value);
        if !outcome.Interrupted? {
          if outcome.Fetched? && outcome.stars != [] {
            var s := Summarize(name, outcome.stars, outcome.at, p.postedAt);
            var entries' := entries + [RepoStars(name, outcome.stars)];
            assert forall i :: 0 <= i < |entries| ==> Names(entries')[i] == Names(entries)[i];
            assert Names(entries') == Names(entries) + [name];
            assert MatchesMemo(entries', memo[name := s]);
            AgreesWithEnrichment(posts[1..], parse, fetch, entries', memo[name := s], fetches + [FetchRecord(name, true)]);
          } else {
            AgreesWithEnrichment(posts[1..], parse, fetch, entries, memo, fetches + [FetchRecord(name, false)]);
          }
        }
      }
    }
  }

  // ---------------------------------------------------------------------
  // Join of repositories with posts

  /** The post each repository maps to: every post with a url that
      resolves is written under its repository, so the last one wins. */
  function RepoToPost(posts: seq<Post>, parse: UrlParser): (m: map<string, Post>)
    ensures forall name :: name in m ==> m[name] in posts && UrlKey(m[name], parse) == Some(name)
    decreases |posts|
  {
    if posts == [] then map[]
    else
      var m := RepoToPost(posts[..|posts| - 1], parse);
      var p := posts[|posts| - 1];
      match UrlKey(p, parse)
      case None => m
      case Some(name) => m[name := p]
  }

  /** A post is the one its repository maps to exactly when no later post
      names the same repository; every named repository is a key. */
  lemma {:induction false} RepoToPostLastWins(posts: seq<Post>, parse: UrlParser, k: nat)
    requires k < |posts| && UrlKey(posts[k], parse).Some?
    requires forall k' :: k < k' < |posts| ==> UrlKey(posts[k'], parse) != UrlKey(posts[k], parse)
    ensures UrlKey(posts[k], parse).value in RepoToPost(posts, parse)
    ensures RepoToPost(posts, parse)[UrlKey(posts[k], parse).value] == posts[k]
    decreases |posts|
  {
    var init := posts[..|posts| - 1];
    if k < |posts| - 1 {
      assert forall k' :: k < k' < |init| ==> init[k'] == posts[k'];
      assert init[k] == posts[k];
      RepoToPostLastWins(init, parse, k);
    }
  }

  /** Every repository some post names is a key of the join. */
  lemma {:induction false} RepoToPostKeys(posts: seq<Post>, parse: UrlParser)
    ensures forall name :: name in RepoToPost(posts, parse) <==> name in KeysOf(posts, parse)
    decreases |posts|
  {
    if posts != [] {
      RepoToPostKeys(posts[..|posts| - 1], parse);
      KeysOfInit(posts, parse);
    }
  }

  function Lookup(m: map<string, Post>, name: string): Option<Post> {
    if name in m then Some(m[name]) else None
  }

  // ---------------------------------------------------------------------
  // Star rows

  /** One row of the star export: the star, its repository, and the linked
      post's metadata. */
  datatype StarRow = StarRow(
    repoOwner: string, repoName: string, repoFullName: string,
    starredAt: Timestamp, userLogin: string,
    hnPostId: string, hnTitle: string, hnPostedAt: Option<Timestamp>,
    hnPoints: int, hnComments: int, hnRank: int, isShowHn: bool)

  /** The row for one star: with the post's metadata when there is a post,
      else the defaults. */
  function RowFor(name: string, star: Star, post: Option<Post>): (row: StarRow)
    ensures row.repoFullName == name && row.starredAt == star.starredAt
    ensures row.repoOwner == star.repoOwner && row.repoName == star.repoName && row.userLogin == star.userLogin
    ensures post.Some? ==>
      row.hnPostId == post.value.postId && row.hnTitle == post.value.title
      && row.hnPostedAt == post.value.postedAt && row.hnPoints == post.value.points
      && row.hnComments == post.value.commentsCount && row.hnRank == post.value.rank
      && row.isShowHn == post.value.isShowHn
  {
    match post
    case Some(p) =>
      StarRow(star.repoOwner, star.repoName, name, star.starredAt, star.userLogin,
              p.postId, p.title, p.postedAt, p.points, p.commentsCount, p.rank, p.isShowHn)
    case None =>
      StarRow(star.repoOwner, star.repoName, name, star.starredAt, star.userLogin,
              "", "", None, 0, 0, 0, false)
  }

  /** A row without a post carries the defaults: empty identifier, title
      and time, zero points, comments and rank, not a Show HN. */
  lemma RowDefaults(name: string, star: Star)
    ensures var row := RowFor(name, star, None);
      row.hnPostId == "" && row.hnTitle == "" && row.hnPostedAt == None
      && row.hnPoints == 0 && row.hnComments == 0 && row.hnRank == 0 && !row.isShowHn
  {
  }

  /** The rows of one repository, one per star in order. */
  function RepoRows(entry: RepoStars, post: Option<Post>): (rows: seq<StarRow>)
    ensures |rows| == |entry.stars|
    ensures forall j :: 0 <= j < |rows| ==> rows[j] == RowFor(entry.name, entry.stars[j], post)
  {
    seq(|entry.stars|, j requires 0 <= j < |entry.stars| => RowFor(entry.name, entry.stars[j], post))
  }

  /** The rows of every repository, in dictionary order. */
  function AllRows(entries: seq<RepoStars>, m: map<string, Post>): seq<StarRow> {
    if entries == [] then []
    else RepoRows(entries[0], Lookup(m, entries[0].name)) + AllRows(entries[1..], m)
  }

  /** The total number of stars over all repositories. */
  function TotalStars(entries: seq<RepoStars>): nat {
    if entries == [] then 0 else |entries[0].stars| + TotalStars(entries[1..])
  }

  /** `save_stars_with_metadata`: the rows, or `None` when there are none
      and nothing is written. */
  function SaveStarsWithMetadata(entries: seq<RepoStars>, posts: seq<Post>, parse: UrlParser): Option<seq<StarRow>> {
    var rows := AllRows(entries, RepoToPost(posts, parse));
    if rows == [] then None else Some(rows)
  }

  /** One row per star: the row count is the star total, and every star of
      every repository has its row, carrying the metadata of the post the
      repository maps to (or the defaults). */
  lemma {:induction false} AllRowsPerStar(entries: seq<RepoStars>, m: map<string, Post>)
    ensures |AllRows(entries, m)| == TotalStars(entries)
    ensures forall i, j :: 0 <= i < |entries| && 0 <= j < |entries[i].stars| ==>
      RowFor(entries[i].name, entries[i].stars[j], Lookup(m, entries[i].name)) in AllRows(entries, m)
  {
    if entries != [] {
      AllRowsPerStar(entries[1..], m);
      var head := RepoRows(entries[0], Lookup(m, entries[0].name));
      forall i, j | 0 <= i < |entries| && 0 <= j < |entries[i].stars|
        ensures RowFor(entries[i].name, entries[i].stars[j], Lookup(m, entries[i].name)) in AllRows(entries, m)
      {
        if i == 0 {
          assert head[j] in head;
        } else {
          assert entries[i] == entries[1..][i - 1];
        }
      }
    }
  }

  /** Every row is a row of some star, with the metadata of the post its
      repository maps to (or the defaults). */
  lemma {:induction false} AllRowsFromStars(entries: seq<RepoStars>, m: map<string, Post>)
    ensures forall row :: row in AllRows(entries, m) ==>
      row == RowFor(row.repoFullName, Star(row.repoOwner, row.repoName, row.starredAt, row.userLogin), Lookup(m, row.repoFullName))
  {
    if entries != [] {
      AllRowsFromStars(entries[1..], m);
      var head := RepoRows(entries[0], Lookup(m, entries[0].name));
      forall row | row in head
        ensures row == RowFor(row.repoFullName, Star(row.repoOwner, row.repoName, row.starredAt, row.userLogin), Lookup(m, row.repoFullName))
      {
        var j :| 0 <= j < |head| && head[j] == row;
      }
    }
  }

  /** Nothing is written exactly when there are no stars at all. */
  lemma NothingSavedIffNoStars(entries: seq<RepoStars>, posts: seq<Post>, parse: UrlParser)
    ensures SaveStarsWithMetadata(entries, posts, parse).None? <==> TotalStars(entries) == 0
  {
    AllRowsPerStar(entries, RepoToPost(posts, parse));
  }

  // ---------------------------------------------------------------------
  // Summary

  /** The earliest star time. */
  function Earliest(stars: seq<Star>): (t: Timestamp)
    requires stars != []
    ensures forall k :: 0 <= k < |stars| ==> t <= stars[k].starredAt
    ensures exists k :: 0 <= k < |stars| && stars[k].starredAt == t
  {
    if |stars| == 1 then stars[0].starredAt
    else
      var rest := Earliest(stars[1..]);
      assert forall k :: 1 <= k < |stars| ==> stars[k] == stars[1..][k - 1];
      if stars[0].starredAt <= rest then stars[0].starredAt else rest
  }

  /** The latest star time. */
  function Latest(stars: seq<Star>): (t: Timestamp)
    requires stars != []
    ensures forall k :: 0 <= k < |stars| ==> stars[k].starredAt <= t
    ensures exists k :: 0 <= k < |stars| && stars[k].starredAt == t
  {
    if |stars| == 1 then stars[0].starredAt
    else
      var rest := Latest(stars[1..]);
      assert forall k :: 1 <= k < |stars| ==> stars[k] == stars[1..][k - 1];
      if stars[0].starredAt >= rest then stars[0].starredAt else rest
  }

  /** The post's figures in a repository report. */
  datatype HnFigures = HnFigures(postedAt: Timestamp, points: int, comments: int, before: nat, after: nat)

  datatype RepoReport = RepoReport(repo: string, totalStars: nat, firstStar: Option<Timestamp>,
                                   lastStar: Option<Timestamp>, hn: Option<HnFigures>)

  datatype AnalysisSummary = AnalysisSummary(totalPosts: nat, totalRepos: nat, totalStars: nat, repos: seq<RepoReport>)

  /** The report of one repository: its star count, first and last star
      times (absent for an empty list), and, when it maps to a post with a
      time, the post's figures and the before/after split. */
  function ReportFor(entry: RepoStars, post: Option<Post>): (r: RepoReport)
    ensures r.repo == entry.name && r.totalStars == |entry.stars|
    ensures r.firstStar.Some? <==> entry.stars != []
    ensures r.lastStar.Some? <==> entry.stars != []
    ensures r.firstStar.Some? ==> r.firstStar.value <= r.lastStar.value
    ensures r.firstStar.Some? ==>
      && (forall k :: 0 <= k < |entry.stars| ==> r.firstStar.value <= entry.stars[k].starredAt)
      && (exists k :: 0 <= k < |entry.stars| && entry.stars[k].starredAt == r.firstStar.value)
    ensures r.lastStar.Some? ==>
      && (forall k :: 0 <= k < |entry.stars| ==> entry.stars[k].starredAt <= r.lastStar.value)
      && (exists k :: 0 <= k < |entry.stars| && entry.stars[k].starredAt == r.lastStar.value)
    ensures r.hn.Some? <==> post.Some? && post.value.postedAt.Some?
    ensures r.hn.Some? ==>
      && r.hn.value.postedAt == post.value.postedAt.value
      && r.hn.value.points == post.value.points
      && r.hn.value.comments == post.value.commentsCount
    ensures r.hn.Some? ==> r.hn.value.before + r.hn.value.after == r.totalStars
    ensures r.hn.Some? ==> r.hn.value.before == CountBefore(entry.stars, post.value.postedAt.value)
  {
    var first := if entry.stars == [] then None else Some(Earliest(entry.stars));
    var last := if entry.stars == [] then None else Some(Latest(entry.stars));
    var hn :=
      if post.Some? && post.value.postedAt.Some? then
        var p := post.value;
        var split := SplitStars(entry.stars, p.postedAt);
        Some(HnFigures(p.postedAt.value, p.points, p.commentsCount, split.0, split.1))
      else None;
    RepoReport(entry.name, |entry.stars|, first, last, hn)
  }

  function Reports(entries: seq<RepoStars>, m: map<string, Post>): (rs: seq<RepoReport>)
    ensures |rs| == |entries|
    ensures forall i :: 0 <= i < |entries| ==> rs[i] == ReportFor(entries[i], Lookup(m, entries[i].name))
  {
    seq(|entries|, i requires 0 <= i < |entries| => ReportFor(entries[i], Lookup(m, entries[i].name)))
  }

  function SumReported(rs: seq<RepoReport>): nat {
    if rs == [] then 0 else rs[0].totalStars + SumReported(rs[1..])
  }

  /** `generate_analysis_summary`. */
  function GenerateAnalysisSummary(entries: seq<RepoStars>, posts: seq<Post>, parse: UrlParser): (s: AnalysisSummary)
    ensures s.totalPosts == |posts| && s.totalRepos == |entries| == |s.repos|
  {
    AnalysisSummary(|posts|, |entries|, TotalStars(entries), Reports(entries, RepoToPost(posts, parse)))
  }

  /** The summary's star total is the sum of the per-repository totals. */
  lemma {:induction false} ReportedStarsAddUp(entries: seq<RepoStars>, m: map<string, Post>)
    ensures SumReported(Reports(entries, m)) == TotalStars(entries)
  {
    if entries != [] {
      ReportedStarsAddUp(entries[1..], m);
      assert Reports(entries, m)[1..] == Reports(entries[1..], m);
    }
  }

  /** The summary's promises: star total equals the sum of the reports;
      every report has first <= last; every report of a repository that
      maps to a timed post splits its stars into before + after. */
  lemma SummaryContract(entries: seq<RepoStars>, posts: seq<Post>, parse: UrlParser)
    ensures var s := GenerateAnalysisSummary(entries, posts, parse);
      && s.totalStars == SumReported(s.repos) == TotalStars(entries)
      && (forall i :: 0 <= i < |s.repos| && s.repos[i].firstStar.Some? ==>
            s.repos[i].firstStar.value <= s.repos[i].lastStar.value)
      && (forall i :: 0 <= i < |s.repos| && s.repos[i].hn.Some? ==>
            s.repos[i].hn.value.before + s.repos[i].hn.value.after == s.repos[i].totalStars)
  {
    ReportedStarsAddUp(entries, RepoToPost(posts, parse));
  }
}

=== FILE: models.dfy ===
/** The post record (`HNPost`): one aggregator submission with its
    engagement metadata, six classification flags and five optional
    repository-star enrichment fields. Timestamps are integer epoch seconds. */
module Models {
  import opened Optional

  /** An instant, as whole seconds since the epoch. */
  type Timestamp = int

  /** The instants a naive Python `datetime` can hold, from 0001-01-01
      00:00:00 to 9999-12-31 23:59:59 (the last second's fraction included),
      read as UTC. Arithmetic whose result leaves this range raises
      `OverflowError`. */
  const MinDatetime: Timestamp := -62135596800
  const MaxDatetime: Timestamp := 253402300799

  predicate InDatetimeRange(t: Timestamp) {
    MinDatetime <= t <= MaxDatetime
  }

  /** The fields in their declared order. */
  datatype Post = Post(
    rank: int,
    postId: string,
    title: string,
    url: Option<string>,
    domain: Option<string>,
    points: int,
    author: string,
    commentsCount: int,
    ageText: string,
    postedAt: Option<Timestamp>,
    pageNumber: int,
    scrapedAt: Timestamp,
    isShowHn: bool,
    isAskHn: bool,
    isJob: bool,
    isGithubLink: bool,
    isTwitterLink: bool,
    isYcCompany: bool,
    githubRepoFullName: Option<string>,
    githubTotalStars: Option<int>,
    githubStarsBeforeHn: Option<int>,
    githubStarsAfterHn: Option<int>,
    githubStarsFetchedAt: Option<Timestamp>)

  /** The column names, one per field, in declared order; the exporters use
      this order for the header and every row. */
  const FieldNames: seq<string> := [
    "rank", "post_id", "title", "url", "domain", "points", "author",
    "comments_count", "age_text", "posted_at", "page_number", "scraped_at",
    "is_show_hn", "is_ask_hn", "is_job", "is_github_link", "is_twitter_link",
    "is_yc_company", "github_repo_full_name", "github_total_stars",
    "github_stars_before_hn", "github_stars_after_hn", "github_stars_fetched_at"]

  /** The required fields, as the constructor demands them. */
  const RequiredFields: set<string> := {
    "rank", "post_id", "title", "points", "author", "comments_count",
    "age_text", "page_number"}

  /** The five repository-star values attached to a post by enrichment. */
  datatype StarSummary = StarSummary(
    fullName: string, total: int, before: int, after: int, fetchedAt: Timestamp)

  /** Constructs a post from its required fields; every optional field takes
      its declared default: url, domain and posted time absent, the six flags
      false, the five enrichment fields absent. `scrapedAt` is the clock
      reading the constructor's default factory would take. */
  function NewPost(rank: int, postId: string, title: string, points: int,
                   author: string, commentsCount: int, ageText: string,
                   pageNumber: int, scrapedAt: Timestamp): (p: Post)
    ensures p.rank == rank && p.postId == postId && p.title == title
    ensures p.points == points && p.author == author && p.commentsCount == commentsCount
    ensures p.ageText == ageText && p.pageNumber == pageNumber && p.scrapedAt == scrapedAt
    ensures p.url == None && p.domain == None && p.postedAt == None
    ensures NoFlags(p)
    ensures !Enriched(p) && EnrichmentConsistent(p)
  {
    Post(rank, postId, title, None, None, points, author, commentsCount, ageText,
         None, pageNumber, scrapedAt, false, false, false, false, false, false,
         None, None, None, None, None)
  }

  predicate NoFlags(p: Post) {
    !p.isShowHn && !p.isAskHn && !p.isJob && !p.isGithubLink
    && !p.isTwitterLink && !p.isYcCompany
  }

  /** Whether any enrichment field is populated. */
  predicate Enriched(p: Post) {
    p.githubRepoFullName.Some? || p.githubTotalStars.Some?
    || p.githubStarsBeforeHn.Some? || p.githubStarsAfterHn.Some?
    || p.githubStarsFetchedAt.Some?
  }

  /** The enrichment fields are populated together or not at all. */
  predicate EnrichmentConsistent(p: Post) {
    var all := p.githubRepoFullName.Some? && p.githubTotalStars.Some?
      && p.githubStarsBeforeHn.Some? && p.githubStarsAfterHn.Some?
      && p.githubStarsFetchedAt.Some?;
    all || !Enriched(p)
  }

  /** The post with the five enrichment fields set from `s`. */
  function WithSummary(p: Post, s: StarSummary): (q: Post)
    ensures q.githubRepoFullName == Some(s.fullName)
    ensures q.githubTotalStars == Some(s.total)
    ensures q.githubStarsBeforeHn == Some(s.before)
    ensures q.githubStarsAfterHn == Some(s.after)
    ensures q.githubStarsFetchedAt == Some(s.fetchedAt)
    ensures SameExceptEnrichment(p, q)
    ensures Enriched(q) && EnrichmentConsistent(q)
  {
    p.(githubRepoFullName := Some(s.fullName), githubTotalStars := Some(s.total),
       githubStarsBeforeHn := Some(s.before), githubStarsAfterHn := Some(s.after),
       githubStarsFetchedAt := Some(s.fetchedAt))
  }

  /** The post with every enrichment field cleared. */
  function WithoutEnrichment(p: Post): Post
  {
    p.(githubRepoFullName := None, githubTotalStars := None,
       githubStarsBeforeHn := None, githubStarsAfterHn := None,
       githubStarsFetchedAt := None)
  }

  /** The two posts agree on all eighteen non-enrichment fields. */
  predicate SameExceptEnrichment(p: Post, q: Post) {
    WithoutEnrichment(p) == WithoutEnrichment(q)
  }

  /** The summary a post carries, when it is fully enriched. */
  function SummaryOf(p: Post): Option<StarSummary> {
    if p.githubRepoFullName.Some? && p.githubTotalStars.Some?
       && p.githubStarsBeforeHn.Some? && p.githubStarsAfterHn.Some?
       && p.githubStarsFetchedAt.Some?
    then Some(StarSummary(p.githubRepoFullName.value, p.githubTotalStars.value,
                          p.githubStarsBeforeHn.value, p.githubStarsAfterHn.value,
                          p.githubStarsFetchedAt.value))
    else None
  }

  /** Enriching and then reading the summary back gives the summary. */
  lemma SummaryOfWithSummary(p: Post, s: StarSummary)
    ensures SummaryOf(WithSummary(p, s)) == Some(s)
  {
  }

  /** The column list names each field once, and the required fields are
      columns. */
  lemma FieldNamesWellFormed()
    ensures |FieldNames| == 23
    ensures forall i, j :: 0 <= i < j < |FieldNames| ==> FieldNames[i] != FieldNames[j]
    ensures forall f :: f in RequiredFields ==> f in FieldNames
  {
  }
}

=== FILE: option.dfy ===
/** The optional value used throughout the model: Python's `None` versus a
    present value. */
module Optional {

  datatype Option<+T> = None | Some(value: T) {

    /** The value when present, otherwise the given default. */
    function GetOr(default: T): T {
      match this
      case Some(v) => v
      case None => default
    }
  }

  /** Python truthiness of an optional integer such as `max_pages` or
      `max_posts`: `None` and `0` are falsy, every other integer is truthy. */
  predicate Truthy(o: Option<int>) {
    o.Some? && o.value != 0
  }

  /** Python truthiness of an optional string such as a post's url:
      `None` and `""` are falsy. */
  predicate Present(o: Option<string>) {
    o.Some? && o.value != ""
  }
}

=== FILE: post_csv.dfy ===
/** The post table as the exporters write it and the analyser reads it
    back: one row per post, one cell per field in declared order. Integers
    are written in decimal, booleans as "True"/"False", an absent value as
    the empty cell; a time is written as a text its reader parses back
    (here its decimal epoch seconds). */
module PostCsv {
  import opened Optional
  import opened Text
  import opened Models

  function BoolText(b: bool): string {
    if b then "True" else "False"
  }

  function OptText(o: Option<string>): string {
    if o.Some? then o.value else ""
  }

  function OptIntText(o: Option<int>): string {
    if o.Some? then IntToString(o.value) else ""
  }

  /** The cells of one post, in the column order of `FieldNames`. */
  function Cells(p: Post): (cells: seq<string>)
    ensures |cells| == |FieldNames|
  {
    [IntToString(p.rank), p.postId, p.title, OptText(p.url), OptText(p.domain),
     IntToString(p.points), p.author, IntToString(p.commentsCount), p.ageText,
     OptIntText(p.postedAt), IntToString(p.pageNumber), IntToString(p.scrapedAt),
     BoolText(p.isShowHn), BoolText(p.isAskHn), BoolText(p.isJob),
     BoolText(p.isGithubLink), BoolText(p.isTwitterLink), BoolText(p.isYcCompany),
     OptText(p.githubRepoFullName), OptIntText(p.githubTotalStars),
     OptIntText(p.githubStarsBeforeHn), OptIntText(p.githubStarsAfterHn),
     OptIntText(p.githubStarsFetchedAt)]
  }

  /** `save_to_csv`: no file at all for an empty list, else one row per
      post. */
  function SaveToCsv(posts: seq<Post>): (table: Option<seq<seq<string>>>)
    ensures table.None? <==> posts == []
    ensures table.Some? ==> |table.value| == |posts| && forall k :: 0 <= k < |posts| ==> table.value[k] == Cells(posts[k])
  {
    if posts == [] then None else Some(Table(posts))
  }

  /** The rows of the posts, in order. */
  function Table(posts: seq<Post>): (rows: seq<seq<string>>)
    ensures |rows| == |posts|
    ensures forall k :: 0 <= k < |posts| ==> rows[k] == Cells(posts[k])
  {
    seq(|posts|, k requires 0 <= k < |posts| => Cells(posts[k]))
  }

  /** Every post, reloaded. */
  function ReloadedAll(posts: seq<Post>): (r: seq<Post>)
    ensures |r| == |posts|
    ensures forall k :: 0 <= k < |posts| ==> r[k] == Reloaded(posts[k])
  {
    seq(|posts|, k requires 0 <= k < |posts| => Reloaded(posts[k]))
  }

  // ---------------------------------------------------------------------
  // Reading a row back (`load_posts_from_csv`)

  // A short row reads its missing columns as Python's `None`, on which every
  // conversion but the empty-cell test raises.

  /** A required integer column: `int(...)`, failing on an absent cell. */
  function IntCell(cells: seq<string>, i: nat): (r: Option<int>)
    ensures r.Some? ==> i < |cells|
  {
    if i < |cells| then ParseInt(cells[i]) else None
  }

  /** An optional text column: an empty or absent cell is `None`. */
  function OptCell(cells: seq<string>, i: nat): (r: Option<string>)
    ensures r.Some? <==> i < |cells| && cells[i] != ""
  {
    if i < |cells| && cells[i] != "" then Some(cells[i]) else None
  }

  /** A boolean column: true exactly when the lower-cased cell is "true";
      an absent cell fails. */
  function BoolCell(cells: seq<string>, i: nat): (r: Option<bool>)
    ensures r.Some? <==> i < |cells|
  {
    if i < |cells| then Some(Lower(cells[i]) == "true") else None
  }

  /** An optional time column: empty or absent is `None`, otherwise it must
      parse. */
  function OptTimeCell(cells: seq<string>, i: nat): Option<Option<Timestamp>> {
    if i >= |cells| || cells[i] == "" then Some(None)
    else match ParseInt(cells[i])
      case None => None
      case Some(t) => Some(Some(t))
  }

  /** The converted columns of a row. */
  datatype Columns = Columns(rank: int, points: int, comments: int, page: int, scrapedAt: Timestamp,
                             postedAt: Option<Timestamp>, showHn: bool, askHn: bool, job: bool,
                             githubLink: bool, twitterLink: bool, ycCompany: bool)

  /** The conversions of the read columns, or `None` when one raises. */
  function ReadColumns(cells: seq<string>): (r: Option<Columns>)
    ensures r.Some? ==> |cells| >= 18
  {
    var rank, points, comments, page, scraped := IntCell(cells, 0), IntCell(cells, 5), IntCell(cells, 7), IntCell(cells, 10), IntCell(cells, 11);
    var postedAt := OptTimeCell(cells, 9);
    var show, ask, job, gh, tw, yc := BoolCell(cells, 12), BoolCell(cells, 13), BoolCell(cells, 14), BoolCell(cells, 15), BoolCell(cells, 16), BoolCell(cells, 17);
    if rank.None? || points.None? || comments.None? || page.None? || scraped.None? || postedAt.None?
       || show.None? || ask.None? || job.None? || gh.None? || tw.None? || yc.None?
    then None
    else Some(Columns(rank.value, points.value, comments.value, page.value, scraped.value, postedAt.value,
                      show.value, ask.value, job.value, gh.value, tw.value, yc.value))
  }

  /** The post a row decodes to, or `None` when a conversion raises. The
      enrichment columns are not read. */
  function DecodeRow(cells: seq<string>): (r: Option<Post>)
    ensures r.Some? <==> ReadColumns(cells).Some?
    ensures r.Some? ==> !Enriched(r.value)
    ensures r.Some? ==> r.value.url == OptCell(cells, 3) && r.value.domain == OptCell(cells, 4)
  {
    match ReadColumns(cells)
    case None => None
    case Some(c) =>
      Some(Post(c.rank, cells[1], cells[2], OptCell(cells, 3), OptCell(cells, 4), c.points, cells[6],
                c.comments, cells[8], c.postedAt, c.page, c.scrapedAt,
                c.showHn, c.askHn, c.job, c.githubLink, c.twitterLink, c.ycCompany,
                None, None, None, None, None))
  }

  /** The post as it survives a write and a read: enrichment cleared, and an
      empty url or domain read back as absent. */
  function Reloaded(p: Post): Post {
    WithoutEnrichment(p).(url := if p.url == Some("") then None else p.url,
                          domain := if p.domain == Some("") then None else p.domain)
  }

  /** The booleans round-trip through their cells. */
  lemma BoolRoundTrip(b: bool)
    ensures (Lower(BoolText(b)) == "true") == b
  {
    if !b { assert Lower("False")[0] == 'f'; }
  }

  /** The optional texts round-trip unless the value was the empty text. */
  lemma OptTextRoundTrip(o: Option<string>)
    ensures (if OptText(o) != "" then Some(OptText(o)) else None) == (if o == Some("") then None else o)
  {
  }

  /** Each column of a written row reads back as the field it was written
      from. */
  lemma IntCellsRoundTrip(p: Post)
    ensures IntCell(Cells(p), 0) == Some(p.rank) && IntCell(Cells(p), 5) == Some(p.points)
    ensures IntCell(Cells(p), 7) == Some(p.commentsCount) && IntCell(Cells(p), 10) == Some(p.pageNumber)
    ensures IntCell(Cells(p), 11) == Some(p.scrapedAt)
  {
    var cells := Cells(p);
    assert cells[0] == IntToString(p.rank) && cells[5] == IntToString(p.points);
    assert cells[7] == IntToString(p.commentsCount) && cells[10] == IntToString(p.pageNumber);
    assert cells[11] == IntToString(p.scrapedAt);
    ParseIntOfIntToString(p.rank);
    ParseIntOfIntToString(p.points);
    ParseIntOfIntToString(p.commentsCount);
    ParseIntOfIntToString(p.pageNumber);
    ParseIntOfIntToString(p.scrapedAt);
  }

  lemma BoolCellsRoundTrip(p: Post)
    ensures BoolCell(Cells(p), 12) == Some(p.isShowHn) && BoolCell(Cells(p), 13) == Some(p.isAskHn)
    ensures BoolCell(Cells(p), 14) == Some(p.isJob) && BoolCell(Cells(p), 15) == Some(p.isGithubLink)
    ensures BoolCell(Cells(p), 16) == Some(p.isTwitterLink) && BoolCell(Cells(p), 17) == Some(p.isYcCompany)
  {
    var cells := Cells(p);
    assert cells[12] == BoolText(p.isShowHn) && cells[13] == BoolText(p.isAskHn);
    assert cells[14] == BoolText(p.isJob) && cells[15] == BoolText(p.isGithubLink);
    assert cells[16] == BoolText(p.isTwitterLink) && cells[17] == BoolText(p.isYcCompany);
    BoolRoundTrip(p.isShowHn);
    BoolRoundTrip(p.isAskHn);
    BoolRoundTrip(p.isJob);
    BoolRoundTrip(p.isGithubLink);
    BoolRoundTrip(p.isTwitterLink);
    BoolRoundTrip(p.isYcCompany);
  }

  lemma OptionalCellsRoundTrip(p: Post)
    ensures OptTimeCell(Cells(p), 9) == Some(p.postedAt)
    ensures OptCell(Cells(p), 3) == (if p.url == Some("") then None else p.url)
    ensures OptCell(Cells(p), 4) == (if p.domain == Some("") then None else p.domain)
  {
    var cells := Cells(p);
    assert cells[9] == OptIntText(p.postedAt);
    assert cells[3] == OptText(p.url) && cells[4] == OptText(p.domain);
    if p.postedAt.Some? {
      ParseIntOfIntToString(p.postedAt.value);
    }
    OptTextRoundTrip(p.url);
    OptTextRoundTrip(p.domain);
  }

  /** The columns of a written row convert back to the fields. */
  lemma ReadColumnsOfCells(p: Post)
    ensures ReadColumns(Cells(p)) == Some(Columns(p.rank, p.points, p.commentsCount, p.pageNumber, p.scrapedAt,
      p.postedAt, p.isShowHn, p.isAskHn, p.isJob, p.isGithubLink, p.isTwitterLink, p.isYcCompany))
  {
    IntCellsRoundTrip(p);
    BoolCellsRoundTrip(p);
    OptionalCellsRoundTrip(p);
  }

  /** Reading back a written row gives the post without its enrichment,
      with an empty url or domain turned into an absent one. */
  lemma DecodeCells(p: Post)
    ensures DecodeRow(Cells(p)) == Some(Reloaded(p))
  {
    ReadColumnsOfCells(p);
    OptionalCellsRoundTrip(p);
    TextCellsOfCells(p);
  }

  lemma TextCellsOfCells(p: Post)
    ensures Cells(p)[1] == p.postId && Cells(p)[2] == p.title && Cells(p)[6] == p.author && Cells(p)[8] == p.ageText
  {
  }

  /** Hence a post with no enrichment and no empty url or domain survives a
      write and a read unchanged. */
  lemma RoundTrip(p: Post)
    requires !Enriched(p) && p.url != Some("") && p.domain != Some("")
    ensures DecodeRow(Cells(p)) == Some(p)
  {
    DecodeCells(p);
  }

  /** An empty url is read back as absent. */
  lemma EmptyUrlReadsAsAbsent(p: Post)
    requires p.url == Some("")
    ensures DecodeRow(Cells(p)).Some? && DecodeRow(Cells(p)).value.url == None
  {
    DecodeCells(p);
  }

  /** `load_posts_from_csv` over the rows: every row decodes, or the load
      raises (`None`). */
  function LoadPosts(rows: seq<seq<string>>): (r: Option<seq<Post>>)
    ensures r.Some? ==> |r.value| == |rows|
    ensures r.Some? ==> forall k :: 0 <= k < |rows| ==> DecodeRow(rows[k]) == Some(r.value[k])
  {
    if rows == [] then Some([])
    else match (DecodeRow(rows[0]), LoadPosts(rows[1..]))
      case (Some(p), Some(ps)) =>
        assert forall k :: 1 <= k < |rows| ==> rows[k] == rows[1..][k - 1];
        Some([p] + ps)
      case _ => None
  }

  /** Loading a saved table gives back every post, reloaded. */
  lemma {:induction false} LoadSaved(posts: seq<Post>)
    ensures LoadPosts(Table(posts)) == Some(ReloadedAll(posts))
  {
    if posts != [] {
      LoadSaved(posts[1..]);
      DecodeCells(posts[0]);
      TableSplits(posts);
      ReloadedSplits(posts);
    }
  }

  /** The table and the reloaded posts both split at the first post. */
  lemma TableSplits(posts: seq<Post>)
    requires posts != []
    ensures Table(posts)[0] == Cells(posts[0]) && Table(posts)[1..] == Table(posts[1..])
  {
    var a, b := Table(posts)[1..], Table(posts[1..]);
    forall k | 0 <= k < |a| ensures a[k] == b[k] {
      assert posts[1..][k] == posts[k + 1];
    }
  }

  lemma ReloadedSplits(posts: seq<Post>)
    requires posts != []
    ensures ReloadedAll(posts) == [Reloaded(posts[0])] + ReloadedAll(posts[1..])
  {
    var a, b := ReloadedAll(posts), [Reloaded(posts[0])] + ReloadedAll(posts[1..]);
    forall k | 0 <= k < |a| ensures a[k] == b[k] {
      if k > 0 { assert posts[1..][k - 1] == posts[k]; }
    }
  }
}

=== FILE: search_api.dfy ===
/** The search-API fetcher: the conversion of one search hit into a post and
    the page loop that spends a post budget. The search service is a sequence
    of responses, one per request; the URL library is an abstract parser; the
    clock is a single reading `now`. */
module SearchApi {
  import opened Optional
  import opened Text
  import opened Models
  import opened Classification
  import opened Age
  import GitHubStars

  /** A JSON field of a hit: absent, present but null, or present. */
  datatype Field<T> = Missing | Null | Val(v: T)

  /** One search hit. For `tags`, `Null` stands for any value that is not a
      list. */
  datatype Hit = Hit(
    objectId: Field<string>,
    title: Field<string>,
    url: Field<string>,
    points: Field<int>,
    author: Field<string>,
    numComments: Field<int>,
    createdAt: Field<int>,
    tags: Field<seq<string>>)

  /** What converting a hit gives: a post, nothing (no title), or an
      exception: a validation error of the post record (a null author), or a
      creation time outside the datetime range. */
  datatype Conversion = Converted(post: Post) | NoTitle | Invalid

  /** `str(hit.get(key, ""))`. */
  function TextOr(f: Field<string>): string {
    match f
    case Missing => ""
    case Null => "None"
    case Val(s) => s
  }

  /** `hit.get(key, 0) or 0`. */
  function CountOr(f: Field<int>): int {
    if f.Val? then f.v else 0
  }

  /** Whether the title is truthy: present, not null and non-empty. */
  predicate HasTitle(hit: Hit) {
    hit.title.Val? && hit.title.v != ""
  }

  /** The url as the post records it: absent when missing or null. */
  function UrlOf(hit: Hit): Option<string> {
    if hit.url.Val? then Some(hit.url.v) else None
  }

  /** The domain: the parsed host of a truthy url, absent when there is no
      url, when it is empty or when parsing raises. */
  function DomainOf(hit: Hit, parse: GitHubStars.UrlParser): (r: Option<string>)
    ensures r.Some? <==> hit.url.Val? && hit.url.v != "" && parse(hit.url.v).Some?
    ensures r.Some? ==> r.value == parse(hit.url.v).value.netloc
  {
    if hit.url.Val? && hit.url.v != "" then
      match parse(hit.url.v)
      case None => None
      case Some(u) => Some(u.netloc)
    else None
  }

  /** The job flag: the tags field is a list containing "job". */
  predicate JobTagged(hit: Hit) {
    hit.tags.Val? && "job" in hit.tags.v
  }

  /** The creation time, when truthy (present, not null, non-zero). */
  function CreatedAt(hit: Hit): Option<Timestamp> {
    if hit.createdAt.Val? && hit.createdAt.v != 0 then Some(hit.createdAt.v) else None
  }

  /** `_convert_api_hit_to_post`: a titleless hit gives nothing; a creation
      time no datetime can hold raises, and so does a null author (the post
      record refuses it); any other hit gives an unenriched post of rank 0
      on the given page, posted at a datetime (its fields:
      `ConvertHitFields`). */
  function ConvertHit(hit: Hit, page: int, now: Timestamp, parse: GitHubStars.UrlParser): (r: Conversion)
    ensures r.NoTitle? <==> !HasTitle(hit)
    ensures r.Invalid? <==>
      HasTitle(hit) && (hit.author.Null? || (CreatedAt(hit).Some? && !InDatetimeRange(CreatedAt(hit).value)))
    ensures r.Converted? ==> r.post.rank == 0 && r.post.pageNumber == page && r.post.scrapedAt == now && !Enriched(r.post)
    ensures r.Converted? && r.post.postedAt.Some? ==> InDatetimeRange(r.post.postedAt.value)
  {
    if !HasTitle(hit) then NoTitle
    else if CreatedAt(hit).Some? && !InDatetimeRange(CreatedAt(hit).value) then Invalid
    else if hit.author.Null? then Invalid
    else
      var title := hit.title.v;
      var url := UrlOf(hit);
      var flags := Classify(title, url.GetOr(""));
      var posted := CreatedAt(hit);
      var age := if posted.Some? then AgeText(now - posted.value) else "";
      Converted(Post(
        0, TextOr(hit.objectId), title, url, DomainOf(hit, parse),
        CountOr(hit.points), TextOr(hit.author), CountOr(hit.numComments),
        age, posted, page, now,
        flags.isShowHn, flags.isAskHn, JobTagged(hit), flags.isGithubLink,
        flags.isTwitterLink, flags.isYcCompany,
        None, None, None, None, None))
  }

  /** The fields of a converted hit: title, url, domain, id, author and
      counts taken from the hit with their defaults, the five substring
      flags, and the job flag iff the tags list holds "job". */
  lemma ConvertHitFields(hit: Hit, page: int, now: Timestamp, parse: GitHubStars.UrlParser)
    ensures var r := ConvertHit(hit, page, now, parse);
      r.Converted? ==>
      var p := r.post;
      && p.title == hit.title.v && p.url == UrlOf(hit) && p.domain == DomainOf(hit, parse)
      && p.postId == TextOr(hit.objectId) && p.author == TextOr(hit.author)
      && p.points == CountOr(hit.points) && p.commentsCount == CountOr(hit.numComments)
      && (p.isShowHn <==> Contains(Lower(p.title), "show hn"))
      && (p.isAskHn <==> Contains(Lower(p.title), "ask hn"))
      && (p.isYcCompany <==> Contains(Lower(p.title), "yc"))
      && (p.isGithubLink <==> p.url.Some? && Contains(Lower(p.url.value), "github.com"))
      && (p.isTwitterLink <==> (p.url.Some? &&
            (Contains(Lower(p.url.value), "twitter.com") || Contains(Lower(p.url.value), "x.com"))))
      && (p.isJob <==> JobTagged(hit))
  {
  }

  /** The posted time of a converted hit is its creation time, and the age
      text is written from it (empty without one). */
  lemma ConvertHitTime(hit: Hit, page: int, now: Timestamp, parse: GitHubStars.UrlParser)
    ensures var r := ConvertHit(hit, page, now, parse);
      r.Converted? ==>
      && r.post.postedAt == CreatedAt(hit)
      && (r.post.postedAt.Some? ==> r.post.ageText == AgeText(now - r.post.postedAt.value))
      && (r.post.postedAt.None? ==> r.post.ageText == "")
  {
  }

  /** The age text written for a converted post parses back, with the
      relative-age parser, to the creation time rounded down to the unit the
      text uses: never later than the true time and less than one unit
      earlier. The clock is a datetime. */
  lemma ConvertedAgeParsesBack(hit: Hit, page: int, now: Timestamp, parse: GitHubStars.UrlParser, p: Post)
    requires ConvertHit(hit, page, now, parse) == Converted(p)
    requires p.postedAt.Some? && p.postedAt.value <= now && InDatetimeRange(now)
    ensures ParseAge(p.ageText, now).Parsed? && ParseAge(p.ageText, now).time.Some?
    ensures p.postedAt.value <= ParseAge(p.ageText, now).time.value < p.postedAt.value + AgeUnit(now - p.postedAt.value)
  {
    ConvertHitTime(hit, page, now, parse);
    var delta := now - p.postedAt.value;
    assert p.ageText == AgeText(delta);
    AgeTextParsesBack(p.ageText, delta, now);
    assert AgeUnit(delta) == AgeUnit(now - p.postedAt.value);
  }

  lemma AgeTextParsesBack(text: string, delta: int, now: Timestamp)
    requires text == AgeText(delta) && delta >= 0
    requires InDatetimeRange(now) && InDatetimeRange(now - delta)
    ensures ParseAge(text, now).Parsed? && ParseAge(text, now).time.Some?
    ensures now - delta <= ParseAge(text, now).time.value < now - delta + AgeUnit(delta)
  {
    AgeTextRoundTrip(delta, now);
  }

  /** The posts of the hits of one page, in order; a hit that gives no post
      (no title, or a conversion error) is skipped alone. */
  function ConvertAll(hits: seq<Hit>, page: int, now: Timestamp, parse: GitHubStars.UrlParser): (posts: seq<Post>)
    ensures |posts| <= |hits|
    ensures forall k :: 0 <= k < |posts| ==> posts[k].pageNumber == page && posts[k].rank == 0
  {
    if hits == [] then []
    else HitPosts(hits[0], page, now, parse) + ConvertAll(hits[1..], page, now, parse)
  }

  /** The posts one hit contributes: its post, or none when the conversion
      gives nothing or raises. */
  function HitPosts(hit: Hit, page: int, now: Timestamp, parse: GitHubStars.UrlParser): (posts: seq<Post>)
    ensures |posts| <= 1
    ensures forall k :: 0 <= k < |posts| ==> posts[k].pageNumber == page && posts[k].rank == 0
  {
    var r := ConvertHit(hit, page, now, parse);
    if r.Converted? then [r.post] else []
  }

  /** Conversion is hit by hit: converting a page split in two converts each
      part. In particular a hit whose conversion fails drops out and the
      hits around it are converted as if it were not there. */
  lemma {:induction false} ConvertAllAppend(a: seq<Hit>, b: seq<Hit>, page: int, now: Timestamp,
                                            parse: GitHubStars.UrlParser)
    ensures ConvertAll(a + b, page, now, parse) == ConvertAll(a, page, now, parse) + ConvertAll(b, page, now, parse)
    decreases |a|
  {
    if a == [] {
      assert a + b == b;
    } else {
      assert (a + b)[1..] == a[1..] + b && (a + b)[0] == a[0];
      ConvertAllAppend(a[1..], b, page, now, parse);
      AppendAssociates(HitPosts(a[0], page, now, parse), ConvertAll(a[1..], page, now, parse), ConvertAll(b, page, now, parse));
    }
  }

  lemma AppendAssociates(x: seq<Post>, y: seq<Post>, z: seq<Post>)
    ensures x + (y + z) == (x + y) + z
  {
  }

  lemma FailedHitGivesNothing(h: Hit, page: int, now: Timestamp, parse: GitHubStars.UrlParser)
    requires !ConvertHit(h, page, now, parse).Converted?
    ensures ConvertAll([h], page, now, parse) == []
  {
    assert [h][1..] == [];
  }

  lemma FailedHitDropsAlone(a: seq<Hit>, h: Hit, b: seq<Hit>, page: int, now: Timestamp,
                            parse: GitHubStars.UrlParser)
    requires !ConvertHit(h, page, now, parse).Converted?
    ensures ConvertAll(a + [h] + b, page, now, parse) == ConvertAll(a, page, now, parse) + ConvertAll(b, page, now, parse)
  {
    ConvertAllAppend(a + [h], b, page, now, parse);
    ConvertAllAppend(a, [h], page, now, parse);
    FailedHitGivesNothing(h, page, now, parse);
  }

  // ---------------------------------------------------------------------
  // The page loop

  /** The largest page size the loop asks for. */
  const MaxHitsPerPage := 1000

  /** The response to one search request. */
  datatype SearchResponse = Hits(hits: seq<Hit>) | RequestError

  /** One request: the page index, the page size asked for and the creation
      time the hits must be newer than. */
  datatype SearchRequest = SearchRequest(page: nat, hitsPerPage: int, createdAfter: Timestamp)

  /** Why the loop stopped. */
  datatype SearchStop = BudgetSpent | NoHits | RequestFailed | ScriptEnded

  /** The posts collected, the requests made in order, and the stop reason. */
  datatype SearchRun = SearchRun(posts: seq<Post>, requests: seq<SearchRequest>, stop: SearchStop)

  /** The page size for the next request, or `None` when a truthy budget is
      spent: the whole page when there is no budget, otherwise the budget
      left, at most a whole page. */
  function PageSize(maxPosts: Option<int>, collected: nat): (r: Option<int>)
    ensures !Truthy(maxPosts) ==> r == Some(MaxHitsPerPage)
    ensures Truthy(maxPosts) ==> (r.None? <==> collected >= maxPosts.value)
    ensures r.Some? ==> 0 < r.value <= MaxHitsPerPage
    ensures Truthy(maxPosts) && r.Some? ==>
      r.value <= maxPosts.value - collected && (r.value == MaxHitsPerPage || r.value == maxPosts.value - collected)
  {
    if Truthy(maxPosts) then
      var remaining := maxPosts.value - collected;
      if remaining <= 0 then None
      else Some(if remaining < MaxHitsPerPage then remaining else MaxHitsPerPage)
    else Some(MaxHitsPerPage)
  }

  /** The creation-time filter: `days` days before `now`. */
  function Cutoff(now: Timestamp, days: int): Timestamp {
    now - days * DaySeconds
  }

  /** `fetch_posts_in_timeframe`. The cutoff is computed first, outside any
      `try`: a lookback reaching outside the datetime range raises
      `OverflowError` before any request (`None`). Otherwise pages 0, 1, ...
      are requested in turn, each with the cutoff, the i-th request
      receiving `script[i]`. */
  function FetchPostsInTimeframe(days: int, maxPosts: Option<int>, now: Timestamp,
                                 parse: GitHubStars.UrlParser, script: seq<SearchResponse>): (r: Option<SearchRun>)
    ensures r.None? <==> !InDatetimeRange(Cutoff(now, days))
    ensures r.Some? ==> |r.value.requests| <= |script| && PagesInOrder(r.value.requests, script, 0, Cutoff(now, days))
  {
    if !InDatetimeRange(Cutoff(now, days)) then None
    else
      SearchFromOrder(maxPosts, Cutoff(now, days), now, parse, 0, [], script);
      Some(SearchFrom(maxPosts, Cutoff(now, days), now, parse, 0, [], script))
  }

  /** The loop from page `page` on, with `collected` already gathered. */
  function SearchFrom(maxPosts: Option<int>, cutoff: Timestamp, now: Timestamp, parse: GitHubStars.UrlParser,
                      page: nat, collected: seq<Post>, script: seq<SearchResponse>): (r: SearchRun)
    ensures |r.requests| <= |script|
    ensures |collected| <= |r.posts| && r.posts[..|collected|] == collected
    decreases |script|
  {
    match PageSize(maxPosts, |collected|)
    case None => SearchRun(collected, [], BudgetSpent)
    case Some(size) =>
      if script == [] then SearchRun(collected, [], ScriptEnded)
      else
        var request := SearchRequest(page, size, cutoff);
        match script[0]
        case RequestError => SearchRun(collected, [request], RequestFailed)
        case Hits(hits) =>
          if hits == [] then SearchRun(collected, [request], NoHits)
          else
            var more := collected + ConvertAll(hits, page, now, parse);
            var rest := SearchFrom(maxPosts, cutoff, now, parse, page + 1, more, script[1..]);
            assert rest.posts[..|collected|] == more[..|collected|];
            SearchRun(rest.posts, [request] + rest.requests, rest.stop)
  }

  /** The posts of the responses to a run of requests starting at `page`. */
  function ConvertPages(script: seq<SearchResponse>, page: nat, now: Timestamp,
                        parse: GitHubStars.UrlParser): seq<Post>
  {
    if script == [] then []
    else
      (if script[0].Hits? then ConvertAll(script[0].hits, page, now, parse) else [])
      + ConvertPages(script[1..], page + 1, now, parse)
  }

  /** The request of index k asks for page `page + k` with the common
      cutoff, and every request but the last got a non-empty page of hits. */
  predicate PagesInOrder(requests: seq<SearchRequest>, script: seq<SearchResponse>, page: nat, cutoff: Timestamp)
    requires |requests| <= |script|
  {
    && (forall k :: 0 <= k < |requests| ==> requests[k].page == page + k && requests[k].createdAfter == cutoff)
    && (forall k :: 0 <= k < |requests| - 1 ==> script[k].Hits? && script[k].hits != [])
  }

  /** The loop's order: the k-th request asks for page `page + k` with the
      common cutoff, and the loop went on past a response only when that
      response was a non-empty page. */
  lemma {:induction false} SearchFromOrder(maxPosts: Option<int>, cutoff: Timestamp, now: Timestamp,
                                           parse: GitHubStars.UrlParser, page: nat, collected: seq<Post>,
                                           script: seq<SearchResponse>)
    ensures PagesInOrder(SearchFrom(maxPosts, cutoff, now, parse, page, collected, script).requests, script, page, cutoff)
    decreases |script|
  {
    var r := SearchFrom(maxPosts, cutoff, now, parse, page, collected, script);
    var n := |r.requests|;
    if PageSize(maxPosts, |collected|).Some? && script != [] && script[0].Hits? && script[0].hits != [] {
      var size := PageSize(maxPosts, |collected|).value;
      var more := collected + ConvertAll(script[0].hits, page, now, parse);
      var rest := SearchFrom(maxPosts, cutoff, now, parse, page + 1, more, script[1..]);
      SearchFromOrder(maxPosts, cutoff, now, parse, page + 1, more, script[1..]);
      assert r.requests == [SearchRequest(page, size, cutoff)] + rest.requests;
      OrderStep(r.requests, rest.requests, script, page, cutoff);
    }
  }

  /** One more request in front of an ordered run keeps it ordered when the
      request asks for the page before the run's first, and got hits. */
  lemma OrderStep(requests: seq<SearchRequest>, rest: seq<SearchRequest>, script: seq<SearchResponse>,
                  page: nat, cutoff: Timestamp)
    requires script != [] && script[0].Hits? && script[0].hits != [] && |rest| <= |script| - 1
    requires |requests| == 1 + |rest| && requests[0].page == page && requests[0].createdAfter == cutoff
    requires forall k :: 1 <= k < |requests| ==> requests[k] == rest[k - 1]
    requires PagesInOrder(rest, script[1..], page + 1, cutoff)
    ensures PagesInOrder(requests, script, page, cutoff)
  {
    forall k | 1 <= k < |requests| ensures requests[k].page == page + k && requests[k].createdAfter == cutoff {
      assert requests[k] == rest[k - 1];
    }
    forall k | 1 <= k < |requests| - 1 ensures script[k].Hits? && script[k].hits != [] {
      assert script[k] == script[1..][k - 1];
    }
  }

  /** The loop's content: the posts are those collected before followed by
      the conversion of every page received, in order. */
  lemma {:induction false} SearchFromPosts(maxPosts: Option<int>, cutoff: Timestamp, now: Timestamp,
                                           parse: GitHubStars.UrlParser, page: nat, collected: seq<Post>,
                                           script: seq<SearchResponse>)
    ensures SearchFrom(maxPosts, cutoff, now, parse, page, collected, script).posts
      == collected + ConvertPages(script[..|SearchFrom(maxPosts, cutoff, now, parse, page, collected, script).requests|], page, now, parse)
    decreases |script|
  {
    var r := SearchFrom(maxPosts, cutoff, now, parse, page, collected, script);
    var n := |r.requests|;
    if PageSize(maxPosts, |collected|).Some? && script != [] && script[0].Hits? && script[0].hits != [] {
      var converted := ConvertAll(script[0].hits, page, now, parse);
      var more := collected + converted;
      var rest := SearchFrom(maxPosts, cutoff, now, parse, page + 1, more, script[1..]);
      assert r.posts == rest.posts && n == 1 + |rest.requests|;
      SearchFromPosts(maxPosts, cutoff, now, parse, page + 1, more, script[1..]);
      ConvertPagesFirst(script, n, page, now, parse);
      SearchStepPosts(collected, converted, rest.posts, ConvertPages(script[1..][..n - 1], page + 1, now, parse));
    } else {
      SearchStopPosts(maxPosts, cutoff, now, parse, page, collected, script);
    }
  }

  /** The pages of the first n responses: the first response's posts, then
      those of the next n - 1 from the next page on. */
  lemma ConvertPagesFirst(script: seq<SearchResponse>, n: nat, page: nat, now: Timestamp, parse: GitHubStars.UrlParser)
    requires 1 <= n <= |script| && script[0].Hits?
    ensures ConvertPages(script[..n], page, now, parse)
      == ConvertAll(script[0].hits, page, now, parse) + ConvertPages(script[1..][..n - 1], page + 1, now, parse)
  {
    assert script[..n][0] == script[0] && script[..n][1..] == script[1..][..n - 1];
  }

  lemma SearchStepPosts(collected: seq<Post>, converted: seq<Post>, posts: seq<Post>, tail: seq<Post>)
    requires posts == collected + converted + tail
    ensures posts == collected + (converted + tail)
  {
  }

  /** When the loop stops at its first step it returns what it had, and
      the responses it consumed (none or one) contribute no posts. */
  lemma SearchStopPosts(maxPosts: Option<int>, cutoff: Timestamp, now: Timestamp,
                        parse: GitHubStars.UrlParser, page: nat, collected: seq<Post>,
                        script: seq<SearchResponse>)
    requires !(PageSize(maxPosts, |collected|).Some? && script != [] && script[0].Hits? && script[0].hits != [])
    ensures SearchFrom(maxPosts, cutoff, now, parse, page, collected, script).posts == collected
    ensures ConvertPages(script[..|SearchFrom(maxPosts, cutoff, now, parse, page, collected, script).requests|], page, now, parse) == []
  {
    var n := |SearchFrom(maxPosts, cutoff, now, parse, page, collected, script).requests|;
    if n == 0 {
      assert script[..0] == [];
    } else {
      assert script[..1][1..] == [];
      assert ConvertAll([], page, now, parse) == [];
    }
  }

  /** Each request asks for the page size `PageSize` gives for the posts
      collected before it: `before` at the start, plus the posts of every
      earlier response. */
  predicate SizedByProgress(requests: seq<SearchRequest>, script: seq<SearchResponse>, maxPosts: Option<int>,
                            before: nat, page: nat, now: Timestamp, parse: GitHubStars.UrlParser)
    requires |requests| <= |script|
  {
    forall k :: 0 <= k < |requests| ==>
      PageSize(maxPosts, before + |ConvertPages(script[..k], page, now, parse)|) == Some(requests[k].hitsPerPage)
  }

  /** The page size of every request is recomputed from the posts collected
      so far: under a truthy budget it is the budget left (at most a whole
      page), so no request asks for more than the loop still wants. */
  lemma {:induction false} SearchFromPageSizes(maxPosts: Option<int>, cutoff: Timestamp, now: Timestamp,
                                               parse: GitHubStars.UrlParser, page: nat, collected: seq<Post>,
                                               script: seq<SearchResponse>)
    ensures SizedByProgress(SearchFrom(maxPosts, cutoff, now, parse, page, collected, script).requests,
                            script, maxPosts, |collected|, page, now, parse)
    decreases |script|
  {
    var size := PageSize(maxPosts, |collected|);
    if size.Some? && script != [] && script[0].Hits? && script[0].hits != [] {
      var more := collected + ConvertAll(script[0].hits, page, now, parse);
      SearchFromPageSizes(maxPosts, cutoff, now, parse, page + 1, more, script[1..]);
      SearchFromContinues(maxPosts, cutoff, now, parse, page, collected, script);
      var requests := SearchFrom(maxPosts, cutoff, now, parse, page, collected, script).requests;
      var rest := SearchFrom(maxPosts, cutoff, now, parse, page + 1, more, script[1..]).requests;
      assert requests[1..] == rest;
      SizeStep(requests, rest, script, maxPosts, |collected|, |more|, page, now, parse);
    } else {
      SearchStopSizes(maxPosts, cutoff, now, parse, page, collected, script);
    }
  }

  /** The loop past a non-empty page: the request for it, then the loop
      from the next page with that page's posts added. */
  lemma SearchFromContinues(maxPosts: Option<int>, cutoff: Timestamp, now: Timestamp,
                            parse: GitHubStars.UrlParser, page: nat, collected: seq<Post>,
                            script: seq<SearchResponse>)
    requires PageSize(maxPosts, |collected|).Some? && script != [] && script[0].Hits? && script[0].hits != []
    ensures var rest := SearchFrom(maxPosts, cutoff, now, parse, page + 1,
                                   collected + ConvertAll(script[0].hits, page, now, parse), script[1..]);
      SearchFrom(maxPosts, cutoff, now, parse, page, collected, script)
        == SearchRun(rest.posts, [SearchRequest(page, PageSize(maxPosts, |collected|).value, cutoff)] + rest.requests, rest.stop)
  {
  }

  /** A loop that stops at its first step made at most that one request,
      sized from the posts it started with. */
  lemma SearchStopSizes(maxPosts: Option<int>, cutoff: Timestamp, now: Timestamp,
                        parse: GitHubStars.UrlParser, page: nat, collected: seq<Post>,
                        script: seq<SearchResponse>)
    requires !(PageSize(maxPosts, |collected|).Some? && script != [] && script[0].Hits? && script[0].hits != [])
    ensures SizedByProgress(SearchFrom(maxPosts, cutoff, now, parse, page, collected, script).requests,
                            script, maxPosts, |collected|, page, now, parse)
  {
    assert script[..0] == [];
  }

  /** One more request in front of a run sized by its progress keeps the run
      sized by progress, when it was sized from the same start and its
      response's posts are counted before the rest. */
  lemma SizeStep(requests: seq<SearchRequest>, rest: seq<SearchRequest>, script: seq<SearchResponse>,
                 maxPosts: Option<int>, before: nat, after: nat, page: nat, now: Timestamp, parse: GitHubStars.UrlParser)
    requires script != [] && script[0].Hits? && |rest| <= |script| - 1
    requires requests != [] && requests[1..] == rest && PageSize(maxPosts, before) == Some(requests[0].hitsPerPage)
    requires after == before + |ConvertAll(script[0].hits, page, now, parse)|
    requires SizedByProgress(rest, script[1..], maxPosts, after, page + 1, now, parse)
    ensures SizedByProgress(requests, script, maxPosts, before, page, now, parse)
  {
    assert script[..0] == [];
    forall k | 1 <= k < |requests|
      ensures PageSize(maxPosts, before + |ConvertPages(script[..k], page, now, parse)|) == Some(requests[k].hitsPerPage)
    {
      ConvertPagesFirst(script, k, page, now, parse);
      assert requests[k] == rest[k - 1];
    }
  }

  /** Every request asks for a page size between 1 and 1000, and under a
      truthy budget for no more than the budget. */
  predicate RequestsWithinBudget(requests: seq<SearchRequest>, maxPosts: Option<int>) {
    forall k :: 0 <= k < |requests| ==>
      0 < requests[k].hitsPerPage <= MaxHitsPerPage
      && (Truthy(maxPosts) ==> requests[k].hitsPerPage <= maxPosts.value)
  }

  /** Every response that is a page of hits has at most as many hits as its
      request asked for. */
  predicate Honoured(requests: seq<SearchRequest>, script: seq<SearchResponse>)
    requires |requests| <= |script|
  {
    forall k :: 0 <= k < |requests| ==> script[k].Hits? ==> |script[k].hits| <= requests[k].hitsPerPage
  }

  /** Under a truthy budget, and when the service never sends more hits than
      asked for, the loop never collects more posts than the budget (or than
      it started with, if that was already more). */
  lemma {:induction false} SearchFromBudget(maxPosts: Option<int>, cutoff: Timestamp, now: Timestamp,
                                            parse: GitHubStars.UrlParser, page: nat, collected: seq<Post>,
                                            script: seq<SearchResponse>)
    requires Truthy(maxPosts)
    requires Honoured(SearchFrom(maxPosts, cutoff, now, parse, page, collected, script).requests, script)
    ensures |SearchFrom(maxPosts, cutoff, now, parse, page, collected, script).posts|
      <= if |collected| > maxPosts.value then |collected| else maxPosts.value
    ensures RequestsWithinBudget(SearchFrom(maxPosts, cutoff, now, parse, page, collected, script).requests, maxPosts)
    decreases |script|
  {
    var r := SearchFrom(maxPosts, cutoff, now, parse, page, collected, script);
    var size := PageSize(maxPosts, |collected|);
    if size.Some? && script != [] && script[0].Hits? && script[0].hits != [] {
      var more := collected + ConvertAll(script[0].hits, page, now, parse);
      var rest := SearchFrom(maxPosts, cutoff, now, parse, page + 1, more, script[1..]);
      SearchFromContinues(maxPosts, cutoff, now, parse, page, collected, script);
      assert |script[0].hits| <= size.value;
      forall k | 0 <= k < |rest.requests| ensures script[1..][k].Hits? ==> |script[1..][k].hits| <= rest.requests[k].hitsPerPage {
        assert script[1..][k] == script[k + 1] && r.requests[k + 1] == rest.requests[k];
      }
      SearchFromBudget(maxPosts, cutoff, now, parse, page + 1, more, script[1..]);
      forall k | 0 <= k < |r.requests|
        ensures 0 < r.requests[k].hitsPerPage <= MaxHitsPerPage && r.requests[k].hitsPerPage <= maxPosts.value
      {
        if k > 0 { assert r.requests[k] == rest.requests[k - 1]; }
      }
    }
  }

  /** The budget promise from an empty start: with a truthy budget and a
      service that honours the page size, a run that gets past the cutoff
      holds at most `max(maxPosts, 0)` posts. */
  lemma FetchPostsBudget(days: int, maxPosts: Option<int>, now: Timestamp,
                         parse: GitHubStars.UrlParser, script: seq<SearchResponse>)
    requires Truthy(maxPosts)
    requires FetchPostsInTimeframe(days, maxPosts, now, parse, script).Some? ==>
      Honoured(FetchPostsInTimeframe(days, maxPosts, now, parse, script).value.requests, script)
    ensures FetchPostsInTimeframe(days, maxPosts, now, parse, script).Some? ==>
      |FetchPostsInTimeframe(days, maxPosts, now, parse, script).value.posts| <= if maxPosts.value < 0 then 0 else maxPosts.value
  {
    if InDatetimeRange(Cutoff(now, days)) {
      SearchFromBudget(maxPosts, Cutoff(now, days), now, parse, 0, [], script);
    }
  }

  predicate FullPages(requests: seq<SearchRequest>) {
    forall k :: 0 <= k < |requests| ==> requests[k].hitsPerPage == MaxHitsPerPage
  }

  /** Without a truthy budget (none, or 0) every request asks for a full
      page. */
  lemma {:induction false} UnbudgetedPagesAreFull(maxPosts: Option<int>, cutoff: Timestamp, now: Timestamp,
                                                  parse: GitHubStars.UrlParser, page: nat, collected: seq<Post>,
                                                  script: seq<SearchResponse>)
    requires !Truthy(maxPosts)
    ensures FullPages(SearchFrom(maxPosts, cutoff, now, parse, page, collected, script).requests)
    decreases |script|
  {
    if script != [] && script[0].Hits? && script[0].hits != [] {
      var more := collected + ConvertAll(script[0].hits, page, now, parse);
      UnbudgetedPagesAreFull(maxPosts, cutoff, now, parse, page + 1, more, script[1..]);
      var rest := SearchFrom(maxPosts, cutoff, now, parse, page + 1, more, script[1..]);
      var requests := SearchFrom(maxPosts, cutoff, now, parse, page, collected, script).requests;
      assert requests == [SearchRequest(page, MaxHitsPerPage, cutoff)] + rest.requests;
      forall k | 1 <= k < |requests| ensures requests[k].hitsPerPage == MaxHitsPerPage {
        assert requests[k] == rest.requests[k - 1];
      }
    }
  }

  /** The loop stops on a request failure with the posts collected so far,
      and on the first page with no hits. */
  lemma StopsOnErrorOrEmptyPage(maxPosts: Option<int>, cutoff: Timestamp, now: Timestamp,
                                parse: GitHubStars.UrlParser, page: nat, collected: seq<Post>,
                                script: seq<SearchResponse>)
    requires PageSize(maxPosts, |collected|).Some? && script != []
    requires script[0] == RequestError || script[0] == Hits([])
    ensures SearchFrom(maxPosts, cutoff, now, parse, page, collected, script).posts == collected
    ensures |SearchFrom(maxPosts, cutoff, now, parse, page, collected, script).requests| == 1
    ensures SearchFrom(maxPosts, cutoff, now, parse, page, collected, script).stop
      == if script[0].RequestError? then RequestFailed else NoHits
  {
  }
}

=== FILE: text.dfy ===
/** The string primitives the scrapers rely on, written as Python's `str`
    methods behave on the characters they are given: `lower`, `strip`,
    `split`, `in` (substring), `startswith`/`endswith`, `int(...)` and
    `str(int)`. */
module Text {
  import opened Optional

  /** The characters Python's `str.split()` and `str.strip()` treat as
      whitespace, restricted to the ASCII and Latin-1 range. */
  const Whitespace: set<char> :=
    {' ', '\t', '\n', '\r', '\U{0B}', '\U{0C}',
     '\U{1C}', '\U{1D}', '\U{1E}', '\U{1F}', '\U{85}', '\U{A0}'}

  predicate IsDigit(c: char) {
    '0' <= c <= '9'
  }

  predicate IsUpper(c: char) {
    'A' <= c <= 'Z'
  }

  /** `str.lower()` on one character (ASCII letters only). */
  function LowerChar(c: char): (r: char)
    ensures !IsUpper(r)
    ensures !IsUpper(c) ==> r == c
  {
    if IsUpper(c) then (c as int + 32) as char else c
  }

  /** `str.lower()`. */
  function Lower(s: string): (r: string)
    ensures |r| == |s|
    ensures forall i :: 0 <= i < |s| ==> r[i] == LowerChar(s[i])
  {
    seq(|s|, i requires 0 <= i < |s| => LowerChar(s[i]))
  }

  predicate NoUpper(s: string) {
    forall i :: 0 <= i < |s| ==> !IsUpper(s[i])
  }

  lemma LowerOfLowercase(s: string)
    requires NoUpper(s)
    ensures Lower(s) == s
  {
  }

  /** `s.startswith(p)`. */
  predicate StartsWith(s: string, p: string) {
    |p| <= |s| && s[..|p|] == p
  }

  /** `s.endswith(p)`. */
  predicate EndsWith(s: string, p: string) {
    |p| <= |s| && s[|s| - |p|..] == p
  }

  /** `needle in hay` for strings: some position of `hay` starts a copy of
      `needle`. */
  predicate Contains(hay: string, needle: string)
    decreases |hay|
  {
    StartsWith(hay, needle) || (|hay| > 0 && Contains(hay[1..], needle))
  }

  /** A substring found at a position is contained. */
  lemma {:induction false} ContainsAt(hay: string, needle: string, k: nat)
    requires k + |needle| <= |hay|
    requires hay[k..k + |needle|] == needle
    ensures Contains(hay, needle)
    decreases k
  {
    if k == 0 {
      assert hay[..|needle|] == needle;
    } else {
      assert hay[1..][k - 1..k - 1 + |needle|] == hay[k..k + |needle|];
      ContainsAt(hay[1..], needle, k - 1);
    }
  }

  /** A needle longer than the haystack is not contained in it. */
  lemma {:induction false} NotContainsLonger(hay: string, needle: string)
    requires |hay| < |needle|
    ensures !Contains(hay, needle)
    decreases |hay|
  {
    if |hay| > 0 {
      NotContainsLonger(hay[1..], needle);
    }
  }

  /** A needle of the haystack's own length is contained only if equal. */
  lemma NotContainsSameLength(hay: string, needle: string)
    requires |hay| == |needle| && hay != needle
    ensures !Contains(hay, needle)
  {
    assert hay[..|needle|] == hay;
    if |hay| > 0 {
      NotContainsLonger(hay[1..], needle);
    }
  }

  /** A needle whose first character starts no window of the haystack of
      the needle's length is not contained in it. */
  lemma {:induction false} NotContainsFirstChar(hay: string, needle: string)
    requires |needle| > 0
    requires forall k :: 0 <= k && k + |needle| <= |hay| ==> hay[k] != needle[0]
    ensures !Contains(hay, needle)
    decreases |hay|
  {
    if |needle| <= |hay| {
      assert hay[..|needle|][0] == hay[0];
    }
    if |hay| > 0 {
      forall k | 0 <= k && k + |needle| <= |hay[1..]| ensures hay[1..][k] != needle[0] {
        assert hay[1..][k] == hay[k + 1];
      }
      NotContainsFirstChar(hay[1..], needle);
    }
  }

  /** A containment is witnessed by a position. */
  lemma {:induction false} ContainsWitness(hay: string, needle: string) returns (k: nat)
    requires Contains(hay, needle)
    ensures k + |needle| <= |hay| && hay[k..k + |needle|] == needle
    decreases |hay|
  {
    if StartsWith(hay, needle) {
      k := 0;
    } else {
      var k' := ContainsWitness(hay[1..], needle);
      k := k' + 1;
      assert hay[1..][k'..k' + |needle|] == hay[k..k + |needle|];
    }
  }

  /** Containment is inherited from a contained substring: whatever contains
      `big` contains every piece of `big`. */
  lemma ContainsTransitive(hay: string, big: string, small: string)
    requires Contains(hay, big)
    requires Contains(big, small)
    ensures Contains(hay, small)
  {
    var i := ContainsWitness(hay, big);
    var j := ContainsWitness(big, small);
    forall k | 0 <= k < |small| ensures hay[i + j + k] == small[k] {
      assert hay[i..i + |big|][j + k] == big[j + k];
      assert big[j..j + |small|][k] == small[k];
    }
    assert hay[i + j..i + j + |small|] == small;
    ContainsAt(hay, small, i + j);
  }

  /** `s.lstrip(chars)`. */
  function StripLeft(s: string, chars: set<char>): (r: string)
    ensures |r| <= |s|
    ensures r == s[|s| - |r|..]
    ensures |r| > 0 ==> r[0] !in chars
    ensures forall i :: 0 <= i < |s| - |r| ==> s[i] in chars
    decreases |s|
  {
    if |s| > 0 && s[0] in chars then StripLeft(s[1..], chars) else s
  }

  /** `s.rstrip(chars)`. */
  function StripRight(s: string, chars: set<char>): (r: string)
    ensures |r| <= |s|
    ensures r == s[..|r|]
    ensures |r| > 0 ==> r[|r| - 1] !in chars
    ensures forall i :: |r| <= i < |s| ==> s[i] in chars
    decreases |s|
  {
    if |s| > 0 && s[|s| - 1] in chars then StripRight(s[..|s| - 1], chars) else s
  }

  /** `s.strip(chars)`: both ends. */
  function StripChars(s: string, chars: set<char>): string {
    StripRight(StripLeft(s, chars), chars)
  }

  /** `s.strip()`. */
  function Strip(s: string): string {
    StripChars(s, Whitespace)
  }

  /** A string whose ends are not in `chars` is left alone by `strip`. */
  lemma StripCharsKeepsTrimmed(s: string, chars: set<char>)
    requires |s| > 0 ==> s[0] !in chars && s[|s| - 1] !in chars
    ensures StripChars(s, chars) == s
  {
  }

  /** The longest prefix of `s` free of separators. */
  function Word(s: string, seps: set<char>): (w: string)
    ensures |w| <= |s| && w == s[..|w|]
    ensures forall i :: 0 <= i < |w| ==> w[i] !in seps
    ensures |w| < |s| ==> s[|w|] in seps
    decreases |s|
  {
    if s == [] || s[0] in seps then [] else [s[0]] + Word(s[1..], seps)
  }

  /** The maximal non-empty runs of non-separator characters, in order. With
      `seps == Whitespace` this is Python's `s.split()`; with `seps == {'/'}`
      it is `[p for p in s.split("/") if p]`. */
  function Tokens(s: string, seps: set<char>): (r: seq<string>)
    ensures forall k :: 0 <= k < |r| ==> |r[k]| > 0
    ensures forall k, i :: 0 <= k < |r| && 0 <= i < |r[k]| ==> r[k][i] !in seps
    decreases |s|
  {
    if s == [] then []
    else if s[0] in seps then Tokens(s[1..], seps)
    else
      var w := Word(s, seps);
      [w] + Tokens(s[|w|..], seps)
  }

  /** `s.split()`. */
  function Words(s: string): seq<string> {
    Tokens(s, Whitespace)
  }

  predicate FreeOf(s: string, seps: set<char>) {
    forall i :: 0 <= i < |s| ==> s[i] !in seps
  }

  /** A word followed by a separator splits off as the first token. */
  lemma {:induction false} TokensOfWordThenSep(w: string, c: char, rest: string, seps: set<char>)
    requires |w| > 0 && FreeOf(w, seps) && c in seps
    ensures Tokens(w + [c] + rest, seps) == [w] + Tokens(rest, seps)
  {
    var s := w + [c] + rest;
    WordOfFreePrefix(w, [c] + rest, seps);
    assert s == w + ([c] + rest);
    assert s[|w|..] == [c] + rest;
    assert ([c] + rest)[1..] == rest;
  }

  /** A separator-free, non-empty string is a single token. */
  lemma {:induction false} TokensOfWord(w: string, seps: set<char>)
    requires |w| > 0 && FreeOf(w, seps)
    ensures Tokens(w, seps) == [w]
  {
    WordOfFreePrefix(w, [], seps);
    assert w + [] == w;
    assert w[|w|..] == [];
  }

  lemma {:induction false} WordOfFreePrefix(w: string, rest: string, seps: set<char>)
    requires FreeOf(w, seps)
    requires rest == [] || rest[0] in seps
    ensures Word(w + rest, seps) == w
    decreases |w|
  {
    if w == [] {
      assert w + rest == rest;
    } else {
      assert (w + rest)[1..] == w[1..] + rest;
      WordOfFreePrefix(w[1..], rest, seps);
      assert [w[0]] + w[1..] == w;
    }
  }

  /** The digit character for `d`. */
  function DigitChar(d: nat): (c: char)
    requires d < 10
    ensures IsDigit(c)
  {
    "0123456789"[d]
  }

  function DigitValue(c: char): (d: nat)
    requires IsDigit(c)
    ensures d < 10
  {
    c as int - '0' as int
  }

  lemma DigitRoundTrip(d: nat)
    requires d < 10
    ensures DigitValue(DigitChar(d)) == d
  {
  }

  /** `str(n)` for a non-negative integer: its decimal digits, most
      significant first, without leading zeros. */
  function NatToString(n: nat): (s: string)
    ensures |s| > 0
    ensures forall i :: 0 <= i < |s| ==> IsDigit(s[i])
    decreases n
  {
    if n < 10 then [DigitChar(n)] else NatToString(n / 10) + [DigitChar(n % 10)]
  }

  /** `str(i)` for any integer. */
  function IntToString(i: int): (s: string)
    ensures |s| > 0
  {
    if i < 0 then "-" + NatToString(-i) else NatToString(i)
  }

  predicate AllDigits(s: string) {
    forall i :: 0 <= i < |s| ==> IsDigit(s[i])
  }

  /** The value of a string of decimal digits. */
  function DigitsValue(s: string): nat
    requires AllDigits(s)
    decreases |s|
  {
    if s == [] then 0 else DigitsValue(s[..|s| - 1]) * 10 + DigitValue(s[|s| - 1])
  }

  /** `int(s)` on a string: surrounding whitespace is ignored, an optional
      sign may lead, and at least one decimal digit must follow; anything
      else is Python's `ValueError`, here `None`. */
  function ParseInt(s: string): Option<int> {
    var t := Strip(s);
    if |t| > 0 && (t[0] == '-' || t[0] == '+') then
      var body := t[1..];
      if |body| > 0 && AllDigits(body) then
        var v: int := DigitsValue(body);
        Some(if t[0] == '-' then -v else v)
      else None
    else if |t| > 0 && AllDigits(t) then Some(DigitsValue(t))
    else None
  }

  lemma {:induction false} DigitsOfNatToString(n: nat)
    ensures DigitsValue(NatToString(n)) == n
    decreases n
  {
    var s := NatToString(n);
    if n < 10 {
      assert s[..0] == [];
      DigitRoundTrip(n);
    } else {
      DigitsOfNatToString(n / 10);
      assert s[..|s| - 1] == NatToString(n / 10);
      DigitRoundTrip(n % 10);
    }
  }

  /** `int(str(i)) == i`: the decimal rendering parses back to the same
      integer, for every integer. */
  lemma ParseIntOfIntToString(i: int)
    ensures ParseInt(IntToString(i)) == Some(i)
  {
    var s := IntToString(i);
    var digits := NatToString(if i < 0 then -i else i);
    assert s[0] !in Whitespace && s[|s| - 1] !in Whitespace by {
      assert IsDigit(digits[|digits| - 1]);
      if i >= 0 { assert IsDigit(digits[0]); }
    }
    StripCharsKeepsTrimmed(s, Whitespace);
    DigitsOfNatToString(if i < 0 then -i else i);
    if i < 0 {
      assert s[1..] == digits;
    } else {
      assert IsDigit(s[0]);
    }
  }

  /** Distinct naturals render as distinct strings. */
  lemma NatToStringInjective(m: nat, n: nat)
    requires NatToString(m) == NatToString(n)
    ensures m == n
  {
    DigitsOfNatToString(m);
    DigitsOfNatToString(n);
  }
}
